=== FILE: README.md ===
# CarUI Inspector, modelled in Dafny

CarUI Inspector inspects the user interface of an Android car head unit from a
desktop. It has five parts:

- A FastAPI backend (`server/main.py`) takes screenshots and UI hierarchy dumps
  over adb, maps logical displays to physical ones, and injects taps, swipes
  and BACK presses.
- A browser front end (`server/static/app.js`) draws the screenshot and parses
  each node's `bounds` attribute. It hit-tests a click against the hierarchy
  and selects the smallest node under the pointer. It also tells clicks from
  swipes and keeps a list of highlight keywords.
- An Android accessibility service (`CarUIAccessibilityService.kt`) serialises
  the window trees of a display over HTTP. Its settings screen
  (`MainActivity.kt`) checks whether the service is enabled and can enable it
  with root.
- An IDE plugin (`PythonServerManager.kt`) runs `check_dependencies.py`,
  summarises the report, watches the backend and restarts it. It finds the
  server's port through `server_port.txt`.
- The Gradle build (`build.gradle.kts`) bumps the plugin version on every build.
  Test scripts check the rules for mapping coordinates between windows and
  detecting the device model.

The model is a set of pure functions over immutable datatypes, one module per
source component:

| module | file | models |
|---|---|---|
| `Wrappers`, `Seqs`, `Text` | wrappers.dfy, seqs.dfy, text.dfy | Option/Result; first and last index; decimal text, Kotlin `toIntOrNull`, split/join, trim, ASCII case, substring search |
| `Bounds` | bounds.dfy | `parseBounds` and the inclusive containment test |
| `HitTest` | hit_test.dfy | `findAllNodesAt` and `pickBestNode` |
| `InspectorUi` | inspector_ui.dfy | breadcrumbs, tree labels, keyword highlighting, status line, display selector |
| `Canvas` | canvas.dfy | canvas-to-device mapping and the pointer handlers |
| `Backend` | backend.dfy | the screenshot, hierarchy, input and display endpoints |
| `A11yService` | a11y_service.dfy | tree serialisation and the HTTP router of the service |
| `A11ySettings` | a11y_settings.dfy | component name, enabled check, root enabling, status text |
| `ServerMonitor` | server_monitor.dfy | monitor loop, port file and URL, dependency summary |
| `Dependencies` | dependencies.dfy | pip detection, dependency records, verdict |
| `Version` | version.dfy | `incrementVersion` with its Kotlin `Int` arithmetic |
| `WindowCoords` | window_coords.dfy | the coordinate-mapping rules and device detection of the test scripts |

## Model

| member | source | states |
|---|---|---|
| Text.ParseInt | src/main/kotlin/com/carui/inspector/PythonServerManager.kt:68 | Kotlin `toInt`/`toIntOrNull`: an optional sign and at least one digit whose signed value fits 32 bits gives exactly that value; every other text gives nothing |
| Text.ParseIntOfIntToString | src/main/kotlin/com/carui/inspector/PythonServerManager.kt:68 | every 32-bit integer's decimal rendering parses back to itself |
| Text.Split | build.gradle.kts:19 | `split(sep)`: at least one part, none containing the separator |
| Text.JoinSplit | build.gradle.kts:19 | joining the parts of a split with the separator gives the string back |
| Text.SplitJoin | build.gradle.kts:36 | splitting a join of separator-free parts gives the parts back |
| Text.Trim | src/main/kotlin/com/carui/inspector/PythonServerManager.kt:68 | `trim()`: no whitespace at either end of the result, and a string without end whitespace is kept |
| Text.TrimSlice | src/main/kotlin/com/carui/inspector/PythonServerManager.kt:68 | the trimmed string is the slice after the leading whitespace, and only whitespace lies outside it |
| Bounds.ParseBounds | server/static/app.js:1426-1443 | a missing or empty attribute gives null; every parsed rectangle has unsigned corners |
| Bounds.ParseBoundsSound | server/static/app.js:1426-1443 | a parsed rectangle comes from an occurrence of `[a,b][c,d]` with four `\d+` groups, its corners are their decimal values, and no occurrence starts further left |
| Bounds.ParseBoundsComplete | server/static/app.js:1426-1443 | whenever the pattern occurs anywhere in the attribute, parsing succeeds |
| Bounds.MatchAtSound | server/static/app.js:1428 | whatever the scanner recognises at an index is an occurrence of the pattern with digit groups |
| Bounds.MatchAtGroups | server/static/app.js:1428 | the groups of the occurrence recognised at an index, whose values make the returned rectangle |
| Bounds.MatchAtComplete | server/static/app.js:1428 | wherever the pattern occurs, the scanner recognises it there with the same groups |
| Bounds.SearchFinds | server/static/app.js:1428 | the search returns the match at the first index where one starts |
| Bounds.ParseFormat | server/static/app.js:1426-1443 | formatting an unsigned rectangle as `[x1,y1][x2,y2]` and parsing it gives the rectangle back |
| Bounds.Contains | server/static/app.js:2019-2024 | a point inside (edges included) implies the rectangle is well ordered on both axes |
| Bounds.FormatExample | server/static/app.js:1426-1443 | `[100,200][300,400]` is the text of Rect(100,200,300,400) |
| Bounds.BoundsExample | server/static/app.js:1426-1443 | that text parses back to Rect(100,200,300,400) |
| Bounds.ContainsExample | server/static/app.js:1426-1443 | its area is 40000; it contains (150,250) and its corner (100,400) but not (99,250) |
| HitTest.FindAllNodesAt | server/static/app.js:2014-2037 | every element reported is a `node` whose bounds parse and contain the point |
| HitTest.Collect | server/static/app.js:2014-2037 | the traversal reports only elements the hit test accepts |
| HitTest.HitPathsExact | server/static/app.js:2014-2037 | a path is reported exactly when it is reached through `node` children and its element is hit |
| HitTest.FindAllAtPaths | server/static/app.js:2014-2037 | the reported elements are the elements at the reported paths, one for one |
| HitTest.HitPathsOrdered | server/static/app.js:2026-2034 | the report is in order: descendants before ancestors, later siblings' subtrees before earlier ones |
| HitTest.HitPathsDistinct | server/static/app.js:2026-2034 | no element is reported twice |
| HitTest.DescendantHitsFirst | server/static/app.js:2026-2034 | a hit is reported after every hit below it |
| HitTest.LaterSiblingHitsFirst | server/static/app.js:2026-2030 | a hit under a later child is reported before a hit under an earlier child |
| HitTest.PrecedesIrreflexive | server/static/app.js:2026-2034 | the report order never places a path before itself |
| HitTest.PrecedesAsymmetric | server/static/app.js:2026-2034 | the report order never places two paths each before the other |
| HitTest.FindAllNodesAtSpec | server/static/app.js:2014-2037 | the report at (x,y) is exactly the hit nodes, each once, in report order |
| HitTest.RootNeverHit | server/static/app.js:2032-2034 | a document element that is not a `node` is never reported |
| HitTest.Insert | server/static/app.js:2000-2010 | insertion keeps sortedness and adds exactly one element |
| HitTest.SortBy | server/static/app.js:2000-2010 | the area sort returns a sorted permutation of its input |
| HitTest.SortStable | server/static/app.js:2000-2010 | elements of equal area keep their input order |
| HitTest.SortHeadFirstMinimal | server/static/app.js:2000-2011 | the head of the sort is the first input element of least key |
| HitTest.SortHeadIndex | server/static/app.js:2000-2011 | the position in the input of the sort's head, whose key is least and strictly less than every earlier key |
| HitTest.PickBestNode | server/static/app.js:1996-2012 | null exactly for a missing or empty list; otherwise one of the hits |
| HitTest.PickBestIsFirstMinimal | server/static/app.js:1996-2012 | the chosen hit has the least area (unparsable bounds rank last), and every earlier hit has a larger area or unparsable bounds |
| InspectorUi.NodePath | server/static/app.js:1610-1621 | the breadcrumbs are the class names (last dotted segment, or `Node`) of the consecutive `node` ancestors ending at the element, outermost first, stopping below the first non-`node` |
| InspectorUi.CrumbsAt | server/static/app.js:1610-1621 | each breadcrumb names the `node` at the matching prefix of the element's path |
| InspectorUi.Snippet | server/static/app.js:1464-1467 | text of at most 20 characters is shown whole; longer text is cut to its first 20 characters plus `...` |
| InspectorUi.TreeLabel | server/static/app.js:1452-1467 | the label starts with the last dotted segment of the class (or tag); ` #` and the last `/` segment of a resource id follow it directly; it ends with the quoted snippet of a text; and it is no longer than those parts together |
| InspectorUi.FirstMatchingPattern | server/static/app.js:1509-1516 | the chosen keyword is the first one that is not blank and matches the label; none means no keyword matches |
| InspectorUi.AddPattern | server/static/app.js:119-148 | an empty trimmed input or a duplicate keyword is refused; otherwise the trimmed keyword is appended with the next colour preset and keywords stay distinct |
| InspectorUi.RemovePattern | server/static/app.js:150-156 | an index inside the list removes exactly that keyword, any other index changes nothing, and keywords stay distinct |
| InspectorUi.RemoveAdded | server/static/app.js:119-156 | removing a keyword just added gives the list back |
| InspectorUi.RenderStatus | server/static/app.js:30-35 | the status is the base text exactly when every tag is empty; otherwise the base, a space, and the shown tags joined by single spaces |
| InspectorUi.BracketedEmpty | server/static/app.js:30-35 | no tag is shown exactly when every tag value is empty |
| InspectorUi.BracketedConcat | server/static/app.js:30-35 | the tags shown for two runs of tags are those of the first run followed by those of the second: order is kept |
| InspectorUi.BracketedAround | server/static/app.js:30-35 | the shown tags are those before a position, then what that tag shows, then those after it |
| InspectorUi.StatusShowsTags | server/static/app.js:30-35 | every non-empty tag is shown in brackets, after the tags before it and before the tags after it |
| InspectorUi.EmptyTagHidden | server/static/app.js:30-35 | an empty tag shows nothing |
| InspectorUi.RefreshDisplayList | server/static/app.js:822-852 | without a device only the button changes; a failed fetch keeps the selection; a fetched list replaces the list; the selection is kept when asked and still listed, with the description of the first entry carrying that id (as `find` does), else the first display and its description |
| InspectorUi.SourceMessage | server/static/app.js:1372-1381 | a message appears exactly for a non-empty source; its tag names the accessibility service or UIAutomator; the log line is `📊 数据源: ` and the tag, followed by the explanation for `uiautomator_incomplete` or `uiautomator_failed` and by nothing for any other reason |
| Canvas.DeviceAxis | server/static/app.js:1770-1791 | the device coordinate is the offset scaled by natural over rendered size; nothing for a zero rendered size |
| Canvas.CanvasCoords | server/static/app.js:1770-1791 | each axis of the device point is the client offset from the canvas corner, rescaled on its own |
| Canvas.RenderedAxis | server/static/app.js:1770-1791 | the inverse scaling from device pixels back into the rendered canvas |
| Canvas.AxisRoundTrip | server/static/app.js:1770-1791 | mapping to device pixels and back is the identity, in both directions |
| Canvas.AxisInside | server/static/app.js:1770-1791 | a pointer inside the canvas maps inside the screenshot, monotonically |
| Canvas.CoordsExample | server/static/app.js:1770-1791 | a 360x640 rendering of a 1080x1920 screenshot triples the offsets |
| Canvas.DistanceTest | server/static/app.js:1842-1846 | the squared-distance comparison decides like the distance against the 10-pixel threshold |
| Canvas.MouseDown | server/static/app.js:1793-1801 | the left button starts a drag at the point and time; any other button changes nothing |
| Canvas.MouseUp | server/static/app.js:1829-1857 | a release ends any drag; it is a swipe exactly when dragging, under real control, beyond the threshold, from the start point to here, lasting the elapsed seconds but at least 0.1 s; otherwise a click here |
| Canvas.MouseLeave | server/static/app.js:1860-1864 | leaving ends the drag and clears the hovered node |
| Canvas.OtherButtonClicks | server/static/app.js:1793-1837 | a press with another button always releases as a click |
| Canvas.DragWithoutRealControl | server/static/app.js:1848-1856 | without real control a drag releases as a click |
| Canvas.LeaveCancelsDrag | server/static/app.js:1829-1864 | after leaving, a release is a plain click |
| Canvas.Inspect | server/static/app.js:1868-1922 | the node picked at the point is hit there, and exists exactly when some node is hit |
| Canvas.MouseMove | server/static/app.js:1813-1827 | while dragging, or with no hierarchy, the hover stays; otherwise it becomes a hit node or none |
| Canvas.SelectNested | server/static/app.js:1996-2037 | a click inside a button nested in a larger frame selects the button |
| Canvas.SelectExample | server/static/app.js:1996-2037 | a click at (500,500) on a 200x200 button in a full-screen frame selects the button |
| Backend.PhysId | server/main.py:211 | a mapped display captures by its physical id; an unmapped one by itself |
| Backend.ScreencapArgs | server/main.py:213-241 | the candidate count: the plain form for display "0" only, two physical-id forms, two logical forms when the ids differ; each a `screencap` command |
| Backend.CandidateAt | server/main.py:213-241 | the exact candidate at each index, in the source's order |
| Backend.CandidateTargets | server/main.py:213-241 | only the plain form names no display; every other candidate names the physical or the logical id |
| Backend.SlotTarget | server/main.py:213-241 | the display a candidate names follows from its position: none for the plain form, the physical id for the next two, the logical id after them |
| Backend.ScreencapArgsOrder | server/main.py:213-241 | candidates are pairwise different, and physical-id forms precede logical ones |
| Backend.MappedTriedFirst | server/main.py:211-225 | a display mapped to another id is captured first by that id |
| Backend.FallbackSameCommands | server/main.py:213-241 | the subprocess fallback runs `adb -s <serial> shell` plus the same words as the shell loop |
| Backend.Choose | server/main.py:243-263 | the first shell capture over 100 bytes wins; only when none qualifies, the first subprocess capture with exit code 0 and over 100 bytes; otherwise none |
| Backend.LaterCandidatesIgnored | server/main.py:243-251 | once a shell capture qualifies, later candidates' outcomes do not matter |
| Backend.LastError | server/main.py:247-264 | the last non-empty subprocess stderr; without one, the message of the last shell exception; without either, empty |
| Backend.ShellLoopLast | server/main.py:243-251 | with no usable capture, the shell loop leaves the message of its last exception, or the starting value |
| Backend.ProcLoopLast | server/main.py:256-264 | with no usable capture, the subprocess loop leaves its last non-empty stderr, or the starting value |
| Backend.LastErrorIsLoops | server/main.py:243-267 | when nothing was captured, the reported message is what the two loops as written leave in `last_err` |
| Backend.TrimToPng | server/main.py:268-273 | without a PNG signature the capture is an error; otherwise the bytes from the first signature on |
| Backend.TrimNoise | server/main.py:268-273 | leading noise before a PNG is cut away, and a clean PNG is kept whole |
| Backend.Screenshot | server/main.py:203-280 | 400 without a device; 500 with its message when opening the device raised; without a capture, 500 with the failure report and the last error; otherwise the capture cut at its first PNG signature, or 500 when it has none |
| Backend.ScreenshotServesPng | server/main.py:243-277 | a chosen capture that is a PNG behind signature-free noise is served as exactly that PNG |
| Backend.DumpCommand | server/main.py:289-297 | `uiautomator dump [--display N] <path>`, with `--display` for every display but 0 |
| Backend.XmlSlice | server/main.py:304-311 | no `<?xml` is an error naming the display; output without `>` is returned whole; otherwise a substring of the output that, when non-empty, starts with a declaration and ends with `>` |
| Backend.XmlSliceFirstLast | server/main.py:309-312 | the slice runs from the first `<?xml` through the last `>`, and is empty when that `>` precedes the declaration |
| Backend.XmlSliceRecovers | server/main.py:304-311 | a document surrounded by noise without a declaration or a trailing `>` is recovered exactly |
| Backend.Hierarchy | server/main.py:281-317 | 400 without a device; 500 with the message when opening the device or a shell call raised; otherwise served exactly when the output holds a declaration, with exactly XmlSlice's document, else a 500 with the dump error |
| Backend.HierarchyServesDocument | server/main.py:301-314 | a document printed between noise without a declaration and a tail without `>` is served exactly |
| Backend.InputCommand | server/main.py:329-378 | the command's words are `input`, then `-d N` for a positive display, then the action |
| Backend.Trunc | server/main.py:356 | Python `int()` truncates toward zero |
| Backend.Tap | server/main.py:324-340 | 400 without a device; otherwise `input [-d N] tap X Y` |
| Backend.SwipeCmd | server/main.py:348-362 | 400 without a device; otherwise `input [-d N] swipe` with the four coordinates and the duration truncated to milliseconds |
| Backend.Back | server/main.py:367-382 | 400 without a device; otherwise `input [-d N] keyevent 4` |
| Backend.InputTargets | server/main.py:329-378 | every input command targets the requested display when it is positive, and display 0 otherwise |
| Backend.Describe | server/main.py:106-117 | the description is the seat name with the display name in parentheses (or the name alone for other displays), followed by ` (WxH)` when the resolution is known and by nothing otherwise |
| Backend.Entries | server/main.py:95-121 | no more entries than blocks, each with a physical id |
| Backend.CompleteIndices | server/main.py:95-121 | the positions of the complete blocks, increasing, and every complete block's position among them |
| Backend.EntriesFollowBlocks | server/main.py:95-121 | one entry per complete block and nothing else: the k-th entry is the entry of the k-th complete block |
| Backend.MappingLastWins | server/main.py:96-103 | the mapping has an entry exactly for the logical ids of complete blocks, taken from the last such block |
| Backend.EntriesEmpty | server/main.py:95-121 | the list is empty exactly when no block is complete |
| Backend.EntriesListBlocks | server/main.py:95-121 | every complete block yields an entry with its ids and description |
| Backend.RefreshDisplayMapping | server/main.py:72-140 | never empty; with no complete block, the fixed mapping and list; otherwise the parsed mapping and entries |
| Backend.GetDisplays | server/main.py:156-174 | nothing without a serial; the static list when the refresh fails; otherwise the refreshed list |
| A11yService.OrEmpty | accessibility_service/src/main/java/com/carui/accessibility/CarUIAccessibilityService.kt:144-148 | a null text becomes empty; any other text is kept |
| A11yService.NonNull | accessibility_service/src/main/java/com/carui/accessibility/CarUIAccessibilityService.kt:135-141 | the non-null children, all of them and nothing else |
| A11yService.Traverse | accessibility_service/src/main/java/com/carui/accessibility/CarUIAccessibilityService.kt:126-168 | a serialised node carries its depth, its window, its bounds and flags, and its texts with null made empty |
| A11yService.ChildrenFrom | accessibility_service/src/main/java/com/carui/accessibility/CarUIAccessibilityService.kt:134-141 | the children serialised are exactly the non-null children, in order, one level deeper |
| A11yService.TraverseLayered | accessibility_service/src/main/java/com/carui/accessibility/CarUIAccessibilityService.kt:126-168 | every node in a serialised tree carries the window, and depths grow by one per level |
| A11yService.TraverseKeepsEveryNode | accessibility_service/src/main/java/com/carui/accessibility/CarUIAccessibilityService.kt:126-168 | the serialised tree has exactly as many nodes as are reachable through non-null children |
| A11yService.InfoOf | accessibility_service/src/main/java/com/carui/accessibility/CarUIAccessibilityService.kt:91-96 | a window's info keeps its id, type and bounds, with a null title made empty |
| A11yService.Contributing | accessibility_service/src/main/java/com/carui/accessibility/CarUIAccessibilityService.kt:81-102 | a window contributes exactly when it is on the display and has a root |
| A11yService.ContributingConcat | accessibility_service/src/main/java/com/carui/accessibility/CarUIAccessibilityService.kt:81-102 | the windows' contributions keep window order |
| A11yService.Roots | accessibility_service/src/main/java/com/carui/accessibility/CarUIAccessibilityService.kt:81-102 | one tree per contributing window, serialised from depth 0 with that window's info |
| A11yService.GetCurrentUITree | accessibility_service/src/main/java/com/carui/accessibility/CarUIAccessibilityService.kt:67-121 | success exactly without a fault; then the trees of the display, a null window list reading as empty; on a fault no trees and the message or `未知错误` |
| A11yService.DisplayParam | accessibility_service/src/main/java/com/carui/accessibility/CarUIAccessibilityService.kt:193 | the display is the parameter as an `Int`, or 0 when missing or not a number |
| A11yService.Serve | accessibility_service/src/main/java/com/carui/accessibility/CarUIAccessibilityService.kt:185-210 | `/api/hierarchy` returns the tree of the requested display; `/api/status` returns the running status with port 8765; anything else is a 404 |
| A11yService.ServeDisplay | accessibility_service/src/main/java/com/carui/accessibility/CarUIAccessibilityService.kt:191-197 | a request naming a display serves that display's tree |
| A11ySettings.Component | accessibility_service/src/main/java/com/carui/accessibility/MainActivity.kt:110-113 | the component starts with the package name, is longer, and has no `:` when the package has none |
| A11ySettings.IsEnabled | accessibility_service/src/main/java/com/carui/accessibility/MainActivity.kt:115-125 | enabled exactly when the setting exists, reading it did not fail, and one of its `:`-separated entries equals the component ignoring case |
| A11ySettings.ReadCurrent | accessibility_service/src/main/java/com/carui/accessibility/MainActivity.kt:137 | the trimmed output, or `null` when it is empty |
| A11ySettings.NewValue | accessibility_service/src/main/java/com/carui/accessibility/MainActivity.kt:138-142 | as written: kept when it contains the component ignoring case; `null` is replaced by the component; otherwise `:component` is appended |
| A11ySettings.UnsetReadGivesComponent | accessibility_service/src/main/java/com/carui/accessibility/MainActivity.kt:137-142 | an empty or `null` read writes the component alone |
| A11ySettings.NewValueIdempotent | accessibility_service/src/main/java/com/carui/accessibility/MainActivity.kt:138-142 | writing again changes nothing |
| A11ySettings.NewValueEnables | accessibility_service/src/main/java/com/carui/accessibility/MainActivity.kt:115-142 | when the old value did not mention the component, the new value enables the service |
| A11ySettings.SubstringKeepsDisabled | accessibility_service/src/main/java/com/carui/accessibility/MainActivity.kt:139 | a list holding only `<component>Old` is kept as it is, and the service stays disabled |
| A11ySettings.NewValueFixed | accessibility_service/src/main/java/com/carui/accessibility/MainActivity.kt:115-142 | the rule with the entry test: kept when listed; `null` replaced; otherwise appended |
| A11ySettings.NewValueFixedEnables | accessibility_service/src/main/java/com/carui/accessibility/MainActivity.kt:115-142 | with the entry test the new value always enables the service, and writing again changes nothing |
| A11ySettings.FixedAgrees | accessibility_service/src/main/java/com/carui/accessibility/MainActivity.kt:121-142 | both rules agree when the value does not mention the component, or lists it as an entry |
| A11ySettings.ListedContains | accessibility_service/src/main/java/com/carui/accessibility/MainActivity.kt:121-139 | a listed component is also a case-insensitive substring |
| A11ySettings.StatusText | accessibility_service/src/main/java/com/carui/accessibility/MainActivity.kt:78-86 | the running text when enabled and running; the waiting text when only enabled; the disabled text otherwise |
| ServerMonitor.Tick | src/main/kotlin/com/carui/inspector/PythonServerManager.kt:430-480 | a healthy tick resets the counter and never deletes the flag (a flag makes the tick unhealthy, so that branch is dead); an unhealthy one counts unless flagged, restarts when flagged or at 3 failures with a known plugin path, and resets the counter on a successful restart |
| ServerMonitor.Run | src/main/kotlin/com/carui/inspector/PythonServerManager.kt:420-487 | one restart decision per tick |
| ServerMonitor.ThirdFailureRestarts | src/main/kotlin/com/carui/inspector/PythonServerManager.kt:436-447 | three unflagged failures restart on the third tick only |
| ServerMonitor.FlagRestartsAtOnce | src/main/kotlin/com/carui/inspector/PythonServerManager.kt:436-468 | a flagged tick restarts at once, whatever the counter |
| ServerMonitor.FailedRestartsKeepRetrying | src/main/kotlin/com/carui/inspector/PythonServerManager.kt:440-468 | at the threshold with failing restarts, every further failing tick retries |
| ServerMonitor.HealthyResets | src/main/kotlin/com/carui/inspector/PythonServerManager.kt:471-476 | after a healthy tick the next crash counts from one |
| ServerMonitor.ServerPort | src/main/kotlin/com/carui/inspector/PythonServerManager.kt:62-78 | the trimmed port file as an `Int`; 18888 without the file or when it is not a number |
| ServerMonitor.PortFileRoundTrip | src/main/kotlin/com/carui/inspector/PythonServerManager.kt:62-78 | a port written in decimal is read back |
| ServerMonitor.PortFileNotANumber | src/main/kotlin/com/carui/inspector/PythonServerManager.kt:68-75 | a file starting with neither a digit nor a sign gives the default port |
| ServerMonitor.ServerUrl | src/main/kotlin/com/carui/inspector/PythonServerManager.kt:80-82 | `http://127.0.0.1:` followed by the port |
| ServerMonitor.UrlNamesPort | src/main/kotlin/com/carui/inspector/PythonServerManager.kt:80-82 | the port can be read back from the URL |
| ServerMonitor.PipCommand | src/main/kotlin/com/carui/inspector/PythonServerManager.kt:232-236 | the detected pip; otherwise `pip` exactly on Windows, and `pip3` elsewhere |
| ServerMonitor.Embed | src/main/kotlin/com/carui/inspector/PythonServerManager.kt:247-278 | text placed between two others is contained in the result, which starts with the first two and ends with the third |
| ServerMonitor.InstallHint | src/main/kotlin/com/carui/inspector/PythonServerManager.kt:247-278 | the guidance contains the install line; Windows, macOS and other Linux start with their heading and the line and end with their advice; Ubuntu/Debian is the apt heading then the line; an unknown system is the plain heading then the line |
| ServerMonitor.ErrorMessage | src/main/kotlin/com/carui/inspector/PythonServerManager.kt:238-281 | no message exactly when all is well; it starts with the version line exactly when Python is too old, otherwise with the missing-packages line when packages are missing; it lists the missing packages and their install line |
| ServerMonitor.CheckDependencies | src/main/kotlin/com/carui/inspector/PythonServerManager.kt:88-350 | no script passes; no Python fails with the fixed message; unreadable or undecodable output fails with `依赖检查异常：` or `依赖检查失败：` and the exception's message; a report passes on its verdict, its `pythonOk`, its missing list, its pip command and ErrorMessage of the report; success exactly when there is no error message |
| Dependencies.PipMethods | server/check_dependencies.py:36-67 | each of pip3, pip and `<python> -m pip` is listed exactly when its probe succeeded, in that order |
| Dependencies.PipCmd | server/check_dependencies.py:36-67 | the first probe that succeeded, in the order pip3, pip, `<python> -m pip`; none when all failed |
| Dependencies.PipCmdIsFirstMethod | server/check_dependencies.py:36-67 | the named pip is the first method listed |
| Dependencies.InstallCmd | server/check_dependencies.py:109-117 | through `<python> -m pip` when it works or no pip was found; otherwise through the detected pip |
| Dependencies.PipNames | server/check_dependencies.py:96-124 | the keys of the record: exactly the pip names of the mapping |
| Dependencies.DepsOf | server/check_dependencies.py:96-124 | one entry per pip name; installed exactly when its import worked; an install command exactly when missing |
| Dependencies.DepsOfEntries | server/check_dependencies.py:96-124 | with distinct pip names every package has its own entry with its import name |
| Dependencies.Deps | server/check_dependencies.py:87-124 | the six packages are recorded under their pip names with their import names |
| Dependencies.PillowEntry | server/check_dependencies.py:92-106 | pillow is recorded with import name `PIL` and is missing exactly when `PIL` does not import |
| Dependencies.AllOk | server/check_dependencies.py:127-129 | all is well exactly when Python is recent enough and every dependency is installed |
| Dependencies.ExitCode | server/check_dependencies.py:134 | 0 exactly when all is well, else 1 |
| Dependencies.AllOkIffImportable | server/check_dependencies.py:96-129 | the verdict holds exactly when Python is recent enough and every import name imports |
| Version.Inc32 | build.gradle.kts:26-32 | Kotlin `++` on an `Int`: one more, wrapping at the largest value |
| Version.Bump | build.gradle.kts:26-34 | patch goes up; reaching 10 it becomes 0 and carries into minor, and minor likewise into major |
| Version.BumpIsDecimalIncrement | build.gradle.kts:26-34 | with single-digit minor and patch the version grows by exactly one as a decimal number and stays single-digit |
| Version.MajorNeverWraps | build.gradle.kts:26-34 | below the largest `Int` the major part never decreases |
| Version.Render | build.gradle.kts:36 | the rendered version splits at dots into its three decimal parts |
| Version.IncrementVersion | build.gradle.kts:18-37 | not exactly three parts gives `1.0.0`; a part that is not an `Int` throws; otherwise the bumped version |
| Version.IncrementRendered | build.gradle.kts:18-37 | incrementing a rendered version renders the bumped version |
| Version.CurrentVersion | build.gradle.kts:10-15 | the trimmed `version.txt`, or `1.0.0` without it |
| Version.FirstBuild | build.gradle.kts:10-41 | a build without `version.txt` produces 1.0.1 |
| Version.CarryExample | build.gradle.kts:26-34 | 1.0.9 becomes 1.1.0 and 1.9.9 becomes 2.0.0 |
| WindowCoords.AtLeastOne | test_split_screen_coordinate.py:85-88 | Python `max(1, v)` |
| WindowCoords.Transform | test_split_screen_coordinate.py:63-92 | identity when the root starts within 100 pixels of the window; otherwise a rescale taking the root's corner to the window's |
| WindowCoords.AbsoluteUnchanged | test_split_screen_coordinate.py:76-81 | absolute bounds are left as they are |
| WindowCoords.RelativeRootOntoWindow | test_split_screen_coordinate.py:83-92 | relative bounds map the root rectangle onto the window rectangle |
| WindowCoords.ScenarioRelativeFromOrigin | test_split_screen_coordinate.py:116-121 | a hierarchy from (0,0) maps the TextView to [1926,374][2838,1508], which the click hits |
| WindowCoords.ScenarioAbsoluteShiftedTwice | test_split_screen_coordinate.py:130-143 | already absolute bounds under a root at (1,0) are shifted again (x1 = 3831) and the click misses |
| WindowCoords.OldTransform | test_headsup_coordinate.py:46-68 | the transform before the margin rule: undefined for a zero-sized root; otherwise scale factors of window size over root size, taking the root's corner to the window's |
| WindowCoords.HeadsUpFixed | test_headsup_coordinate.py:74-104 | the heads-up root counts as absolute and the close button is hit; the old rescale moved it above the click and missed |
| WindowCoords.TransformFixed | test_split_screen_fixed.py:20-48 | identity for an element starting beyond 500 on either axis; otherwise the old rescale |
| WindowCoords.FixedIgnoresMargin | test_split_screen_fixed.py:20-48 | the decision looks only at the element, not at the root's margin |
| WindowCoords.SplitScreenFixedHits | test_split_screen_fixed.py:8-53 | the absolute TextView is kept and the click at (2393,376) hits it |
| WindowCoords.DetectSs | test_fixes.py:15-40 | the first of SS4, SS3, SS2, SS5 found in the upper-cased output; none exactly when no marker occurs |
| WindowCoords.Ss4Wins | test_fixes.py:28-31 | SS4 wins whenever it occurs |
| WindowCoords.NoMarkerWithoutS | test_fixes.py:15-40 | output without an `S` in either case has no marker |
| WindowCoords.DetectExamples | test_fixes.py:17-25 | `ss4_lowercase` gives SS4, `HU_SS3-userdebug-xxx` gives SS3, `Normal_Device-xxx` gives nothing |

## Left out

- I/O is a parameter of the functions that need it: adb, `subprocess`, `d.shell`, files, `Settings.Secure`, `su`, process start-up and HTTP requests. Their outcomes (command outputs, exceptions, status codes) are inputs, except the one path named under Backend.Screenshot below.
- JSON encoding (Gson, FastAPI responses, `json.dumps`) and the Kotlin regular-expression scraping of the dependency report are not modelled. The report enters as already-decoded fields.
- Concurrency is not modelled: the monitor thread, its sleeps and `shouldMonitor` become a sequence of ticks; stop/start and the log are absent.
- The DOM, canvas drawing, the tree widget, highlighting markup, alerts, timers and `fetch` are not modelled. They enter as their outcomes (the fetched display list, a failed fetch).
- The regular expressions of `refresh_display_mapping` are not modelled. Each `Display Device` block enters already parsed; the SurfaceFlinger names enter as a map.
- `get_devices`, `connect_device` and `read_root` of main.py are thin wrappers around adb or static files and are not modelled.
- Python's `round()` in the test scripts is not modelled: WindowCoords works in exact rationals. Each scenario's conclusion holds with a margin that rounding does not reach.
- Canvas.MouseUp: the swipe test compares squared distances instead of `Math.sqrt`. Canvas.DistanceTest proves the two agree.
- JavaScript doubles, Kotlin `Float` and Python floats are modelled as exact reals.
- Text.Lower and Text.Upper fold ASCII letters only, and Text.Trim strips ASCII whitespace only. Kotlin, JavaScript and Python also fold other Unicode letters and strip Unicode spaces.
- WindowCoords.NoMarkerWithoutS: holds for ASCII upper-casing only. Python's `str.upper` also turns `ſ` into `S` and `ß` into `SS`, so `ſſ4` would report SS4.
- Text.ParseInt: reads ASCII digits only. Kotlin's `toIntOrNull` goes through `Character.digit` and also accepts other Unicode decimal digits.
- Strings are sequences of characters. UTF-16 surrogates and encodings are not modelled; screenshot bytes are a byte sequence.
- HitTest.PickBestNode: the in-place reordering of the caller's array by `sort` is not modelled. The model returns the chosen node, and `pickBestNode`'s caller only uses that.
- Canvas.MouseDown: the press time is a parameter instead of the clock.
- Canvas.DeviceAxis: a zero rendered size gives nothing. JavaScript would produce `Infinity` or `NaN`.
- A11yService: `recycle()` calls, the NanoHTTPD server lifecycle and the service instance are not modelled.
- A11ySettings: the help text of `updateStatus` and the `accessibility_enabled` write are not modelled. The latter is an I/O outcome.
- ServerMonitor.CheckDependencies: `python_version_from_cmd`, `sys_path` and `missingPackagesWithCmd` are not part of the summary. The last return (`依赖检查进程启动失败`) is not modelled: `pb.start()` either returns a process or throws, so it cannot be reached.
- Dependencies: python_version_from_cmd, the error text of a failed import and `sys_path` are diagnostic output and are not modelled.
- Backend: the `"error" in err.lower()` branch of `get_hierarchy` only logs and is not modelled. A shell failure of an input command (the 500 path) is not modelled either.
- Backend.Screenshot: a `subprocess.run` that raises (for instance without an `adb` binary) ends the handler with a 500; the model's subprocess outcomes cannot raise.
- The copies under `bin/` and `CarUiToolWindowFactory.kt` (the tool window's UI) are not part of this model.
- test_fixes.py beyond its detection function only checks the contents of other files and is not modelled.

## Findings

| source | as written | input that shows it | evidently intended | confidence | as-written member | corrected member |
|---|---|---|---|---|---|---|
| accessibility_service/src/main/java/com/carui/accessibility/MainActivity.kt:139 | keeps the setting when it contains the component as a case-insensitive substring | current = `<pkg>/.CarUIAccessibilityServiceOld` (another service whose name starts with this one) | keep the setting only when one of its `:`-separated entries is the component, the test `isAccessibilityServiceEnabled` uses, so that enabling by root always enables the service | not executed | A11ySettings.SubstringKeepsDisabled | A11ySettings.NewValueFixedEnables |

=== FILE: a11y_service.dfy ===
/**
  The accessibility service of accessibility_service/.../CarUIAccessibilityService.kt:
  the serialisation of the window trees of one display (`getCurrentUITree`,
  `traverseNode`), with the Android node and window objects abstracted as
  datatypes, and the routing of its small HTTP server (`UIHttpServer.serve`).
*/
module A11yService {
  import opened Wrappers
  import opened Text

  /** `BoundsInfo`, copied from `getBoundsInScreen`. */
  datatype BoundsInfo = BoundsInfo(left: int, top: int, right: int, bottom: int)

  /** The nine state flags of a node, in the order of `UINode`. */
  datatype Flags = Flags(clickable: bool, longClickable: bool, enabled: bool, focusable: bool,
                         focused: bool, selected: bool, checkable: bool, checked: bool,
                         scrollable: bool)

  /** The framework's `AccessibilityNodeInfo`: nullable texts, and children that
      `getChild(i)` may return as null. */
  datatype ANode = ANode(className: Option<string>, packageName: Option<string>, text: Option<string>,
                         contentDescription: Option<string>, resourceId: Option<string>,
                         bounds: BoundsInfo, flags: Flags, children: seq<Option<ANode>>)

  /** The framework's `AccessibilityWindowInfo`. */
  datatype AWindow = AWindow(displayId: int, title: Option<string>, kind: int, bounds: BoundsInfo,
                             root: Option<ANode>)

  /** `WindowInfo`. */
  datatype WindowInfo = WindowInfo(title: string, kind: int, displayId: int, bounds: BoundsInfo)

  /** `UINode`. */
  datatype UINode = UINode(className: string, packageName: string, text: string,
                           contentDescription: string, resourceId: string, bounds: BoundsInfo,
                           flags: Flags, window: WindowInfo, children: seq<UINode>, depth: int)

  /** `UITreeResponse`. */
  datatype UITreeResponse = UITreeResponse(success: bool, error: Option<string>, nodes: seq<UINode>)

  /** Kotlin `x?.toString() ?: ""`. */
  function OrEmpty(s: Option<string>): (r: string)
    ensures s.Some? ==> r == s.value
    ensures s.None? ==> r == ""
  {
    s.GetOr("")
  }

  /** The non-null entries of `s`, in order. */
  function NonNull(s: seq<Option<ANode>>): (r: seq<ANode>)
    ensures |r| <= |s|
    ensures forall i :: 0 <= i < |r| ==> Some(r[i]) in s
    ensures forall i :: 0 <= i < |s| && s[i].Some? ==> s[i].value in r
  {
    if |s| == 0 then []
    else
      var rest := NonNull(s[1..]);
      assert forall i :: 1 <= i < |s| ==> s[i] == s[1..][i - 1];
      if s[0].Some? then [s[0].value] + rest else rest
  }

  /** `traverseNode`: the node with null texts made empty and its bounds and flags
      copied, the window info it was given, and its non-null children traversed
      one level deeper, in child order. */
  function Traverse(n: ANode, w: WindowInfo, depth: int): (u: UINode)
    ensures u.depth == depth && u.window == w
    ensures u.bounds == n.bounds && u.flags == n.flags
    ensures u.className == OrEmpty(n.className) && u.packageName == OrEmpty(n.packageName)
    ensures u.text == OrEmpty(n.text) && u.contentDescription == OrEmpty(n.contentDescription)
    ensures u.resourceId == OrEmpty(n.resourceId)
    decreases n, 1
  {
    UINode(OrEmpty(n.className), OrEmpty(n.packageName), OrEmpty(n.text),
           OrEmpty(n.contentDescription), OrEmpty(n.resourceId), n.bounds, n.flags, w,
           ChildrenFrom(n, 0, w, depth + 1), depth)
  }

  /** The loop over `getChild(i)` from child `i` on: null children are skipped. */
  function ChildrenFrom(n: ANode, i: nat, w: WindowInfo, depth: int): (us: seq<UINode>)
    requires i <= |n.children|
    ensures |us| == |NonNull(n.children[i..])|
    ensures forall k :: 0 <= k < |us| ==> us[k] == Traverse(NonNull(n.children[i..])[k], w, depth)
    decreases n, 0, |n.children| - i
  {
    if i == |n.children| then []
    else
      var rest := ChildrenFrom(n, i + 1, w, depth);
      assert n.children[i..][1..] == n.children[i + 1..];
      match n.children[i]
      case Some(c) => [Traverse(c, w, depth)] + rest
      case None => rest
  }

  /** Every node of a serialised tree carries the window info `w`, and its depth
      is one more than its parent's, starting from `depth`. */
  predicate Layered(u: UINode, w: WindowInfo, depth: int)
    decreases u
  {
    u.window == w && u.depth == depth
    && forall i :: 0 <= i < |u.children| ==> Layered(u.children[i], w, depth + 1)
  }

  /** The traversal numbers depths level by level and stamps every node in the
      subtree with the window's info. */
  lemma {:induction false} TraverseLayered(n: ANode, w: WindowInfo, depth: int)
    ensures Layered(Traverse(n, w, depth), w, depth)
    decreases n
  {
    var u := Traverse(n, w, depth);
    var cs := NonNull(n.children[0..]);
    forall k | 0 <= k < |u.children|
      ensures Layered(u.children[k], w, depth + 1)
    {
      assert Some(cs[k]) in n.children[0..];
      assert Some(cs[k]) in n.children;
      TraverseLayered(cs[k], w, depth + 1);
    }
  }

  /** The number of nodes reachable through non-null children. */
  function Size(n: ANode): nat
    decreases n, 1
  {
    1 + SizeFrom(n, 0)
  }

  function SizeFrom(n: ANode, i: nat): nat
    requires i <= |n.children|
    decreases n, 0, |n.children| - i
  {
    if i == |n.children| then 0
    else (match n.children[i] case Some(c) => Size(c) case None => 0) + SizeFrom(n, i + 1)
  }

  /** The number of nodes of a serialised tree. */
  function Count(u: UINode): nat
    decreases u, 1
  {
    1 + CountFrom(u.children, 0)
  }

  function CountFrom(us: seq<UINode>, i: nat): nat
    requires i <= |us|
    decreases us, |us| - i
  {
    if i == |us| then 0 else Count(us[i]) + CountFrom(us, i + 1)
  }

  /** Nothing is lost and nothing is invented: the serialised tree has one node
      per framework node reachable through non-null children. */
  lemma {:induction false} TraverseKeepsEveryNode(n: ANode, w: WindowInfo, depth: int)
    ensures Count(Traverse(n, w, depth)) == Size(n)
    decreases n, 1
  {
    ChildrenKeep(n, 0, w, depth + 1);
  }

  lemma {:induction false} ChildrenKeep(n: ANode, i: nat, w: WindowInfo, depth: int)
    requires i <= |n.children|
    ensures CountFrom(ChildrenFrom(n, i, w, depth), 0) == SizeFrom(n, i)
    decreases n, 0, |n.children| - i
  {
    if i < |n.children| {
      var rest := ChildrenFrom(n, i + 1, w, depth);
      ChildrenKeep(n, i + 1, w, depth);
      match n.children[i]
      case Some(c) =>
        TraverseKeepsEveryNode(c, w, depth);
        CountCons(Traverse(c, w, depth), rest);
      case None =>
    }
  }

  lemma {:induction false} CountCons(u: UINode, us: seq<UINode>)
    ensures CountFrom([u] + us, 0) == Count(u) + CountFrom(us, 0)
  {
    CountShift(u, us, 0);
  }

  lemma {:induction false} CountShift(u: UINode, us: seq<UINode>, i: nat)
    requires i <= |us|
    ensures CountFrom([u] + us, i + 1) == CountFrom(us, i)
    decreases |us| - i
  {
    if i < |us| {
      assert ([u] + us)[i + 1] == us[i];
      CountShift(u, us, i + 1);
    }
  }

  /** The info of a window with a null title made empty. */
  function InfoOf(win: AWindow): (info: WindowInfo)
    ensures info.displayId == win.displayId && info.kind == win.kind && info.bounds == win.bounds
    ensures info.title == OrEmpty(win.title)
  {
    WindowInfo(OrEmpty(win.title), win.kind, win.displayId, win.bounds)
  }

  /** The windows that contribute a tree: on display `id`, with a root. */
  function Contributing(windows: seq<AWindow>, id: int): (r: seq<AWindow>)
    ensures forall w :: w in r <==> w in windows && w.displayId == id && w.root.Some?
  {
    if |windows| == 0 then []
    else
      var rest := Contributing(windows[1..], id);
      assert forall w :: w in windows <==> w == windows[0] || w in windows[1..];
      (if windows[0].displayId == id && windows[0].root.Some? then [windows[0]] else []) + rest
  }

  /** Contributions keep window order: those of a concatenation are those of the
      first part followed by those of the second. */
  lemma {:induction false} ContributingConcat(a: seq<AWindow>, b: seq<AWindow>, id: int)
    ensures Contributing(a + b, id) == Contributing(a, id) + Contributing(b, id)
  {
    if |a| > 0 {
      assert (a + b)[1..] == a[1..] + b;
      ContributingConcat(a[1..], b, id);
    } else {
      assert a + b == b;
    }
  }

  /** The trees of the windows on display `id` whose root is not null, in window
      order, each with depth 0 and its window's info. */
  function Roots(windows: seq<AWindow>, id: int): (nodes: seq<UINode>)
    ensures |nodes| == |Contributing(windows, id)|
    ensures forall i :: 0 <= i < |nodes| ==>
      var win := Contributing(windows, id)[i];
      nodes[i] == Traverse(win.root.value, InfoOf(win), 0)
  {
    if |windows| == 0 then []
    else
      var win := windows[0];
      (if win.displayId == id && win.root.Some? then [Traverse(win.root.value, InfoOf(win), 0)] else [])
      + Roots(windows[1..], id)
  }

  /** `getCurrentUITree(displayId)`. A null window list reads as empty. An
      exception anywhere (`fault`, with its message if it has one) gives a
      failure with no nodes and the message, or `未知错误` without one. */
  function GetCurrentUITree(windows: Option<seq<AWindow>>, id: int, fault: Option<Option<string>>): (r: UITreeResponse)
    ensures r.success <==> fault.None?
    ensures r.success ==> r.error.None? && r.nodes == Roots(windows.GetOr([]), id)
    ensures !r.success ==> r.nodes == [] && r.error == Some(fault.value.GetOr("未知错误"))
  {
    match fault
    case Some(msg) => UITreeResponse(false, Some(msg.GetOr("未知错误")), [])
    case None => UITreeResponse(true, None, Roots(windows.GetOr([]), id))
  }

  // ---------------------------------------------------------------------------
  // UIHttpServer.serve

  const HttpPort := 8765

  /** The body of a response, before JSON encoding. */
  datatype Body = Tree(tree: UITreeResponse) | Status(service: string, port: int) | PlainText(text: string)

  datatype Response = Response(status: int, mime: string, body: Body)

  /** The display a hierarchy request asks for: the `display` parameter as a
      32-bit integer, or 0 when absent or not a number. */
  function DisplayParam(params: map<string, string>): (id: int)
    ensures InInt32(id)
    ensures "display" !in params ==> id == 0
    ensures "display" in params && ParseInt(params["display"]).Some? ==> id == ParseInt(params["display"]).value
    ensures "display" in params && ParseInt(params["display"]).None? ==> id == 0
  {
    if "display" in params then ParseInt(params["display"]).GetOr(0) else 0
  }

  /** `serve`: the tree of the requested display, the fixed status record, or a
      plain-text 404 for any other path. */
  function Serve(uri: string, params: map<string, string>, tree: int -> UITreeResponse): (r: Response)
    ensures uri == "/api/hierarchy" ==>
      r == Response(200, "application/json", Tree(tree(DisplayParam(params))))
    ensures uri == "/api/status" ==> r == Response(200, "application/json", Status("running", HttpPort))
    ensures uri != "/api/hierarchy" && uri != "/api/status" ==>
      r == Response(404, "text/plain", PlainText("Not Found"))
  {
    if uri == "/api/hierarchy" then Response(200, "application/json", Tree(tree(DisplayParam(params))))
    else if uri == "/api/status" then Response(200, "application/json", Status("running", HttpPort))
    else Response(404, "text/plain", PlainText("Not Found"))
  }

  /** A hierarchy request with a rendered display number serves that display. */
  lemma ServeDisplay(id: int, tree: int -> UITreeResponse)
    requires InInt32(id)
    ensures Serve("/api/hierarchy", map["display" := IntToString(id)], tree).body == Tree(tree(id))
  {
    ParseIntOfIntToString(id);
  }
}

=== FILE: a11y_settings.dfy ===
/**
  The settings logic of accessibility_service/.../MainActivity.kt: the component
  name of the service, the check whether Android's colon-separated
  `enabled_accessibility_services` list enables it, the value the root helper
  writes back to that list, and the status line.
*/
module A11ySettings {
  import opened Wrappers
  import opened Text

  /** `getServiceComponent`: the flattened component name of the service. */
  function Component(packageName: string): (c: string)
    ensures IsPrefix(packageName, c) && |c| > |packageName|
    ensures ':' !in packageName ==> ':' !in c
  {
    var c := packageName + "/.CarUIAccessibilityService";
    assert c[..|packageName|] == packageName;
    c
  }

  /** The setting lists `component`: one of its `:`-separated entries equals it
      ignoring case. */
  predicate Listed(setting: string, component: string) {
    exists k :: 0 <= k < |Split(setting, ':')| && EqualsIgnoreCase(Split(setting, ':')[k], component)
  }

  /** `isAccessibilityServiceEnabled`: false when the setting is missing or reading
      it throws (`fault`); otherwise whether it lists the component. */
  function IsEnabled(setting: Option<string>, fault: bool, component: string): (r: bool)
    ensures r <==> !fault && setting.Some? && Listed(setting.value, component)
  {
    !fault && setting.Some? && Listed(setting.value, component)
  }

  /** The value read by the root helper: the trimmed output of `settings get`,
      with an empty output read as `null` (what `settings get` prints for an
      unset key). */
  function ReadCurrent(output: string): (current: string)
    ensures current != ""
    ensures Trim(output) == "" ==> current == "null"
    ensures Trim(output) != "" ==> current == Trim(output)
  {
    if Trim(output) == "" then "null" else Trim(output)
  }

  /** The `newValue` rule of `enableAccessibilityServiceByRoot`, as written: keep
      the value when it contains the component anywhere, ignoring case; replace
      `null` by the component; otherwise append `:component`. */
  function NewValue(current: string, component: string): (r: string)
    ensures ContainsIgnoreCase(current, component) ==> r == current
    ensures !ContainsIgnoreCase(current, component) && current == "null" ==> r == component
    ensures !ContainsIgnoreCase(current, component) && current != "null" ==>
      r == current + ":" + component
  {
    if ContainsIgnoreCase(current, component) then current
    else if current == "null" then component
    else current + ":" + component
  }

  /** An empty read, or a read of `null`, makes the component the whole
      list. */
  lemma UnsetReadGivesComponent(output: string, packageName: string)
    requires Trim(output) == "" || Trim(output) == "null"
    ensures NewValue(ReadCurrent(output), Component(packageName)) == Component(packageName)
  {
    var component := Component(packageName);
    assert ReadCurrent(output) == "null";
    assert |Lower(component)| > |Lower("null")|;
  }

  /** Lower-casing commutes with concatenation. */
  lemma LowerConcat(a: string, b: string)
    ensures Lower(a + b) == Lower(a) + Lower(b)
  {
  }

  /** A string ending in `component` contains it, ignoring case. */
  lemma EndsWithContains(x: string, component: string)
    ensures ContainsIgnoreCase(x + component, component)
  {
    LowerConcat(x, component);
    var s := Lower(x + component);
    assert s[|x|..|x| + |component|] == Lower(component);
    assert OccursAt(s, Lower(component), |x|);
  }

  /** A string contains itself, ignoring case. */
  lemma SelfContains(s: string)
    ensures ContainsIgnoreCase(s, s)
  {
    assert Lower(s)[0..|s|] == Lower(s);
    assert OccursAt(Lower(s), Lower(s), 0);
  }

  /** Applying the rule to its own result changes nothing. */
  lemma NewValueIdempotent(current: string, component: string)
    ensures NewValue(NewValue(current, component), component) == NewValue(current, component)
  {
    var r := NewValue(current, component);
    if !ContainsIgnoreCase(current, component) {
      if current == "null" {
        SelfContains(component);
      } else {
        assert r == (current + ":") + component;
        EndsWithContains(current + ":", component);
      }
    }
  }

  /** Splitting `x:component` ends with the component when it has no `:`. */
  lemma {:induction false} SplitAppended(x: string, component: string)
    requires ':' !in component
    ensures var parts := Split(x + ":" + component, ':');
      |parts| >= 2 && parts[|parts| - 1] == component
    decreases |x|
  {
    var s := x + ":" + component;
    if |x| == 0 {
      assert s[0] == ':';
      assert s[1..] == component;
      SplitNoSep(component, ':');
      assert Split(s, ':') == [""] + [component];
    } else {
      assert s[1..] == x[1..] + ":" + component;
      SplitAppended(x[1..], component);
      var rest := Split(s[1..], ':');
      if s[0] == ':' {
        assert Split(s, ':') == [""] + rest;
      } else {
        assert Split(s, ':') == [[s[0]] + rest[0]] + rest[1..];
      }
    }
  }

  /** When the value did not already mention the component, the written value
      enables the service. */
  lemma NewValueEnables(current: string, component: string)
    requires ':' !in component
    requires !ContainsIgnoreCase(current, component)
    ensures IsEnabled(Some(NewValue(current, component)), false, component)
  {
    var r := NewValue(current, component);
    if current == "null" {
      SplitNoSep(component, ':');
      assert Split(r, ':')[0] == component;
    } else {
      SplitAppended(current, component);
      var parts := Split(r, ':');
      assert EqualsIgnoreCase(parts[|parts| - 1], component);
    }
  }

  /** The substring test is weaker than the entry test: a listed service whose
      name merely starts with this component (`...ServiceOld`) keeps the value
      as it is, and the service stays disabled. */
  lemma SubstringKeepsDisabled(packageName: string)
    requires ':' !in packageName
    ensures var component := Component(packageName);
      var current := component + "Old";
      NewValue(current, component) == current && !IsEnabled(Some(current), false, component)
  {
    var component := Component(packageName);
    var current := component + "Old";
    EndsWithContainsPrefix(component, "Old");
    assert ':' !in current;
    SplitNoSep(current, ':');
    assert |Lower(current)| != |Lower(component)|;
  }

  /** A string that starts with `component` contains it, ignoring case. */
  lemma EndsWithContainsPrefix(component: string, tail: string)
    ensures ContainsIgnoreCase(component + tail, component)
  {
    LowerConcat(component, tail);
    var s := Lower(component + tail);
    assert s[0..|component|] == Lower(component);
    assert OccursAt(s, Lower(component), 0);
  }

  /** The rule with the entry test that `isAccessibilityServiceEnabled` uses:
      keep a value that already lists the component, replace `null`, otherwise
      append. */
  function NewValueFixed(current: string, component: string): (r: string)
    ensures Listed(current, component) ==> r == current
    ensures !Listed(current, component) && current == "null" ==> r == component
    ensures !Listed(current, component) && current != "null" ==> r == current + ":" + component
  {
    if Listed(current, component) then current
    else if current == "null" then component
    else current + ":" + component
  }

  /** With the entry test, the written value always enables the service, and
      writing again changes nothing. */
  lemma NewValueFixedEnables(current: string, component: string)
    requires ':' !in component
    ensures IsEnabled(Some(NewValueFixed(current, component)), false, component)
    ensures NewValueFixed(NewValueFixed(current, component), component) == NewValueFixed(current, component)
  {
    var r := NewValueFixed(current, component);
    if !Listed(current, component) {
      if current == "null" {
        SplitNoSep(component, ':');
        assert Split(r, ':')[0] == component;
      } else {
        SplitAppended(current, component);
        var parts := Split(r, ':');
        assert EqualsIgnoreCase(parts[|parts| - 1], component);
      }
    }
  }

  /** The two rules agree whenever the value does not mention the component at
      all, and whenever it lists it as an entry. */
  lemma FixedAgrees(current: string, component: string)
    requires !ContainsIgnoreCase(current, component) || Listed(current, component)
    ensures NewValueFixed(current, component) == NewValue(current, component)
  {
    if Listed(current, component) {
      ListedContains(current, component);
    }
  }

  /** An entry equal to the component ignoring case is a substring of the value
      ignoring case. */
  lemma ListedContains(current: string, component: string)
    requires Listed(current, component)
    ensures ContainsIgnoreCase(current, component)
  {
    var parts := Split(current, ':');
    var k :| 0 <= k < |parts| && EqualsIgnoreCase(parts[k], component);
    var i := PartOffset(current, k);
    JoinSplit(current, ':');
    assert OccursAt(current, parts[k], i);
    var s := Lower(current);
    assert s[i..i + |parts[k]|] == Lower(parts[k]);
    assert OccursAt(s, Lower(component), i);
  }

  /** Where part `k` of a split starts. */
  lemma {:induction false} PartOffset(s: string, k: nat) returns (i: nat)
    requires k < |Split(s, ':')|
    ensures OccursAt(s, Split(s, ':')[k], i)
    decreases |s|
  {
    var parts := Split(s, ':');
    if |s| == 0 {
      i := 0;
    } else {
      var rest := Split(s[1..], ':');
      if s[0] == ':' {
        if k == 0 {
          i := 0;
        } else {
          var j := PartOffset(s[1..], k - 1);
          assert s[1..][j..j + |rest[k - 1]|] == s[j + 1..j + 1 + |rest[k - 1]|];
          i := j + 1;
        }
      } else if k == 0 {
        PartZeroAtStart(s[1..]);
        assert s[1..][0..|rest[0]|] == rest[0];
        assert s[0..1 + |rest[0]|] == [s[0]] + rest[0];
        i := 0;
      } else {
        var j := PartOffset(s[1..], k);
        assert s[1..][j..j + |rest[k]|] == s[j + 1..j + 1 + |rest[k]|];
        i := j + 1;
      }
    }
  }

  /** The first part of a split is a prefix of the string. */
  lemma {:induction false} PartZeroAtStart(s: string)
    ensures OccursAt(s, Split(s, ':')[0], 0)
    decreases |s|
  {
    if |s| > 0 && s[0] != ':' {
      PartZeroAtStart(s[1..]);
      var rest := Split(s[1..], ':');
      assert s[1..][0..|rest[0]|] == rest[0];
      assert s[0..1 + |rest[0]|] == [s[0]] + rest[0];
    }
  }

  // ---------------------------------------------------------------------------
  // updateStatus

  /** The status line: running text when enabled and the service instance
      exists, waiting text when only enabled, otherwise not enabled. */
  function StatusText(enabled: bool, running: bool): (t: string)
    ensures !enabled ==> t == "❌ 未启用"
    ensures enabled && running ==> t == "✅ 已启用且运行中\nHTTP端口: 8765"
    ensures enabled && !running ==> t == "✅ 已启用（等待系统启动服务）\nHTTP端口: 8765"
  {
    if enabled && running then "✅ 已启用且运行中\nHTTP端口: 8765"
    else if enabled then "✅ 已启用（等待系统启动服务）\nHTTP端口: 8765"
    else "❌ 未启用"
  }
}

=== FILE: backend.dfy ===
/**
  The request handling of server/main.py, with adb, subprocesses and the web
  framework taken out: what each endpoint asks the device to run, which capture
  it keeps, how it trims and slices what comes back, and the display list it
  builds from the already-extracted `dumpsys` records.
*/
module Backend {
  import opened Wrappers
  import opened Text
  import opened Seqs

  type Byte = b: int | 0 <= b < 256
  type Bytes = seq<Byte>

  /** An endpoint's answer: a body, or an HTTP error with its detail text. */
  datatype Reply<T> = Served(body: T) | Failed(status: int, detail: string)

  /** A device is selected: `current_serial` is set and not empty. */
  predicate Connected(serial: Option<string>) {
    serial.Some? && serial.value != ""
  }

  const NotConnected := "Device not connected"

  /** A string that adb's shell splits into exactly one word. */
  predicate Word(s: string) {
    s != "" && ' ' !in s
  }

  lemma IntWord(i: int)
    ensures Word(IntToString(i))
  {
    var s := IntToString(i);
    if i >= 0 {
      assert forall k :: 0 <= k < |s| ==> IsDigit(s[k]);
    } else {
      assert forall k :: 1 <= k < |s| ==> s[k] == NatToString(-i)[k - 1];
    }
  }

  // ---------------------------------------------------------------------------
  // get_screenshot: the capture candidates

  /** The physical id captured for a logical display: its entry in the display
      mapping, or the logical id itself. */
  function PhysId(mapping: map<string, string>, display: string): (phys: string)
    ensures display in mapping ==> phys == mapping[display]
    ensures display !in mapping ==> phys == display
  {
    if display in mapping then mapping[display] else display
  }

  /** The `screencap` arguments tried, in order: plain `-p` for display "0" only,
      then `-d <phys> -p` and `-p -d <phys>`, then the same two with the logical
      id when it differs from the physical one. */
  function ScreencapArgs(display: string, phys: string): (cands: seq<seq<string>>)
    ensures |cands| == (if display == "0" then 1 else 0) + 2 + (if phys != display then 2 else 0)
    ensures forall i :: 0 <= i < |cands| ==> |cands[i]| >= 2 && cands[i][0] == "screencap"
  {
    var plain: seq<seq<string>> := if display == "0" then [["screencap", "-p"]] else [];
    var aliased: seq<seq<string>> := if phys != display then Forms(display) else [];
    var own := Forms(phys);
    assert Screencaps(plain) && Screencaps(own) && Screencaps(aliased);
    ScreencapsConcat(plain, own);
    ScreencapsConcat(plain + own, aliased);
    plain + own + aliased
  }

  /** Every list runs `screencap` with at least one argument. */
  predicate Screencaps(cands: seq<seq<string>>) {
    forall i :: 0 <= i < |cands| ==> |cands[i]| >= 2 && cands[i][0] == "screencap"
  }

  lemma ScreencapsConcat(a: seq<seq<string>>, b: seq<seq<string>>)
    requires Screencaps(a) && Screencaps(b)
    ensures Screencaps(a + b)
  {
    forall i | 0 <= i < |a + b|
      ensures |(a + b)[i]| >= 2 && (a + b)[i][0] == "screencap"
    {
      if i < |a| {
        assert (a + b)[i] == a[i];
      } else {
        assert (a + b)[i] == b[i - |a|];
      }
    }
  }

  /** The two argument orders for an explicit display id. */
  function Forms(id: string): (r: seq<seq<string>>)
    ensures |r| == 2 && r[0] != r[1]
    ensures |r[0]| == 4 && |r[1]| == 4 && r[0][0] == "screencap" && r[1][0] == "screencap"
  {
    [["screencap", "-d", id, "-p"], ["screencap", "-p", "-d", id]]
  }

  /** Both forms name `id`. */
  lemma FormsTarget(id: string)
    ensures Target(Forms(id)[0]) == Target(Forms(id)[1]) == Some(id)
  {
    var a := Forms(id)[0];
    var b := Forms(id)[1];
    assert a[1..] == ["-d", id, "-p"];
    assert b[1..] == ["-p", "-d", id] && b[1..][1..] == ["-d", id];
    assert Target(a[1..]) == Some(id);
    assert Target(b[1..][1..]) == Some(id);
    assert Target(b[1..]) == Some(id);
  }

  /** The display a `screencap` argument list names with `-d`, if any. */
  function Target(args: seq<string>): (r: Option<string>)
    ensures r.Some? ==> exists i :: 0 <= i < |args| - 1 && args[i] == "-d" && args[i + 1] == r.value
  {
    if |args| < 2 then None
    else if args[0] == "-d" then Some(args[1])
    else
      match Target(args[1..])
      case None => None
      case Some(t) => assert args[1..][0] == args[1]; Some(t)
  }

  /** Candidate `i`: the plain form for display "0", then the two physical-id
      forms, then the two logical-id forms. */
  lemma CandidateAt(display: string, phys: string, i: nat)
    requires i < |ScreencapArgs(display, phys)|
    ensures var off := if display == "0" then 1 else 0;
      var c := ScreencapArgs(display, phys)[i];
      if display == "0" && i == 0 then c == ["screencap", "-p"]
      else if i - off < 2 then c == Forms(phys)[i - off]
      else phys != display && c == Forms(display)[i - off - 2]
  {
  }

  /** Only the plain form for display "0" names no display; every other
      candidate names the physical or the logical id. */
  lemma CandidateTargets(display: string, phys: string, i: nat)
    requires i < |ScreencapArgs(display, phys)|
    ensures var t := Target(ScreencapArgs(display, phys)[i]);
      (t.None? <==> display == "0" && i == 0) && (t.Some? ==> t.value == phys || t.value == display)
  {
    SlotTarget(display, phys, i);
  }

  /** The display candidate `i` names, by its slot. */
  lemma SlotTarget(display: string, phys: string, i: nat)
    requires i < |ScreencapArgs(display, phys)|
    ensures var off := if display == "0" then 1 else 0;
      Target(ScreencapArgs(display, phys)[i])
      == if display == "0" && i == 0 then None else if i - off < 2 then Some(phys) else Some(display)
  {
    CandidateAt(display, phys, i);
    var off := if display == "0" then 1 else 0;
    if display == "0" && i == 0 {
      assert ["screencap", "-p"][1..] == ["-p"];
      assert Target(["screencap", "-p"]) == None;
    } else if i - off < 2 {
      FormsTarget(phys);
    } else {
      FormsTarget(display);
    }
  }

  /** Every candidate is tried at most once, and all physical-id forms come before
      the logical-id forms. */
  lemma ScreencapArgsOrder(display: string, phys: string, i: nat, j: nat)
    requires i < j < |ScreencapArgs(display, phys)|
    ensures ScreencapArgs(display, phys)[i] != ScreencapArgs(display, phys)[j]
    ensures phys != display && Target(ScreencapArgs(display, phys)[i]) == Some(display) ==>
      Target(ScreencapArgs(display, phys)[j]) == Some(display)
  {
    CandidateAt(display, phys, i);
    CandidateAt(display, phys, j);
    SlotTarget(display, phys, i);
    SlotTarget(display, phys, j);
  }

  /** A display with a mapping entry other than itself is captured first by its
      physical id (after the plain form for display "0"). */
  lemma MappedTriedFirst(mapping: map<string, string>, display: string)
    requires display in mapping && mapping[display] != display
    ensures var c := ScreencapArgs(display, PhysId(mapping, display));
      Target(c[if display == "0" then 1 else 0]) == Some(mapping[display])
  {
    FormsTarget(PhysId(mapping, display));
  }

  /** The shell command string of a candidate (the `d.shell` loop). */
  function ShellCommand(args: seq<string>): string {
    Join(args, " ")
  }

  /** The full command line of a candidate (the subprocess loop). */
  function AdbCommand(serial: string, args: seq<string>): (argv: seq<string>)
    ensures |argv| == |args| + 4
    ensures argv[..4] == ["adb", "-s", serial, "shell"] && argv[4..] == args
  {
    ["adb", "-s", serial, "shell"] + args
  }

  /** The subprocess fallback runs the same commands as the shell loop: the words
      after `shell` join to the shell string of the same candidate. */
  lemma FallbackSameCommands(serial: string, display: string, phys: string, i: nat)
    requires i < |ScreencapArgs(display, phys)|
    ensures var args := ScreencapArgs(display, phys)[i];
      Join(AdbCommand(serial, args)[4..], " ") == ShellCommand(args)
  {
  }

  // ---------------------------------------------------------------------------
  // get_screenshot: choosing a capture

  /** What one `d.shell` call gave: an exception's message, or the output. */
  datatype ShellRun = Raised(message: string) | Output(bytes: Bytes)

  /** What one subprocess call gave. */
  datatype ProcRun = ProcRun(code: int, stdout: Bytes, stderr: string)

  /** A usable capture: more than 100 bytes of output (and exit code 0 for a
      subprocess). */
  predicate ShellOk(r: ShellRun) {
    r.Output? && |r.bytes| > 100
  }

  predicate ProcOk(r: ProcRun) {
    r.code == 0 && |r.stdout| > 100
  }

  /** Which capture `get_screenshot` keeps. */
  datatype Capture = ByShell(index: nat, raw: Bytes) | ByProcess(index: nat, raw: Bytes) | NoCapture

  /** The first candidate whose shell output is usable; only when none is, the
      first whose subprocess output is. */
  function Choose(cands: seq<seq<string>>, shell: seq<string> -> ShellRun,
                  proc: seq<string> -> ProcRun): (c: Capture)
    ensures c.ByShell? ==>
      (c.index < |cands| && ShellOk(shell(cands[c.index]))
       && c.raw == shell(cands[c.index]).bytes
       && forall j :: 0 <= j < c.index ==> !ShellOk(shell(cands[j])))
    ensures !c.ByShell? ==> forall j :: 0 <= j < |cands| ==> !ShellOk(shell(cands[j]))
    ensures c.ByProcess? ==>
      (c.index < |cands| && ProcOk(proc(cands[c.index]))
       && c.raw == proc(cands[c.index]).stdout
       && forall j :: 0 <= j < c.index ==> !ProcOk(proc(cands[j])))
    ensures c.NoCapture? ==> forall j :: 0 <= j < |cands| ==> !ProcOk(proc(cands[j]))
  {
    match FirstIndex(cands, (a: seq<string>) => ShellOk(shell(a)))
    case Some(i) => ByShell(i, shell(cands[i]).bytes)
    case None =>
      match FirstIndex(cands, (a: seq<string>) => ProcOk(proc(a)))
      case Some(i) => ByProcess(i, proc(cands[i]).stdout)
      case None => NoCapture
  }

  /** Once a candidate's shell output is usable, nothing after it matters: any
      outcomes of the later candidates give the same capture. */
  lemma LaterCandidatesIgnored(cands: seq<seq<string>>, shell: seq<string> -> ShellRun,
                               shell': seq<string> -> ShellRun, proc: seq<string> -> ProcRun,
                               proc': seq<string> -> ProcRun)
    requires Choose(cands, shell, proc).ByShell?
    requires forall j :: 0 <= j <= Choose(cands, shell, proc).index ==> shell'(cands[j]) == shell(cands[j])
    ensures Choose(cands, shell', proc') == Choose(cands, shell, proc)
  {
    var i := Choose(cands, shell, proc).index;
    assert ShellOk(shell'(cands[i]));
  }

  /** The candidates whose shell call raised. */
  function RaisedIn(shell: seq<string> -> ShellRun): seq<string> -> bool {
    a => shell(a).Raised?
  }

  /** The candidates whose subprocess wrote to stderr. */
  function ComplainedIn(proc: seq<string> -> ProcRun): seq<string> -> bool {
    a => proc(a).stderr != ""
  }

  /** The message kept for the failure report: the last non-empty subprocess
      stderr, or else the message of the last shell exception, or "". */
  function LastError(cands: seq<seq<string>>, shell: seq<string> -> ShellRun,
                     proc: seq<string> -> ProcRun): (e: string)
    ensures (exists j :: 0 <= j < |cands| && proc(cands[j]).stderr != "") ==>
      exists j :: 0 <= j < |cands| && e == proc(cands[j]).stderr && e != ""
        && forall l :: j < l < |cands| ==> proc(cands[l]).stderr == ""
    ensures ((forall j :: 0 <= j < |cands| ==> proc(cands[j]).stderr == "")
             && (exists j :: 0 <= j < |cands| && shell(cands[j]).Raised?)) ==>
      exists j :: 0 <= j < |cands| && shell(cands[j]) == Raised(e)
        && forall l :: j < l < |cands| ==> !shell(cands[l]).Raised?
    ensures (forall j :: 0 <= j < |cands| ==> proc(cands[j]).stderr == "" && !shell(cands[j]).Raised?) ==>
      e == ""
  {
    match LastIndex(cands, ComplainedIn(proc))
    case Some(j) => proc(cands[j]).stderr
    case None =>
      match LastIndex(cands, RaisedIn(shell))
      case Some(j) => shell(cands[j]).message
      case None => ""
  }

  /** The shell loop as written: it stops at the first usable capture and
      otherwise overwrites `last_err` with each exception's message. */
  function ShellLoop(cands: seq<seq<string>>, shell: seq<string> -> ShellRun, err: string): string {
    if |cands| == 0 || ShellOk(shell(cands[0])) then err
    else ShellLoop(cands[1..], shell, if shell(cands[0]).Raised? then shell(cands[0]).message else err)
  }

  /** The subprocess loop as written: it stops at the first usable capture and
      otherwise overwrites `last_err` with each non-empty stderr. */
  function ProcLoop(cands: seq<seq<string>>, proc: seq<string> -> ProcRun, err: string): string {
    if |cands| == 0 || ProcOk(proc(cands[0])) then err
    else ProcLoop(cands[1..], proc, if proc(cands[0]).stderr != "" then proc(cands[0]).stderr else err)
  }

  /** Without a usable capture the shell loop leaves the message of the last
      exception, or its starting value when none raised. */
  lemma {:induction false} ShellLoopLast(cands: seq<seq<string>>, shell: seq<string> -> ShellRun, err: string)
    requires forall j :: 0 <= j < |cands| ==> !ShellOk(shell(cands[j]))
    ensures ShellLoop(cands, shell, err) ==
      match LastIndex(cands, RaisedIn(shell)) case Some(j) => shell(cands[j]).message case None => err
    decreases |cands|
  {
    if |cands| > 0 {
      var err' := if shell(cands[0]).Raised? then shell(cands[0]).message else err;
      assert forall j :: 1 <= j < |cands| ==> cands[1..][j - 1] == cands[j];
      ShellLoopLast(cands[1..], shell, err');
      LastIndexTail(cands, RaisedIn(shell));
    }
  }

  /** Without a usable capture the subprocess loop leaves the last non-empty
      stderr, or its starting value when there was none. */
  lemma {:induction false} ProcLoopLast(cands: seq<seq<string>>, proc: seq<string> -> ProcRun, err: string)
    requires forall j :: 0 <= j < |cands| ==> !ProcOk(proc(cands[j]))
    ensures ProcLoop(cands, proc, err) ==
      match LastIndex(cands, ComplainedIn(proc)) case Some(j) => proc(cands[j]).stderr case None => err
    decreases |cands|
  {
    if |cands| > 0 {
      var err' := if proc(cands[0]).stderr != "" then proc(cands[0]).stderr else err;
      assert forall j :: 1 <= j < |cands| ==> cands[1..][j - 1] == cands[j];
      ProcLoopLast(cands[1..], proc, err');
      LastIndexTail(cands, ComplainedIn(proc));
    }
  }

  /** When no candidate gave a capture, the message reported is what running
      both loops one after the other leaves in `last_err`. */
  lemma LastErrorIsLoops(cands: seq<seq<string>>, shell: seq<string> -> ShellRun, proc: seq<string> -> ProcRun)
    requires Choose(cands, shell, proc).NoCapture?
    ensures LastError(cands, shell, proc) == ProcLoop(cands, proc, ShellLoop(cands, shell, ""))
  {
    ShellLoopLast(cands, shell, "");
    ProcLoopLast(cands, proc, ShellLoop(cands, shell, ""));
  }

  // ---------------------------------------------------------------------------
  // get_screenshot: the PNG signature

  const PngSignature: Bytes := [0x89, 0x50, 0x4E, 0x47]

  const NoPngHeader := "Invalid screenshot format: No PNG header found"

  /** The capture from the first PNG signature on; an error without one. */
  function TrimToPng(raw: Bytes): (r: Result<Bytes, string>)
    ensures r.Err? <==> forall j :: !OccursAt(raw, PngSignature, j)
    ensures r.Err? ==> r.error == NoPngHeader
    ensures r.Ok? ==> OccursAt(r.value, PngSignature, 0)
    ensures r.Ok? ==> exists i ::
      (0 <= i <= |raw| && r.value == raw[i..]
       && forall j :: 0 <= j < i ==> !OccursAt(raw, PngSignature, j))
  {
    match Find(raw, PngSignature)
    case None => Err(NoPngHeader)
    case Some(i) =>
      assert raw[i..][0..|PngSignature|] == raw[i..i + |PngSignature|];
      Ok(raw[i..])
  }

  /** Output that starts with the signature is kept whole; leading noise before
      it is dropped. */
  lemma TrimNoise(noise: Bytes, png: Bytes)
    requires OccursAt(png, PngSignature, 0)
    requires forall j :: 0 <= j < |noise| ==> !OccursAt(noise + png, PngSignature, j)
    ensures TrimToPng(noise + png) == Ok(png)
  {
    var s := noise + png;
    assert s[|noise|..|noise| + |PngSignature|] == png[..|PngSignature|];
    assert OccursAt(s, PngSignature, |noise|);
    var i := Find(s, PngSignature).value;
    assert i == |noise|;
    assert s[i..] == png;
  }

  /** The report when no candidate gave a usable capture. */
  function CaptureFailure(display: string, phys: string, lastErr: string): string {
    "Failed to get screenshot for display " + display + " (Physical: " + phys + "). Last error: " + lastErr
  }

  /** `get_screenshot` (`/api/screenshot?display=`): 400 without a device; 500
      with its message when opening the device (`adb.device`) raised; otherwise
      the trimmed PNG of the chosen capture, or 500 with the failure's message. */
  function Screenshot(serial: Option<string>, mapping: map<string, string>, display: string,
                      deviceFault: Option<string>, shell: seq<string> -> ShellRun,
                      proc: seq<string> -> ProcRun): (r: Reply<Bytes>)
    ensures !Connected(serial) ==> r == Failed(400, NotConnected)
    ensures Connected(serial) && deviceFault.Some? ==> r == Failed(500, deviceFault.value)
    ensures Connected(serial) ==> r.Served? || r.status == 500
    ensures r.Served? ==> OccursAt(r.body, PngSignature, 0)
    ensures Connected(serial) && deviceFault.None? ==>
      var c := Choose(ScreencapArgs(display, PhysId(mapping, display)), shell, proc);
      if c.NoCapture? then
        r == Failed(500, CaptureFailure(display, PhysId(mapping, display),
                     LastError(ScreencapArgs(display, PhysId(mapping, display)), shell, proc)))
      else
        r == match TrimToPng(c.raw) case Ok(png) => Served(png) case Err(e) => Failed(500, e)
  {
    if !Connected(serial) then Failed(400, NotConnected)
    else if deviceFault.Some? then Failed(500, deviceFault.value)
    else
      var phys := PhysId(mapping, display);
      var cands := ScreencapArgs(display, phys);
      match Choose(cands, shell, proc)
      case NoCapture => Failed(500, CaptureFailure(display, phys, LastError(cands, shell, proc)))
      case ByShell(_, raw) =>
        (match TrimToPng(raw) case Ok(png) => Served(png) case Err(e) => Failed(500, e))
      case ByProcess(_, raw) =>
        (match TrimToPng(raw) case Ok(png) => Served(png) case Err(e) => Failed(500, e))
  }

  /** A capture that is a PNG behind noise without the signature is served as
      that PNG, whichever loop produced it. */
  lemma ScreenshotServesPng(serial: Option<string>, mapping: map<string, string>, display: string,
                            shell: seq<string> -> ShellRun, proc: seq<string> -> ProcRun,
                            noise: Bytes, png: Bytes)
    requires Connected(serial)
    requires var c := Choose(ScreencapArgs(display, PhysId(mapping, display)), shell, proc);
      !c.NoCapture? && c.raw == noise + png
    requires OccursAt(png, PngSignature, 0)
    requires forall j :: 0 <= j < |noise| ==> !OccursAt(noise + png, PngSignature, j)
    ensures Screenshot(serial, mapping, display, None, shell, proc) == Served(png)
  {
    TrimNoise(noise, png);
  }

  // ---------------------------------------------------------------------------
  // get_hierarchy

  function DumpPath(display: int): (path: string)
    ensures Word(path)
  {
    IntWord(display);
    "/data/local/tmp/uidump_" + IntToString(display) + ".xml"
  }

  /** The dump command: `--display N` for every display but 0. */
  function DumpCommand(display: int): (cmd: string)
    ensures Split(cmd, ' ') == ["uiautomator", "dump"]
      + (if display != 0 then ["--display", IntToString(display)] else []) + [DumpPath(display)]
  {
    var words := ["uiautomator", "dump"]
      + (if display != 0 then ["--display", IntToString(display)] else []) + [DumpPath(display)];
    IntWord(display);
    SplitJoin(words, ' ');
    Join(words, [' '])
  }

  const XmlDecl := "<?xml"

  /** `s` is where the first `<?xml` of `content` starts. */
  predicate FirstDecl(content: string, s: nat) {
    OccursAt(content, XmlDecl, s) && forall j :: 0 <= j < s ==> !OccursAt(content, XmlDecl, j)
  }

  /** `e` is the position of the last `>` of `content`. */
  predicate LastClose(content: string, e: nat) {
    e < |content| && content[e] == '>' && forall j :: e < j < |content| ==> content[j] != '>'
  }

  /** The returned document: from the first `<?xml` through the last `>`. Output
      without `<?xml` is an error; output without `>` is returned whole; a last
      `>` before the declaration leaves nothing. */
  function XmlSlice(content: string, display: int): (r: Result<string, string>)
    ensures r.Err? <==> forall j :: !OccursAt(content, XmlDecl, j)
    ensures r.Err? ==> r.error == "Failed to dump hierarchy for display " + IntToString(display)
    ensures r.Ok? ==> exists i :: OccursAt(content, r.value, i)
    ensures r.Ok? && '>' !in content ==> r.value == content
    ensures r.Ok? && r.value != "" && '>' in content ==>
      OccursAt(r.value, XmlDecl, 0) && r.value[|r.value| - 1] == '>'
  {
    match Find(content, XmlDecl)
    case None => Err("Failed to dump hierarchy for display " + IntToString(display))
    case Some(start) =>
      match RFindChar(content, '>')
      case None => assert OccursAt(content, content, 0); Ok(content)
      case Some(end) =>
        if end < start then assert OccursAt(content, "", 0); Ok("")
        else
          DocSlice(content, start, end);
          Ok(content[start..end + 1])
  }

  /** The slice runs from the first declaration through the last `>`, and is
      empty when that `>` comes before the declaration. */
  lemma XmlSliceFirstLast(content: string, display: int, s: nat, e: nat)
    requires FirstDecl(content, s) && LastClose(content, e)
    ensures XmlSlice(content, display) == Ok(if e < s then "" else content[s..e + 1])
  {
  }

  /** The slice from a declaration through a later `>` occurs in the output,
      starts with the declaration and ends with that `>`. */
  lemma DocSlice(content: string, start: nat, end: nat)
    requires OccursAt(content, XmlDecl, start)
    requires start <= end < |content| && content[end] == '>'
    ensures var doc := content[start..end + 1];
      OccursAt(content, doc, start) && OccursAt(doc, XmlDecl, 0) && doc[|doc| - 1] == '>'
  {
    CloseAfterDecl(content, start, end);
    var doc := content[start..end + 1];
    assert doc[0..|XmlDecl|] == content[start..start + |XmlDecl|];
  }

  /** A `>` at or after the start of a declaration lies past its end: the
      declaration holds no `>`. */
  lemma CloseAfterDecl(content: string, start: nat, end: nat)
    requires OccursAt(content, XmlDecl, start)
    requires start <= end < |content| && content[end] == '>'
    ensures start + |XmlDecl| <= end
  {
    forall j | start <= j < start + |XmlDecl|
      ensures content[j] != '>'
    {
      assert content[j] == content[start..start + |XmlDecl|][j - start];
    }
  }

  /** The slice recovers a document from noisy output: any text before it without
      a declaration, any text after it without `>`. */
  lemma XmlSliceRecovers(before: string, doc: string, after: string, display: int)
    requires OccursAt(doc, XmlDecl, 0) && doc[|doc| - 1] == '>'
    requires forall j :: 0 <= j < |before| ==> !OccursAt(before + doc + after, XmlDecl, j)
    requires '>' !in after
    ensures XmlSlice(before + doc + after, display) == Ok(doc)
  {
    var s := before + doc + after;
    assert s[|before|..|before| + |XmlDecl|] == doc[..|XmlDecl|];
    assert OccursAt(s, XmlDecl, |before|);
    assert Find(s, XmlDecl) == Some(|before|);
    var end := |before| + |doc| - 1;
    assert s[end] == '>';
    assert forall j :: end < j < |s| ==> s[j] == after[j - |before| - |doc|];
    assert RFindChar(s, '>') == Some(end);
    assert s[|before|..end + 1] == doc;
  }

  /** What the shell calls of `get_hierarchy` gave: the message of the first
      exception (from `adb.device` or any of its three `d.shell` calls), or what
      `cat` printed. */
  datatype DumpRun = Threw(message: string) | Printed(text: string)

  /** `get_hierarchy` (`/api/hierarchy?display=`). */
  function Hierarchy(serial: Option<string>, display: int, dumped: DumpRun): (r: Reply<string>)
    ensures !Connected(serial) ==> r == Failed(400, NotConnected)
    ensures Connected(serial) && dumped.Threw? ==> r == Failed(500, dumped.message)
    ensures Connected(serial) && dumped.Printed? ==>
      (r.Served? <==> exists j :: OccursAt(dumped.text, XmlDecl, j))
    ensures Connected(serial) && dumped.Printed? && r.Failed? ==>
      r == Failed(500, "Failed to dump hierarchy for display " + IntToString(display))
    ensures r.Served? ==> dumped.Printed? && exists i :: OccursAt(dumped.text, r.body, i)
    ensures r.Served? ==> dumped.Printed? && XmlSlice(dumped.text, display) == Ok(r.body)
  {
    if !Connected(serial) then Failed(400, NotConnected)
    else match dumped
      case Threw(m) => Failed(500, m)
      case Printed(text) =>
        match XmlSlice(text, display)
        case Ok(xml) => Served(xml)
        case Err(e) => Failed(500, e)
  }

  /** A document printed between noise without a declaration and a tail without
      `>` is served exactly. */
  lemma HierarchyServesDocument(serial: Option<string>, display: int, before: string, doc: string,
                                after: string)
    requires Connected(serial)
    requires OccursAt(doc, XmlDecl, 0) && doc[|doc| - 1] == '>'
    requires forall j :: 0 <= j < |before| ==> !OccursAt(before + doc + after, XmlDecl, j)
    requires '>' !in after
    ensures Hierarchy(serial, display, Printed(before + doc + after)) == Served(doc)
  {
    XmlSliceRecovers(before, doc, after, display);
  }

  // ---------------------------------------------------------------------------
  // Input commands

  /** The words of an `input` command: `-d N` is inserted only for a positive
      display. */
  function InputWords(display: int, action: seq<string>): seq<string> {
    ["input"] + (if display > 0 then ["-d", IntToString(display)] else []) + action
  }

  function InputCommand(display: int, action: seq<string>): (cmd: string)
    requires forall k :: 0 <= k < |action| ==> Word(action[k])
    ensures Split(cmd, ' ') == InputWords(display, action)
  {
    var words := InputWords(display, action);
    var head := ["input"] + (if display > 0 then ["-d", IntToString(display)] else []);
    assert words == head + action;
    IntWord(display);
    forall k | 0 <= k < |words|
      ensures ' ' !in words[k]
    {
      if k >= |head| {
        assert words[k] == action[k - |head|] && Word(action[k - |head|]);
      } else if k == 0 {
        assert words[k] == "input";
      } else if k == 1 {
        assert words[k] == "-d";
      } else {
        assert words[k] == IntToString(display);
      }
    }
    SplitJoin(words, ' ');
    Join(words, [' '])
  }

  /** Python `int()` of a float: truncation toward zero. */
  function Trunc(v: real): (n: int)
    ensures v >= 0.0 ==> n as real <= v < n as real + 1.0
    ensures v < 0.0 ==> n as real - 1.0 < v <= n as real
  {
    if v >= 0.0 then v.Floor else -((-v).Floor)
  }

  /** `/api/click`: `input [-d N] tap X Y`. */
  function Tap(serial: Option<string>, display: int, x: int, y: int): (r: Reply<string>)
    ensures !Connected(serial) ==> r == Failed(400, NotConnected)
    ensures Connected(serial) ==>
      (r.Served? && Split(r.body, ' ') == InputWords(display, ["tap", IntToString(x), IntToString(y)]))
  {
    IntWord(x);
    IntWord(y);
    if !Connected(serial) then Failed(400, NotConnected)
    else Served(InputCommand(display, ["tap", IntToString(x), IntToString(y)]))
  }

  /** `/api/swipe`: `input [-d N] swipe X1 Y1 X2 Y2 MS`, the duration given in
      seconds and truncated to whole milliseconds. */
  function SwipeCmd(serial: Option<string>, display: int, x1: int, y1: int, x2: int, y2: int,
                    seconds: real): (r: Reply<string>)
    ensures !Connected(serial) ==> r == Failed(400, NotConnected)
    ensures Connected(serial) ==>
      (r.Served? && Split(r.body, ' ') == InputWords(display, ["swipe", IntToString(x1), IntToString(y1),
         IntToString(x2), IntToString(y2), IntToString(Trunc(seconds * 1000.0))]))
  {
    var ms := Trunc(seconds * 1000.0);
    var action := ["swipe", IntToString(x1), IntToString(y1), IntToString(x2), IntToString(y2), IntToString(ms)];
    SwipeWords(x1, y1, x2, y2, ms);
    if !Connected(serial) then Failed(400, NotConnected)
    else Served(InputCommand(display, action))
  }

  /** The arguments of a swipe are words. */
  lemma SwipeWords(x1: int, y1: int, x2: int, y2: int, ms: int)
    ensures var action := ["swipe", IntToString(x1), IntToString(y1), IntToString(x2), IntToString(y2), IntToString(ms)];
      forall k :: 0 <= k < |action| ==> Word(action[k])
  {
    var action := ["swipe", IntToString(x1), IntToString(y1), IntToString(x2), IntToString(y2), IntToString(ms)];
    IntWord(x1);
    IntWord(y1);
    IntWord(x2);
    IntWord(y2);
    IntWord(ms);
    forall k | 0 <= k < |action|
      ensures Word(action[k])
    {
      if k == 0 {
        assert action[k] == "swipe";
      }
    }
  }

  /** `/api/back`: `input [-d N] keyevent 4`, 4 being the BACK key. */
  function Back(serial: Option<string>, display: int): (r: Reply<string>)
    ensures !Connected(serial) ==> r == Failed(400, NotConnected)
    ensures Connected(serial) ==> r.Served? && Split(r.body, ' ') == InputWords(display, ["keyevent", "4"])
  {
    if !Connected(serial) then Failed(400, NotConnected)
    else Served(InputCommand(display, ["keyevent", "4"]))
  }

  /** The display targeted by the words of an `input` command: the number after
      `-d`, or 0 when there is none. */
  function TargetDisplay(words: seq<string>): int {
    if |words| >= 3 && words[1] == "-d" then
      match ParseInt(words[2]) case Some(n) => n case None => 0
    else 0
  }

  /** Every input command reaches the display it was asked for, the default
      display 0 standing for any display that is not positive. */
  lemma InputTargets(display: int, action: seq<string>)
    requires InInt32(display)
    requires |action| > 0 && action[0] != "-d"
    ensures TargetDisplay(InputWords(display, action)) == (if display > 0 then display else 0)
  {
    if display > 0 {
      ParseIntOfIntToString(display);
    }
  }

  // ---------------------------------------------------------------------------
  // refresh_display_mapping and get_displays

  /** One `Display Device` block of `dumpsys display`, after the regular
      expressions: the logical id (`mDisplayId`), the physical id (`mUniqueId`)
      and the resolution (`W x H,`), each when found. */
  datatype Block = Block(logical: Option<string>, physical: Option<string>, resolution: Option<(string, string)>)

  /** An entry of the display list; the fixed fallbacks carry no physical id. */
  datatype DisplayInfo = DisplayInfo(id: string, physical: Option<string>, description: string)

  /** The seat prefix of a logical display, if it has one. */
  function Seat(logical: string): Option<string> {
    if logical == "0" then Some("Main Driver")
    else if logical == "2" then Some("Passenger")
    else if logical == "4" then Some("Rear Left")
    else if logical == "5" then Some("Rear Right")
    else None
  }

  /** The description of a display: the name, inside the seat prefix for ids
      0, 2, 4 and 5, then ` (WxH)` when a resolution was found. */
  function Describe(logical: string, name: string, res: Option<(string, string)>): (d: string)
    ensures var desc := if Seat(logical).Some? then Seat(logical).value + " (" + name + ")" else name;
      d == desc + (if res.Some? then " (" + res.value.0 + "x" + res.value.1 + ")" else "")
    ensures Seat(logical).Some? ==> IsPrefix(Seat(logical).value + " (" + name + ")", d)
    ensures Seat(logical).None? ==> IsPrefix(name, d)
    ensures res.Some? ==> exists i :: 0 <= i <= |d| && d[i..] == " (" + res.value.0 + "x" + res.value.1 + ")"
    ensures res.None? && Seat(logical).None? ==> d == name
  {
    var desc := if Seat(logical).Some? then Seat(logical).value + " (" + name + ")" else name;
    var suffix := if res.Some? then " (" + res.value.0 + "x" + res.value.1 + ")" else "";
    assert (desc + suffix)[..|desc|] == desc;
    assert (desc + suffix)[|desc|..] == suffix;
    desc + suffix
  }

  /** Both ids were found in the block. */
  predicate Complete(b: Block) {
    b.logical.Some? && b.physical.Some?
  }

  /** The name of a physical display from SurfaceFlinger, or `Display <id>`. */
  function NameOf(names: map<string, string>, b: Block): string
    requires Complete(b)
  {
    if b.physical.value in names then names[b.physical.value] else "Display " + b.logical.value
  }

  /** The entry of a complete block: its ids and its description. */
  function EntryOf(names: map<string, string>, b: Block): (e: DisplayInfo)
    requires Complete(b)
    ensures e.id == b.logical.value && e.physical == b.physical
  {
    DisplayInfo(b.logical.value, b.physical, Describe(b.logical.value, NameOf(names, b), b.resolution))
  }

  /** The entries of the complete blocks, in block order. */
  function Entries(blocks: seq<Block>, names: map<string, string>): (list: seq<DisplayInfo>)
    ensures |list| <= |blocks|
    ensures forall k :: 0 <= k < |list| ==> list[k].physical.Some?
    decreases |blocks|
  {
    if |blocks| == 0 then []
    else
      var b := blocks[|blocks| - 1];
      Entries(blocks[..|blocks| - 1], names) + (if Complete(b) then [EntryOf(names, b)] else [])
  }

  /** The positions of the complete blocks: increasing, and all of them. */
  function CompleteIndices(blocks: seq<Block>): (idx: seq<nat>)
    ensures forall k :: 0 <= k < |idx| ==> idx[k] < |blocks| && Complete(blocks[idx[k]])
    ensures forall k, l :: 0 <= k < l < |idx| ==> idx[k] < idx[l]
    ensures forall i :: 0 <= i < |blocks| && Complete(blocks[i]) ==> i in idx
    decreases |blocks|
  {
    if |blocks| == 0 then []
    else
      var front := CompleteIndices(blocks[..|blocks| - 1]);
      if Complete(blocks[|blocks| - 1]) then front + [|blocks| - 1] else front
  }

  /** The k-th entry is the entry of the k-th complete block: one entry per
      complete block, in block order, and nothing else. */
  lemma {:induction false} EntriesFollowBlocks(blocks: seq<Block>, names: map<string, string>)
    ensures var idx := CompleteIndices(blocks);
      |Entries(blocks, names)| == |idx|
      && forall k :: 0 <= k < |idx| ==> Entries(blocks, names)[k] == EntryOf(names, blocks[idx[k]])
    decreases |blocks|
  {
    if |blocks| > 0 {
      var front := blocks[..|blocks| - 1];
      EntriesFollowBlocks(front, names);
      var idx, idx' := CompleteIndices(blocks), CompleteIndices(front);
      var list, list' := Entries(blocks, names), Entries(front, names);
      assert idx[..|idx'|] == idx' && list[..|list'|] == list';
      forall k | 0 <= k < |idx'|
        ensures list[k] == EntryOf(names, blocks[idx[k]])
      {
        assert list[k] == list'[k] && idx[k] == idx'[k];
        assert front[idx'[k]] == blocks[idx'[k]];
      }
    }
  }

  /** The logical-to-physical mapping of the complete blocks; a later block wins
      for a repeated logical id. */
  function Mapping(blocks: seq<Block>): (m: map<string, string>)
    decreases |blocks|
  {
    if |blocks| == 0 then map[]
    else
      var b := blocks[|blocks| - 1];
      var m := Mapping(blocks[..|blocks| - 1]);
      if Complete(b) then m[b.logical.value := b.physical.value] else m
  }

  /** The mapping has an entry exactly for the logical ids of the complete
      blocks, and it is the physical id of the last such block. */
  lemma {:induction false} MappingLastWins(blocks: seq<Block>, id: string)
    ensures id in Mapping(blocks) <==> exists k :: 0 <= k < |blocks| && Complete(blocks[k]) && blocks[k].logical == Some(id)
    ensures id in Mapping(blocks) ==> exists k ::
      (0 <= k < |blocks| && Complete(blocks[k]) && blocks[k].logical == Some(id)
       && Mapping(blocks)[id] == blocks[k].physical.value
       && forall l :: k < l < |blocks| ==> !(Complete(blocks[l]) && blocks[l].logical == Some(id)))
    decreases |blocks|
  {
    if |blocks| > 0 {
      var front := blocks[..|blocks| - 1];
      MappingLastWins(front, id);
      assert forall k :: 0 <= k < |front| ==> front[k] == blocks[k];
    }
  }

  /** The fixed mapping installed when no block was complete. */
  const FallbackMapping: map<string, string> := map[
    "0" := "4630947208271169553", "2" := "4630946780669082146",
    "4" := "4630946953448788001", "5" := "4630947039749296163"]

  const FallbackList: seq<DisplayInfo> := [
    DisplayInfo("0", None, "Main Driver (DP_0)"), DisplayInfo("2", None, "Passenger (DP_2)"),
    DisplayInfo("4", None, "Rear Left (DP_1)"), DisplayInfo("5", None, "Rear Right (DP_3)")]

  /** `refresh_display_mapping`: the new mapping and the list returned. */
  function RefreshDisplayMapping(blocks: seq<Block>, names: map<string, string>): (r: (map<string, string>, seq<DisplayInfo>))
    ensures |r.1| > 0
    ensures (forall k :: 0 <= k < |blocks| ==> !Complete(blocks[k])) ==> r == (FallbackMapping, FallbackList)
    ensures (exists k :: 0 <= k < |blocks| && Complete(blocks[k])) ==>
      r.0 == Mapping(blocks) && r.1 == Entries(blocks, names)
  {
    EntriesEmpty(blocks, names);
    var list := Entries(blocks, names);
    if |list| == 0 then (FallbackMapping, FallbackList) else (Mapping(blocks), list)
  }

  /** The list is empty exactly when no block is complete. */
  lemma EntriesEmpty(blocks: seq<Block>, names: map<string, string>)
    ensures |Entries(blocks, names)| == 0 <==> forall k :: 0 <= k < |blocks| ==> !Complete(blocks[k])
  {
    EntriesFollowBlocks(blocks, names);
    var idx := CompleteIndices(blocks);
    if |idx| > 0 {
      assert Complete(blocks[idx[0]]);
    }
  }

  /** Every complete block yields an entry with its ids and its description. */
  lemma EntriesListBlocks(blocks: seq<Block>, names: map<string, string>, k: nat)
    requires k < |blocks| && Complete(blocks[k])
    ensures EntryOf(names, blocks[k]) in Entries(blocks, names)
  {
    EntriesFollowBlocks(blocks, names);
    var idx := CompleteIndices(blocks);
    var m :| 0 <= m < |idx| && idx[m] == k;
    assert Entries(blocks, names)[m] == EntryOf(names, blocks[k]);
  }

  const StaticDisplays: seq<DisplayInfo> := [
    DisplayInfo("0", None, "Display 0 (Main)"), DisplayInfo("2", None, "Display 2 (Passenger)"),
    DisplayInfo("4", None, "Display 4 (Rear L)"), DisplayInfo("5", None, "Display 5 (Rear R)")]

  /** `/api/displays?serial=`: nothing without a serial (the query's or the
      current one); the refreshed list; the static list when the refresh raised
      (`None` blocks). */
  function GetDisplays(query: Option<string>, current: Option<string>, blocks: Option<seq<Block>>,
                       names: map<string, string>): (r: seq<DisplayInfo>)
    ensures !Connected(query) && !Connected(current) ==> r == []
    ensures (Connected(query) || Connected(current)) && blocks.None? ==> r == StaticDisplays
    ensures (Connected(query) || Connected(current)) && blocks.Some? ==>
      r == RefreshDisplayMapping(blocks.value, names).1
  {
    var target := if Connected(query) then query else current;
    if !Connected(target) then []
    else match blocks
      case None => StaticDisplays
      case Some(bs) => RefreshDisplayMapping(bs, names).1
  }
}

=== FILE: bounds.dfy ===
/**
  Android view bounds as the hierarchy dump writes them, `bounds="[x1,y1][x2,y2]"`,
  and the rectangle arithmetic the browser client does on them (server/static/app.js
  `parseBounds` and the containment test inside `findAllNodesAt`).

  `parseBounds` searches its argument with the regular expression
  `\[(\d+),(\d+)\]\[(\d+),(\d+)\]`: the leftmost place where four unsigned runs of
  ASCII digits sit in that bracket pattern. Each digit run is maximal, because the
  character after it must be `,` or `]`, so the search never needs backtracking.
*/
module Bounds {
  import opened Wrappers
  import opened Text

  /** The corners of an axis-aligned rectangle in device pixels; app.js derives
      `w`, `h` and `area` from them. */
  datatype Rect = Rect(x1: int, y1: int, x2: int, y2: int) {
    function Width(): int { x2 - x1 }
    function Height(): int { y2 - y1 }
    function Area(): int { Width() * Height() }

    /** All four coordinates are unsigned, as every parsed rectangle's are. */
    predicate Unsigned() { x1 >= 0 && y1 >= 0 && x2 >= 0 && y2 >= 0 }
  }

  // ---------------------------------------------------------------------------
  // The pattern, stated independently of the scanner

  /** One `\d+` group. */
  predicate Token(t: string) {
    |t| > 0 && AllDigits(t)
  }

  /** The text `[a,b][c,d]`. */
  function Render(a: string, b: string, c: string, d: string): string {
    "[" + a + "," + b + "][" + c + "," + d + "]"
  }

  /** The bounds string app.js would parse back into `r`, for a rectangle with
      non-negative corners. */
  function Format(r: Rect): string
    requires r.Unsigned()
  {
    Render(NatToString(r.x1), NatToString(r.y1), NatToString(r.x2), NatToString(r.y2))
  }

  /** The text `[a,b][c,d]` occurs at index `i` of `s`, told piece by piece: each
      group at its offset and the punctuation between them (`LaidRenders` and
      `RenderLays` show this is the same as an occurrence of `Render(a, b, c, d)`). */
  predicate Laid(s: string, i: int, a: string, b: string, c: string, d: string) {
    var ia := i + 1;
    var ib := ia + |a| + 1;
    var ic := ib + |b| + 2;
    var id := ic + |c| + 1;
    && 0 <= i && id + |d| < |s|
    && s[i] == '[' && OccursAt(s, a, ia)
    && s[ia + |a|] == ',' && OccursAt(s, b, ib)
    && s[ib + |b|] == ']' && s[ib + |b| + 1] == '[' && OccursAt(s, c, ic)
    && s[ic + |c|] == ',' && OccursAt(s, d, id)
    && s[id + |d|] == ']'
  }

  /** The pieces in place make an occurrence of the rendered pattern. */
  lemma LaidRenders(s: string, i: int, a: string, b: string, c: string, d: string)
    requires Laid(s, i, a, b, c, d)
    ensures OccursAt(s, Render(a, b, c, d), i)
  {
    var p4 := "[" + a + "," + b + "][";
    LaidFront(s, i, a, b, c, d);
    var p5 := p4 + c;
    var p6 := p5 + ",";
    var p7 := p6 + d;
    assert OccursAt(s, p5, i) by {
      OccursAtConcat(s, p4, c, i);
    }
    assert OccursAt(s, p6, i) by {
      OccursAtChar(s, ',', i + |p5|);
      OccursAtConcat(s, p5, ",", i);
    }
    assert OccursAt(s, p7, i) by {
      OccursAtConcat(s, p6, d, i);
    }
    OccursAtChar(s, ']', i + |p7|);
    OccursAtConcat(s, p7, "]", i);
    assert Render(a, b, c, d) == p7 + "]";
  }

  /** The first half of `LaidRenders`: `[a,b][` occurs at `i`. */
  lemma LaidFront(s: string, i: int, a: string, b: string, c: string, d: string)
    requires Laid(s, i, a, b, c, d)
    ensures OccursAt(s, "[" + a + "," + b + "][", i)
  {
    var p1 := "[" + a;
    var p2 := p1 + ",";
    var p3 := p2 + b;
    assert OccursAt(s, p1, i) by {
      OccursAtChar(s, '[', i);
      OccursAtConcat(s, "[", a, i);
    }
    assert OccursAt(s, p2, i) by {
      OccursAtChar(s, ',', i + |p1|);
      OccursAtConcat(s, p1, ",", i);
    }
    assert OccursAt(s, p3, i) by {
      OccursAtConcat(s, p2, b, i);
    }
    OccursAtChar(s, ']', i + |p3|);
    OccursAtChar(s, '[', i + |p3| + 1);
    assert "][" == "]" + "[";
    OccursAtConcat(s, "]", "[", i + |p3|);
    OccursAtConcat(s, p3, "][", i);
  }

  /** The regular expression matches at index `i` of `s` with groups `a`..`d`. */
  predicate MatchesWith(s: string, i: int, a: string, b: string, c: string, d: string) {
    Token(a) && Token(b) && Token(c) && Token(d) && Laid(s, i, a, b, c, d)
  }

  /** An occurrence of the rendered pattern has its pieces in place. */
  lemma RenderLays(s: string, i: int, a: string, b: string, c: string, d: string)
    requires OccursAt(s, Render(a, b, c, d), i)
    ensures Laid(s, i, a, b, c, d)
  {
    var front := "[" + a + "," + b + "][";
    var back := c + "," + d + "]";
    assert Render(a, b, c, d) == front + back;
    OccursAtConcat(s, front, back, i);
    FrontLays(s, i, a, b);
    BackLays(s, i + |front|, c, d);
  }

  /** An occurrence of `[a,b][` has its pieces in place. */
  lemma FrontLays(s: string, i: int, a: string, b: string)
    requires OccursAt(s, "[" + a + "," + b + "][", i)
    ensures s[i] == '[' && OccursAt(s, a, i + 1) && s[i + 1 + |a|] == ','
    ensures OccursAt(s, b, i + 2 + |a|) && s[i + 2 + |a| + |b|] == ']' && s[i + 3 + |a| + |b|] == '['
  {
    var p1 := "[" + a;
    var p2 := p1 + ",";
    var p3 := p2 + b;
    OccursAtConcat(s, p3, "][", i);
    assert "][" == "]" + "[";
    OccursAtConcat(s, "]", "[", i + |p3|);
    OccursAtChar(s, ']', i + |p3|);
    OccursAtChar(s, '[', i + |p3| + 1);
    OccursAtConcat(s, p2, b, i);
    OccursAtConcat(s, p1, ",", i);
    OccursAtChar(s, ',', i + |p1|);
    OccursAtConcat(s, "[", a, i);
    OccursAtChar(s, '[', i);
  }

  /** An occurrence of `c,d]` has its pieces in place. */
  lemma BackLays(s: string, j: int, c: string, d: string)
    requires OccursAt(s, c + "," + d + "]", j)
    ensures OccursAt(s, c, j) && s[j + |c|] == ',' && OccursAt(s, d, j + |c| + 1)
    ensures s[j + |c| + 1 + |d|] == ']'
  {
    var q1 := c + ",";
    var q2 := q1 + d;
    OccursAtConcat(s, q2, "]", j);
    OccursAtChar(s, ']', j + |q2|);
    OccursAtConcat(s, q1, d, j);
    OccursAtConcat(s, c, ",", j);
    OccursAtChar(s, ',', j + |c|);
  }

  // ---------------------------------------------------------------------------
  // The scanner

  /** Length of the run of digits that starts at `i`. */
  function DigitRun(s: string, i: nat): (k: nat)
    ensures i + k <= |s| || k == 0
    decreases |s| - i
  {
    if i < |s| && IsDigit(s[i]) then 1 + DigitRun(s, i + 1) else 0
  }

  /** The run consists of digits ... */
  lemma {:induction false} DigitRunDigits(s: string, i: nat)
    requires i + DigitRun(s, i) <= |s|
    ensures AllDigits(s[i..i + DigitRun(s, i)])
    decreases |s| - i
  {
    if i < |s| && IsDigit(s[i]) {
      var k := DigitRun(s, i + 1);
      DigitRunDigits(s, i + 1);
      assert s[i..i + 1 + k] == [s[i]] + s[i + 1..i + 1 + k];
    }
  }

  /** ... and stops at the first character that is not a digit. */
  lemma {:induction false} DigitRunOf(s: string, j: nat, t: string)
    requires OccursAt(s, t, j) && AllDigits(t)
    requires j + |t| < |s| && !IsDigit(s[j + |t|])
    ensures DigitRun(s, j) == |t|
    decreases |t|
  {
    if |t| > 0 {
      assert s[j] == t[0];
      assert s[j + 1..j + 1 + |t[1..]|] == t[1..];
      DigitRunOf(s, j + 1, t[1..]);
    }
  }

  /** Where the four digit runs of a candidate match at `i` end: each run starts one
      character after the previous end (two after the second, past `][`). */
  datatype Cuts = Cuts(ea: nat, eb: nat, ec: nat, ed: nat)

  function CutsAt(s: string, i: nat): Cuts {
    var ea := i + 1 + DigitRun(s, i + 1);
    var eb := ea + 1 + DigitRun(s, ea + 1);
    var ec := eb + 2 + DigitRun(s, eb + 2);
    var ed := ec + 1 + DigitRun(s, ec + 1);
    Cuts(ea, eb, ec, ed)
  }

  /** Every run is non-empty and the punctuation between the runs is right. */
  predicate Shaped(s: string, i: nat, k: Cuts) {
    && i < |s| && s[i] == '['
    && i + 1 < k.ea < |s| && s[k.ea] == ','
    && k.ea + 1 < k.eb && k.eb + 1 < |s| && s[k.eb] == ']' && s[k.eb + 1] == '['
    && k.eb + 2 < k.ec < |s| && s[k.ec] == ','
    && k.ec + 1 < k.ed < |s| && s[k.ed] == ']'
  }

  /** In a well-shaped candidate the four runs between the cuts are digits. */
  lemma ShapedRuns(s: string, i: nat, k: Cuts)
    requires k == CutsAt(s, i) && Shaped(s, i, k)
    ensures AllDigits(s[i + 1..k.ea]) && AllDigits(s[k.ea + 1..k.eb])
    ensures AllDigits(s[k.eb + 2..k.ec]) && AllDigits(s[k.ec + 1..k.ed])
  {
    RunDigits(s, i + 1, k.ea);
    RunDigits(s, k.ea + 1, k.eb);
    RunDigits(s, k.eb + 2, k.ec);
    RunDigits(s, k.ec + 1, k.ed);
  }

  /** The run from `j` that ends at `e`, inside the string, is digits. */
  lemma RunDigits(s: string, j: nat, e: nat)
    requires e == j + DigitRun(s, j) && e <= |s|
    ensures AllDigits(s[j..e])
  {
    DigitRunDigits(s, j);
  }

  /** The rectangle whose bracket pattern starts exactly at index `i`, if any. */
  function MatchAt(s: string, i: nat): (r: Option<Rect>)
    ensures r.Some? ==> r.value.Unsigned()
  {
    var k := CutsAt(s, i);
    if Shaped(s, i, k) then
      ShapedRuns(s, i, k);
      Some(Rect(DecimalValue(s[i + 1..k.ea]), DecimalValue(s[k.ea + 1..k.eb]),
                DecimalValue(s[k.eb + 2..k.ec]), DecimalValue(s[k.ec + 1..k.ed])))
    else None
  }

  /** The leftmost match at or after index `i`. */
  function SearchFrom(s: string, i: nat): (r: Option<Rect>)
    ensures r.Some? ==> r.value.Unsigned()
    decreases |s| + 1 - i
  {
    if i > |s| then None
    else if MatchAt(s, i).Some? then MatchAt(s, i)
    else SearchFrom(s, i + 1)
  }

  /** app.js `parseBounds`: a missing or empty attribute gives null; otherwise the
      leftmost match of the bounds pattern, or null when there is none. */
  function ParseBounds(attr: Option<string>): (r: Option<Rect>)
    ensures r.Some? ==> r.value.Unsigned()
    ensures attr.None? || attr == Some("") ==> r.None?
  {
    match attr
    case None => None
    case Some(s) => if s == "" then None else SearchFrom(s, 0)
  }

  // ---------------------------------------------------------------------------
  // The scanner against the pattern

  /** The cuts are where the digit runs say they are. */
  lemma CutsFrom(s: string, i: nat, ea: nat, eb: nat, ec: nat, ed: nat)
    requires ea == i + 1 + DigitRun(s, i + 1)
    requires eb == ea + 1 + DigitRun(s, ea + 1)
    requires ec == eb + 2 + DigitRun(s, eb + 2)
    requires ed == ec + 1 + DigitRun(s, ec + 1)
    ensures CutsAt(s, i) == Cuts(ea, eb, ec, ed)
  {
  }

  /** Where the pattern occurs, the scanner's digit runs end just after the groups. */
  lemma LaidCuts(s: string, i: nat, a: string, b: string, c: string, d: string)
    requires MatchesWith(s, i, a, b, c, d)
    ensures CutsAt(s, i) == Cuts(i + 1 + |a|, i + 2 + |a| + |b|, i + 4 + |a| + |b| + |c|,
                                 i + 5 + |a| + |b| + |c| + |d|)
  {
    var ea := i + 1 + |a|;
    var eb := ea + 1 + |b|;
    var ec := eb + 2 + |c|;
    var ed := ec + 1 + |d|;
    LaidRuns(s, i, a, b, c, d);
    CutsFrom(s, i, ea, eb, ec, ed);
  }

  /** Each group of an occurrence is a maximal digit run. */
  lemma LaidRuns(s: string, i: nat, a: string, b: string, c: string, d: string)
    requires MatchesWith(s, i, a, b, c, d)
    ensures DigitRun(s, i + 1) == |a| && DigitRun(s, i + 2 + |a|) == |b|
    ensures DigitRun(s, i + 4 + |a| + |b|) == |c| && DigitRun(s, i + 5 + |a| + |b| + |c|) == |d|
  {
    RunBefore(s, i + 1, a, ',');
    RunBefore(s, i + 2 + |a|, b, ']');
    RunBefore(s, i + 4 + |a| + |b|, c, ',');
    RunBefore(s, i + 5 + |a| + |b| + |c|, d, ']');
  }

  /** A group followed by punctuation is a maximal digit run. */
  lemma RunBefore(s: string, j: nat, t: string, p: char)
    requires OccursAt(s, t, j) && Token(t)
    requires j + |t| < |s| && s[j + |t|] == p && (p == ',' || p == ']')
    ensures DigitRun(s, j) == |t|
  {
    DigitRunOf(s, j, t);
  }

  /** Wherever the pattern occurs, the scanner recognises it there with the same groups. */
  lemma MatchAtComplete(s: string, i: nat, a: string, b: string, c: string, d: string)
    requires MatchesWith(s, i, a, b, c, d)
    ensures MatchAt(s, i) == Some(Rect(DecimalValue(a), DecimalValue(b), DecimalValue(c), DecimalValue(d)))
  {
    LaidCuts(s, i, a, b, c, d);
    var k := CutsAt(s, i);
    LaidShaped(s, i, a, b, c, d, k);
    MatchAtCuts(s, i, k);
  }

  /** The cuts of a laid-out pattern delimit its four groups. */
  lemma LaidShaped(s: string, i: nat, a: string, b: string, c: string, d: string, k: Cuts)
    requires MatchesWith(s, i, a, b, c, d)
    requires k == Cuts(i + 1 + |a|, i + 2 + |a| + |b|, i + 4 + |a| + |b| + |c|, i + 5 + |a| + |b| + |c| + |d|)
    ensures Shaped(s, i, k)
    ensures s[i + 1..k.ea] == a && s[k.ea + 1..k.eb] == b && s[k.eb + 2..k.ec] == c && s[k.ec + 1..k.ed] == d
  {
  }

  /** A well-shaped candidate is read as the values of its four digit runs. */
  lemma MatchAtCuts(s: string, i: nat, k: Cuts)
    requires k == CutsAt(s, i) && Shaped(s, i, k)
    ensures Token(s[i + 1..k.ea]) && Token(s[k.ea + 1..k.eb])
    ensures Token(s[k.eb + 2..k.ec]) && Token(s[k.ec + 1..k.ed])
    ensures MatchAt(s, i) == Some(Rect(DecimalValue(s[i + 1..k.ea]), DecimalValue(s[k.ea + 1..k.eb]),
                                       DecimalValue(s[k.eb + 2..k.ec]), DecimalValue(s[k.ec + 1..k.ed])))
  {
    CutTokens(s, i, k);
  }

  /** A non-empty maximal digit run is a `\d+` group. */
  lemma RunIsToken(s: string, j: nat, e: nat)
    requires e == j + DigitRun(s, j) && j < e <= |s|
    ensures Token(s[j..e])
  {
    DigitRunDigits(s, j);
  }

  /** The digit runs of a well-shaped candidate are `\d+` groups ... */
  lemma CutTokens(s: string, i: nat, k: Cuts)
    requires k == CutsAt(s, i) && Shaped(s, i, k)
    ensures Token(s[i + 1..k.ea]) && Token(s[k.ea + 1..k.eb])
    ensures Token(s[k.eb + 2..k.ec]) && Token(s[k.ec + 1..k.ed])
  {
    RunIsToken(s, i + 1, k.ea);
    RunIsToken(s, k.ea + 1, k.eb);
    RunIsToken(s, k.eb + 2, k.ec);
    RunIsToken(s, k.ec + 1, k.ed);
  }

  /** ... and lie in the bracket pattern. */
  lemma CutLaid(s: string, i: nat, k: Cuts)
    requires Shaped(s, i, k)
    ensures Laid(s, i, s[i + 1..k.ea], s[k.ea + 1..k.eb], s[k.eb + 2..k.ec], s[k.ec + 1..k.ed])
  {
  }

  /** So a well-shaped candidate is an occurrence of the pattern built from its runs. */
  lemma CutsAreTokens(s: string, i: nat, k: Cuts)
    requires k == CutsAt(s, i) && Shaped(s, i, k)
    ensures MatchesWith(s, i, s[i + 1..k.ea], s[k.ea + 1..k.eb], s[k.eb + 2..k.ec], s[k.ec + 1..k.ed])
  {
    CutTokens(s, i, k);
    CutLaid(s, i, k);
  }

  /** Whatever the scanner recognises is an occurrence of the pattern. */
  lemma MatchAtSound(s: string, i: nat)
    requires MatchAt(s, i).Some?
    ensures exists a, b, c, d ::
      (MatchesWith(s, i, a, b, c, d)
       && MatchAt(s, i) == Some(Rect(DecimalValue(a), DecimalValue(b), DecimalValue(c), DecimalValue(d))))
  {
    var a, b, c, d := MatchAtGroups(s, i);
  }

  /** The four groups of the occurrence the scanner recognises at `i`. */
  lemma MatchAtGroups(s: string, i: nat) returns (a: string, b: string, c: string, d: string)
    requires MatchAt(s, i).Some?
    ensures MatchesWith(s, i, a, b, c, d)
    ensures MatchAt(s, i) == Some(Rect(DecimalValue(a), DecimalValue(b), DecimalValue(c), DecimalValue(d)))
  {
    var k := CutsAt(s, i);
    assert Shaped(s, i, k);
    CutsAreTokens(s, i, k);
    MatchAtCuts(s, i, k);
    a, b, c, d := s[i + 1..k.ea], s[k.ea + 1..k.eb], s[k.eb + 2..k.ec], s[k.ec + 1..k.ed];
  }

  /** No match anywhere before `j` means the search from `i` is the search from `j`. */
  lemma {:induction false} SearchSkips(s: string, i: nat, j: nat)
    requires i <= j <= |s| + 1
    requires forall k :: i <= k < j ==> MatchAt(s, k).None?
    ensures SearchFrom(s, i) == SearchFrom(s, j)
  {
    var k := i;
    while k < j
      invariant i <= k <= j
      invariant SearchFrom(s, i) == SearchFrom(s, k)
    {
      k := k + 1;
    }
  }

  /** The search returns the match at the first index where the scanner succeeds. */
  lemma {:induction false} SearchFinds(s: string, i: nat)
    requires SearchFrom(s, i).Some?
    ensures exists k ::
      (i <= k <= |s| && MatchAt(s, k) == SearchFrom(s, i)
       && forall j :: i <= j < k ==> MatchAt(s, j).None?)
    decreases |s| + 1 - i
  {
    if MatchAt(s, i).None? {
      SearchFinds(s, i + 1);
      var k :| i + 1 <= k <= |s| && MatchAt(s, k) == SearchFrom(s, i + 1)
        && forall j :: i + 1 <= j < k ==> MatchAt(s, j).None?;
      assert forall j :: i <= j < k ==> MatchAt(s, j).None?;
    } else {
      assert MatchAt(s, i) == SearchFrom(s, i);
    }
  }

  /** parseBounds yields `r` exactly from the leftmost occurrence of the pattern:
      there is an occurrence whose groups read as `r`, and none starts earlier. */
  lemma ParseBoundsSound(s: string, r: Rect)
    requires ParseBounds(Some(s)) == Some(r)
    ensures exists i, a, b, c, d ::
      (MatchesWith(s, i, a, b, c, d)
       && r == Rect(DecimalValue(a), DecimalValue(b), DecimalValue(c), DecimalValue(d))
       && forall j, a', b', c', d' :: 0 <= j < i ==> !MatchesWith(s, j, a', b', c', d'))
  {
    SearchFinds(s, 0);
    var i :| 0 <= i <= |s| && MatchAt(s, i) == SearchFrom(s, 0)
      && forall j :: 0 <= j < i ==> MatchAt(s, j).None?;
    var a, b, c, d := MatchAtGroups(s, i);
    forall j, a', b', c', d' | 0 <= j < i
      ensures !MatchesWith(s, j, a', b', c', d')
    {
      if MatchesWith(s, j, a', b', c', d') {
        MatchAtComplete(s, j, a', b', c', d');
      }
    }
  }

  /** Whenever the pattern occurs somewhere in the string, parseBounds succeeds. */
  lemma ParseBoundsComplete(s: string, i: nat, a: string, b: string, c: string, d: string)
    requires MatchesWith(s, i, a, b, c, d)
    ensures ParseBounds(Some(s)).Some?
  {
    MatchAtComplete(s, i, a, b, c, d);
    LeftmostExists(s, i);
  }

  /** A scanner hit at `k` makes the search from 0 succeed. */
  lemma {:induction false} LeftmostExists(s: string, k: nat)
    requires k <= |s| && MatchAt(s, k).Some?
    ensures SearchFrom(s, 0).Some?
  {
    var i := 0;
    while i < k && MatchAt(s, i).None?
      invariant i <= k
      invariant SearchFrom(s, 0) == SearchFrom(s, i)
    {
      i := i + 1;
    }
  }

  /** Formatting a rectangle with non-negative corners and parsing it back gives it again. */
  lemma ParseFormat(r: Rect)
    requires r.Unsigned()
    ensures ParseBounds(Some(Format(r))) == Some(r)
  {
    var s := Format(r);
    var a, b, c, d := NatToString(r.x1), NatToString(r.y1), NatToString(r.x2), NatToString(r.y2);
    assert s[0..|s|] == s;
    RenderLays(s, 0, a, b, c, d);
    MatchAtComplete(s, 0, a, b, c, d);
  }

  // ---------------------------------------------------------------------------
  // Containment

  /** The test in `findAllNodesAt`: inclusive on all four edges. The point is in
      device pixels and need not be whole; an inverted rectangle contains nothing. */
  predicate Contains(r: Rect, x: real, y: real)
    ensures Contains(r, x, y) ==> r.x1 <= r.x2 && r.y1 <= r.y2
  {
    r.x1 as real <= x <= r.x2 as real && r.y1 as real <= y <= r.y2 as real
  }

  /** The worked example of the bounds format: `[100,200][300,400]` is how the
      rectangle from (100,200) to (300,400) is written ... */
  lemma FormatExample()
    ensures Format(Rect(100, 200, 300, 400)) == "[100,200][300,400]"
  {
    HundredsToString();
    assert Format(Rect(100, 200, 300, 400)) == Render("100", "200", "300", "400");
    assert Render("100", "200", "300", "400") == "[100,200][300,400]";
  }

  /** The decimal renderings the example uses. */
  lemma HundredsToString()
    ensures NatToString(100) == "100" && NatToString(200) == "200"
    ensures NatToString(300) == "300" && NatToString(400) == "400"
  {
    assert NatToString(1) == "1" && NatToString(10) == "10";
    assert NatToString(2) == "2" && NatToString(20) == "20";
    assert NatToString(3) == "3" && NatToString(30) == "30";
    assert NatToString(4) == "4" && NatToString(40) == "40";
  }

  /** ... and parseBounds reads it back as that rectangle ... */
  lemma BoundsExample()
    ensures ParseBounds(Some("[100,200][300,400]")) == Some(Rect(100, 200, 300, 400))
  {
    FormatExample();
    ParseFormat(Rect(100, 200, 300, 400));
  }

  /** ... which has area 40000, contains (150,250) and its corner (100,400), but not (99,250). */
  lemma ContainsExample()
    ensures Rect(100, 200, 300, 400).Area() == 40000
    ensures Contains(Rect(100, 200, 300, 400), 150.0, 250.0)
    ensures Contains(Rect(100, 200, 300, 400), 100.0, 400.0)
    ensures !Contains(Rect(100, 200, 300, 400), 99.0, 250.0)
  {
  }
}

=== FILE: canvas.dfy ===
/**
  Pointer handling on the screenshot canvas of server/static/app.js: the mapping
  of a pointer position to device pixels (`getCanvasCoords`), the press / release
  / leave handlers that tell a click from a swipe, and the inspection that a click
  or a hover performs (`findAllNodesAt`, then `pickBestNode`).
*/
module Canvas {
  import opened Wrappers
  import opened Bounds
  import opened HitTest

  // ---------------------------------------------------------------------------
  // getCanvasCoords

  /** A position in device pixels (the screenshot's own resolution). */
  datatype Point = Point(x: real, y: real)

  /** Where the canvas is drawn on the page (`getBoundingClientRect`) and the
      natural size of the screenshot it shows. */
  datatype View = View(left: real, top: real, width: real, height: real,
                       naturalWidth: real, naturalHeight: real)

  /** One axis of `getCanvasCoords`: an offset into the rendered canvas scaled by
      natural size over rendered size. A zero rendered size has no device
      position (the browser would produce an infinite or NaN coordinate). */
  function DeviceAxis(offset: real, natural: real, rendered: real): (d: Option<real>)
    ensures d.None? <==> rendered == 0.0
    ensures d.Some? ==> d.value * rendered == offset * natural
  {
    if rendered == 0.0 then None else Some(offset * (natural / rendered))
  }

  /** app.js `getCanvasCoords`: each axis is mapped on its own, after taking the
      pointer position relative to the canvas' top-left corner. */
  function CanvasCoords(v: View, clientX: real, clientY: real): (p: Option<Point>)
    ensures p.Some? <==> v.width != 0.0 && v.height != 0.0
    ensures p.Some? ==> p.value.x * v.width == (clientX - v.left) * v.naturalWidth
    ensures p.Some? ==> p.value.y * v.height == (clientY - v.top) * v.naturalHeight
  {
    var dx := DeviceAxis(clientX - v.left, v.naturalWidth, v.width);
    var dy := DeviceAxis(clientY - v.top, v.naturalHeight, v.height);
    if dx.Some? && dy.Some? then Some(Point(dx.value, dy.value)) else None
  }

  /** Where a device position is drawn inside the rendered canvas: the inverse
      scaling, natural size to rendered size. */
  function RenderedAxis(device: real, natural: real, rendered: real): (c: real)
    requires natural != 0.0
    ensures c * natural == device * rendered
  {
    device * (rendered / natural)
  }

  /** Mapping a rendered offset to device pixels and back gives the offset back,
      and the other way round. */
  lemma AxisRoundTrip(offset: real, device: real, natural: real, rendered: real)
    requires natural != 0.0 && rendered != 0.0
    ensures RenderedAxis(DeviceAxis(offset, natural, rendered).value, natural, rendered) == offset
    ensures DeviceAxis(RenderedAxis(device, natural, rendered), natural, rendered) == Some(device)
  {
    var d := DeviceAxis(offset, natural, rendered).value;
    assert d * rendered == offset * natural;
    var c := RenderedAxis(d, natural, rendered);
    assert c * natural == d * rendered;
    assert c * natural == offset * natural;
    var c' := RenderedAxis(device, natural, rendered);
    var d' := DeviceAxis(c', natural, rendered).value;
    assert d' * rendered == c' * natural == device * rendered;
    Cancel(d', device, rendered);
  }

  lemma Cancel(a: real, b: real, k: real)
    requires k != 0.0 && a * k == b * k
    ensures a == b
  {
    assert (a - b) * k == 0.0;
  }

  /** A pointer inside the rendered canvas maps inside the screenshot, and the
      mapping keeps the order of positions. */
  lemma AxisInside(offset: real, offset': real, natural: real, rendered: real)
    requires rendered > 0.0 && natural >= 0.0
    requires 0.0 <= offset <= offset' <= rendered
    ensures 0.0 <= DeviceAxis(offset, natural, rendered).value
    ensures DeviceAxis(offset, natural, rendered).value <= DeviceAxis(offset', natural, rendered).value
    ensures DeviceAxis(offset', natural, rendered).value <= natural
  {
    var s := natural / rendered;
    assert s >= 0.0;
    assert offset * s <= offset' * s;
    assert rendered * s == natural;
    assert offset' * s <= rendered * s;
  }

  /** A 360 x 640 rendering of a 1080 x 1920 screenshot: the pointer at its
      centre is the device's centre. */
  lemma CoordsExample()
    ensures CanvasCoords(View(10.0, 20.0, 360.0, 640.0, 1080.0, 1920.0), 190.0, 340.0)
         == Some(Point(540.0, 960.0))
  {
  }

  // ---------------------------------------------------------------------------
  // Press, release and leave

  /** The drag state kept between handlers: `isDragging`, and the start position
      and time (in milliseconds) recorded on a left-button press. */
  datatype Drag = Idle | Dragging(start: Point, t0: int)

  /** What a release asks for: a click at a position (a real tap too when real
      control is on), or a swipe of the device. */
  datatype Gesture =
    | Click(at: Point, realControl: bool)
    | Swipe(from: Point, to: Point, seconds: real)

  /** The drag threshold in pixels. */
  const DragThreshold: real := 10.0

  /** The release is far enough from the press to be a swipe: the squared
      distance exceeds the squared threshold, which is the source's test on the
      square root (see `DistanceTest`). */
  predicate FarApart(a: Point, b: Point) {
    (b.x - a.x) * (b.x - a.x) + (b.y - a.y) * (b.y - a.y) > DragThreshold * DragThreshold
  }

  /** For a non-negative distance `d`, comparing `d` with the threshold and
      comparing its square with the squared threshold agree. */
  lemma DistanceTest(d: real)
    requires d >= 0.0
    ensures d > DragThreshold <==> d * d > DragThreshold * DragThreshold
  {
    var t := DragThreshold;
    assert d * d - t * t == (d - t) * (d + t);
    assert d + t > 0.0;
    if d > t {
      PositiveProduct(d - t, d + t);
    } else {
      NonPositiveProduct(d - t, d + t);
    }
  }

  lemma PositiveProduct(a: real, b: real)
    requires a > 0.0 && b > 0.0
    ensures a * b > 0.0
  {
  }

  lemma NonPositiveProduct(a: real, b: real)
    requires a <= 0.0 && b > 0.0
    ensures a * b <= 0.0
  {
  }

  /** `canvas.onmousedown`: only the left button (0) starts a drag; any other
      button leaves the state alone. */
  function MouseDown(st: Drag, button: int, at: Point, now: int): (r: Drag)
    ensures button == 0 ==> r == Dragging(at, now)
    ensures button != 0 ==> r == st
  {
    if button != 0 then st else Dragging(at, now)
  }

  /** `canvas.onmouseup`: without a drag in progress the release is a click at
      the release position. Ending a drag, it is a swipe from the press to the
      release position when they are farther apart than the threshold and real
      control is on, taking the elapsed seconds but at least 0.1; otherwise it is
      a click at the release position. The drag always ends. */
  function MouseUp(st: Drag, at: Point, realControl: bool, now: int): (r: (Drag, Gesture))
    ensures r.0 == Idle
    ensures r.1.Swipe? <==> st.Dragging? && realControl && FarApart(st.start, at)
    ensures r.1.Click? ==> r.1.at == at && r.1.realControl == realControl
    ensures r.1.Swipe? ==> r.1.from == st.start && r.1.to == at && r.1.seconds >= 0.1
    ensures r.1.Swipe? ==> r.1.seconds * 1000.0 >= (now - st.t0) as real
    ensures r.1.Swipe? ==>
      var elapsed := (now - st.t0) as real / 1000.0;
      r.1.seconds == (if elapsed > 0.1 then elapsed else 0.1)
  {
    match st
    case Idle => (Idle, Click(at, realControl))
    case Dragging(start, t0) =>
      if FarApart(start, at) && realControl then
        var elapsed := (now - t0) as real / 1000.0;
        (Idle, Swipe(start, at, if elapsed > 0.1 then elapsed else 0.1))
      else (Idle, Click(at, realControl))
  }

  /** `canvas.onmouseleave`: leaving the canvas drops a drag in progress and
      clears the hovered node. */
  function MouseLeave(st: Drag, hover: Option<Elem>): (r: (Drag, Option<Elem>))
    ensures r.0 == Idle && r.1.None?
  {
    (Idle, None)
  }

  /** A press with another button than the left one starts no drag, so its
      release is handled as a click, a real tap when real control is on. */
  lemma OtherButtonClicks(button: int, down: Point, up: Point, realControl: bool, t0: int, t1: int)
    requires button != 0
    ensures MouseUp(MouseDown(Idle, button, down, t0), up, realControl, t1).1 == Click(up, realControl)
  {
  }

  /** A left drag released outside the threshold is a swipe only under real
      control; without it the gesture is a click at the release position, which
      selects what lies there. */
  lemma DragWithoutRealControl(down: Point, up: Point, t0: int, t1: int)
    ensures MouseUp(MouseDown(Idle, 0, down, t0), up, false, t1).1 == Click(up, false)
  {
  }

  /** After the pointer leaves, a release is a plain click even if a drag had
      begun. */
  lemma LeaveCancelsDrag(st: Drag, hover: Option<Elem>, up: Point, realControl: bool, now: int)
    ensures MouseUp(MouseLeave(st, hover).0, up, realControl, now).1 == Click(up, realControl)
  {
  }

  // ---------------------------------------------------------------------------
  // Inspection

  /** The node a click selects (`handleClick`) or a hover highlights
      (`canvas.onmousemove`): the best of the nodes hit at the position, nothing
      without a hierarchy. */
  function Inspect(root: Option<Elem>, at: Point): (r: Option<Elem>)
    ensures root.None? ==> r.None?
    ensures r.Some? ==> Hit(r.value, at.x, at.y)
    ensures root.Some? ==> (r.Some? <==> |FindAllNodesAt(root.value, at.x, at.y)| > 0)
  {
    if root.None? then None
    else
      var hits := FindAllNodesAt(root.value, at.x, at.y);
      PickBestNode(Some(hits))
  }

  /** `canvas.onmousemove`: while no drag is in progress and a hierarchy is
      loaded the hovered node follows the pointer; otherwise it stays. */
  function MouseMove(st: Drag, root: Option<Elem>, at: Point, hover: Option<Elem>): (r: Option<Elem>)
    ensures st.Dragging? || root.None? ==> r == hover
    ensures st.Idle? && root.Some? ==> r.None? || Hit(r.value, at.x, at.y)
  {
    if st.Idle? && root.Some? then Inspect(root, at) else hover
  }

  // ---------------------------------------------------------------------------
  // A worked selection: a button inside a frame

  /** A `node` element with the given bounds. */
  function NodeAt(r: Rect, children: seq<Elem>): (e: Elem)
    requires r.Unsigned()
    ensures IsNode(e) && e.children == children && BoundsOf(e) == Some(r)
  {
    ParseFormat(r);
    Elem("node", map["bounds" := Format(r)], children)
  }

  /** A hierarchy holding a frame with a single button: a click on the button
      reports the button and then the frame, and selects the button when it is
      the smaller of the two. */
  lemma SelectNested(outer: Rect, inner: Rect, at: Point)
    requires outer.Unsigned() && inner.Unsigned()
    requires Contains(inner, at.x, at.y) && Contains(outer, at.x, at.y)
    requires inner.Area() < outer.Area()
    ensures var b := NodeAt(inner, []);
      var f := NodeAt(outer, [b]);
      var root := Elem("hierarchy", map[], [f]);
      FindAllNodesAt(root, at.x, at.y) == [b, f]
      && Inspect(Some(root), at) == Some(b)
  {
    var b := NodeAt(inner, []);
    var f := NodeAt(outer, [b]);
    NestedHits(b, f, at);
    PickSmaller(b, f);
  }

  /** A frame holding a single button, both hit: the button is reported first. */
  lemma NestedHits(b: Elem, f: Elem, at: Point)
    requires b.children == [] && f.children == [b] && IsNode(b)
    requires Hit(b, at.x, at.y) && Hit(f, at.x, at.y)
    ensures FindAllNodesAt(Elem("hierarchy", map[], [f]), at.x, at.y) == [b, f]
  {
    var root := Elem("hierarchy", map[], [f]);
    var hit := HitAt(at.x, at.y);
    assert hit(b) && hit(f) && !hit(root);
    assert Collect(b, hit) == [b] by {
      assert ChildCollect(b, hit, 0) == [];
    }
    CollectOnlyChild(f, hit);
    CollectOnlyChild(root, hit);
  }

  /** Of two hits, `pickBestNode` takes the one of smaller area. */
  lemma PickSmaller(b: Elem, f: Elem)
    requires AreaKey(b).Some? && AreaKey(f).Some? && AreaKey(b).value < AreaKey(f).value
    ensures PickBestNode(Some([b, f])) == Some(b)
  {
    var s := [b, f];
    PickBestIsFirstMinimal(s);
    var i :| 0 <= i < |s| && PickBestNode(Some(s)) == Some(s[i])
      && (forall j :: 0 <= j < |s| ==> KeyLe(AreaKey(s[i]), AreaKey(s[j])))
      && (forall j :: 0 <= j < i ==> !KeyLe(AreaKey(s[j]), AreaKey(s[i])));
    assert KeyLe(AreaKey(s[0]), AreaKey(s[1])) && !KeyLe(AreaKey(s[1]), AreaKey(s[0]));
    assert i == 0;
  }

  /** The hits under an element with a single `node` child: the child's hits,
      then the element itself when it is hit. */
  lemma CollectOnlyChild(e: Elem, hit: Elem -> bool)
    requires |e.children| == 1 && IsNode(e.children[0])
    ensures Collect(e, hit) == Collect(e.children[0], hit) + (if hit(e) then [e] else [])
  {
    assert ChildCollect(e, hit, 1) == Collect(e.children[0], hit) + ChildCollect(e, hit, 0);
  }

  /** Clicking at (500, 500) on a 200 x 200 button in the middle of a
      1000 x 1000 frame selects the button. */
  lemma SelectExample()
    ensures var b := NodeAt(Rect(400, 400, 600, 600), []);
      Inspect(Some(Elem("hierarchy", map[], [NodeAt(Rect(0, 0, 1000, 1000), [b])])), Point(500.0, 500.0))
        == Some(b)
  {
    SelectNested(Rect(0, 0, 1000, 1000), Rect(400, 400, 600, 600), Point(500.0, 500.0));
  }
}

=== FILE: dependencies.dfy ===
/**
  server/check_dependencies.py: which pip the report names, the install command
  it suggests for each missing package, and the overall verdict with its exit
  code. The probes (running `pip3 --version` and the like, importing a package,
  asking `platform`) are inputs.
*/
module Dependencies {
  import opened Wrappers

  /** The outcome of the three pip probes and the name of the running
      interpreter (`python_cmd`, the base name of `sys.executable`). */
  datatype Probes = Probes(pip3: bool, pip: bool, modulePip: bool, pythonCmd: string)

  /** `<python_cmd> -m pip`. */
  function ModulePip(pythonCmd: string): string {
    pythonCmd + " -m pip"
  }

  /** `pip_methods`: every available way to run pip, in probe order. */
  function PipMethods(p: Probes): (methods: seq<string>)
    ensures "pip3" in methods <==> p.pip3
    ensures "pip" in methods <==> p.pip
    ensures ModulePip(p.pythonCmd) in methods <==> p.modulePip
    ensures p.pip3 ==> methods[0] == "pip3"
    ensures p.pip ==> methods[if p.pip3 then 1 else 0] == "pip"
    ensures p.modulePip ==> methods[|methods| - 1] == ModulePip(p.pythonCmd)
    ensures |methods| == (if p.pip3 then 1 else 0) + (if p.pip then 1 else 0) + (if p.modulePip then 1 else 0)
  {
    (if p.pip3 then ["pip3"] else [])
    + (if p.pip then ["pip"] else [])
    + (if p.modulePip then [ModulePip(p.pythonCmd)] else [])
  }

  /** `pip_cmd`: the first probe that succeeded, in the order pip3, pip,
      `<python> -m pip`. */
  function PipCmd(p: Probes): (cmd: Option<string>)
    ensures p.pip3 ==> cmd == Some("pip3")
    ensures !p.pip3 && p.pip ==> cmd == Some("pip")
    ensures !p.pip3 && !p.pip && p.modulePip ==> cmd == Some(ModulePip(p.pythonCmd))
    ensures cmd.None? <==> !p.pip3 && !p.pip && !p.modulePip
  {
    if p.pip3 then Some("pip3")
    else if p.pip then Some("pip")
    else if p.modulePip then Some(ModulePip(p.pythonCmd))
    else None
  }

  /** The command the report names is the first of the methods it lists. */
  lemma PipCmdIsFirstMethod(p: Probes)
    ensures PipCmd(p).None? <==> |PipMethods(p)| == 0
    ensures PipCmd(p).Some? ==> PipCmd(p).value == PipMethods(p)[0]
  {
  }

  /** The `install_cmd` suggested for a missing package: through
      `<python> -m pip` when that works or when no pip was found at all,
      otherwise through the detected pip. */
  function InstallCmd(p: Probes, pipName: string): (cmd: string)
    ensures PipCmd(p).None? || ModulePip(p.pythonCmd) in PipMethods(p) ==>
      cmd == ModulePip(p.pythonCmd) + " install " + pipName
    ensures PipCmd(p).Some? && ModulePip(p.pythonCmd) !in PipMethods(p) ==>
      cmd == PipCmd(p).value + " install " + pipName
  {
    var pipCmd := PipCmd(p);
    if pipCmd.Some? then
      if ModulePip(p.pythonCmd) in PipMethods(p) then ModulePip(p.pythonCmd) + " install " + pipName
      else pipCmd.value + " install " + pipName
    else ModulePip(p.pythonCmd) + " install " + pipName
  }

  /** `package_mapping`: import name and pip name of each required package. */
  const PackageMapping: seq<(string, string)> := [
    ("fastapi", "fastapi"),
    ("uvicorn", "uvicorn"),
    ("adbutils", "adbutils"),
    ("requests", "requests"),
    ("PIL", "pillow"),
    ("urllib3", "urllib3")
  ]

  /** One entry of `dependencies`; `installCmd` is present only for a missing
      package. */
  datatype Dep = Dep(installed: bool, importName: string, installCmd: Option<string>)

  /** The pip names of a mapping. */
  function PipNames(mapping: seq<(string, string)>): (names: set<string>)
    ensures forall k :: 0 <= k < |mapping| ==> mapping[k].1 in names
    ensures forall n :: n in names ==> exists k :: 0 <= k < |mapping| && mapping[k].1 == n
  {
    set k | 0 <= k < |mapping| :: mapping[k].1
  }

  /** No two packages of a mapping share a pip name. */
  predicate DistinctPipNames(mapping: seq<(string, string)>) {
    forall i, j :: 0 <= i < j < |mapping| ==> mapping[i].1 != mapping[j].1
  }

  /** The `dependencies` record: keyed by pip name, each entry recording its
      import name, whether importing it worked (`importable`), and for a
      missing one the install command. A later mapping entry with the same pip
      name would overwrite an earlier one, as a Python dict does. */
  function DepsOf(p: Probes, mapping: seq<(string, string)>, importable: set<string>): (deps: map<string, Dep>)
    ensures deps.Keys == PipNames(mapping)
    ensures forall name :: name in deps ==>
      (deps[name].installed <==> deps[name].importName in importable)
      && (deps[name].installCmd.None? <==> deps[name].installed)
      && (deps[name].installCmd.Some? ==> deps[name].installCmd.value == InstallCmd(p, name))
    decreases |mapping|
  {
    if |mapping| == 0 then map[]
    else
      var (importName, pipName) := mapping[|mapping| - 1];
      var earlier := DepsOf(p, mapping[..|mapping| - 1], importable);
      var installed := importName in importable;
      var dep := Dep(installed, importName, if installed then None else Some(InstallCmd(p, pipName)));
      assert PipNames(mapping) == PipNames(mapping[..|mapping| - 1]) + {pipName};
      earlier[pipName := dep]
  }

  /** With distinct pip names, every package of the mapping has its own entry
      carrying its import name. */
  lemma {:induction false} DepsOfEntries(p: Probes, mapping: seq<(string, string)>, importable: set<string>)
    requires DistinctPipNames(mapping)
    ensures forall k :: 0 <= k < |mapping| ==>
      mapping[k].1 in DepsOf(p, mapping, importable)
      && DepsOf(p, mapping, importable)[mapping[k].1].importName == mapping[k].0
    decreases |mapping|
  {
    if |mapping| > 0 {
      var front := mapping[..|mapping| - 1];
      assert DistinctPipNames(front);
      DepsOfEntries(p, front, importable);
      forall k | 0 <= k < |mapping| - 1
        ensures mapping[k].1 != mapping[|mapping| - 1].1 && front[k] == mapping[k]
      {
      }
    }
  }

  /** The required packages have distinct pip names. */
  lemma MappingDistinct()
    ensures DistinctPipNames(PackageMapping)
  {
    var m := PackageMapping;
    forall i, j | 0 <= i < j < |m|
      ensures m[i].1 != m[j].1
    {
      assert m[i].1[0] != m[j].1[0] || |m[i].1| != |m[j].1| || m[i].1[1] != m[j].1[1];
    }
  }

  /** The report's dependencies for the fixed package list: one entry per
      package under its pip name, carrying its import name. */
  function Deps(p: Probes, importable: set<string>): (deps: map<string, Dep>)
    ensures deps.Keys == PipNames(PackageMapping)
    ensures forall k :: 0 <= k < |PackageMapping| ==>
      PackageMapping[k].1 in deps && deps[PackageMapping[k].1].importName == PackageMapping[k].0
  {
    MappingDistinct();
    DepsOfEntries(p, PackageMapping, importable);
    DepsOf(p, PackageMapping, importable)
  }

  /** Pillow is recorded under its pip name with `PIL` as the import name, and
      is missing exactly when `PIL` does not import. */
  lemma PillowEntry(p: Probes, importable: set<string>)
    ensures "pillow" in Deps(p, importable)
    ensures Deps(p, importable)["pillow"].importName == "PIL"
    ensures Deps(p, importable)["pillow"].installed <==> "PIL" in importable
  {
    assert PackageMapping[4] == ("PIL", "pillow");
  }

  /** `all_ok`: Python is recent enough and every dependency imported. */
  function AllOk(pythonOk: bool, deps: map<string, Dep>): (ok: bool)
    ensures ok <==> pythonOk && forall name :: name in deps ==> deps[name].installed
  {
    pythonOk && forall name :: name in deps ==> deps[name].installed
  }

  /** The script's exit status. */
  function ExitCode(pythonOk: bool, deps: map<string, Dep>): (code: int)
    ensures code == 0 <==> AllOk(pythonOk, deps)
    ensures code == 0 || code == 1
  {
    if AllOk(pythonOk, deps) then 0 else 1
  }

  /** The verdict in terms of the probes: Python is recent enough and every
      import name of the package list imports. */
  lemma AllOkIffImportable(p: Probes, pythonOk: bool, importable: set<string>)
    ensures AllOk(pythonOk, Deps(p, importable))
      <==> pythonOk && forall k :: 0 <= k < |PackageMapping| ==> PackageMapping[k].0 in importable
  {
  }
}

=== FILE: hit_test.dfy ===
/**
  The browser client's hit-testing engine (server/static/app.js): which elements of
  the hierarchy dump lie under a device-space point (`findAllNodesAt`) and which of
  them is selected (`pickBestNode`).

  The parsed XML document is an immutable tree of elements. An element is named
  by its path from the root: the sequence of child indexes (among all children,
  whatever their tag) that leads to it.
*/
module HitTest {
  import opened Wrappers
  import opened Bounds

  /** One XML element of the hierarchy dump: its tag name, its attributes, and its
      child elements in document order. The document element has tag `hierarchy`;
      the UI nodes below it have tag `node`. */
  datatype Elem = Elem(tag: string, attrs: map<string, string>, children: seq<Elem>)

  /** `getAttributes(e)[name]`: undefined when the attribute is absent. */
  function Attr(e: Elem, name: string): Option<string> {
    if name in e.attrs then Some(e.attrs[name]) else None
  }

  /** The parsed `bounds` attribute, or null. */
  function BoundsOf(e: Elem): Option<Rect> {
    ParseBounds(Attr(e, "bounds"))
  }

  predicate IsNode(e: Elem) {
    e.tag == "node"
  }

  /** `e` is reported at (x, y): a `node` whose bounds parse and contain the point. */
  predicate Hit(e: Elem, x: real, y: real) {
    IsNode(e) && BoundsOf(e).Some? && Contains(BoundsOf(e).value, x, y)
  }

  // ---------------------------------------------------------------------------
  // findAllNodesAt

  /** app.js `findAllNodesAt` at the device point (x, y). */
  function FindAllNodesAt(e: Elem, x: real, y: real): (hits: seq<Elem>)
    ensures forall i :: 0 <= i < |hits| ==> Hit(hits[i], x, y)
  {
    Collect(e, HitAt(x, y))
  }

  /** The hit test of `findAllNodesAt` as a function of the element. */
  function HitAt(x: real, y: real): Elem -> bool {
    c => Hit(c, x, y)
  }

  /** The traversal of `findAllNodesAt` for any hit test `hit`: the hits of the
      `node` children, last child first, followed by the element itself when it is
      hit. Nothing is pruned: children are searched whether or not their parent
      is hit. */
  function Collect(e: Elem, hit: Elem -> bool): (hits: seq<Elem>)
    ensures forall i :: 0 <= i < |hits| ==> hit(hits[i])
    decreases e, 1
  {
    ChildCollect(e, hit, |e.children|) + (if hit(e) then [e] else [])
  }

  /** The hits below the first `n` children of `e`, child `n - 1` first. */
  function ChildCollect(e: Elem, hit: Elem -> bool, n: nat): (hits: seq<Elem>)
    requires n <= |e.children|
    ensures forall i :: 0 <= i < |hits| ==> hit(hits[i])
    decreases e, 0, n
  {
    if n == 0 then []
    else
      var c := e.children[n - 1];
      (if IsNode(c) then Collect(c, hit) else []) + ChildCollect(e, hit, n - 1)
  }

  // ---------------------------------------------------------------------------
  // Paths

  type Path = seq<nat>

  /** The traversal reaches the element at `p`: every step goes to an existing
      child whose tag is `node`. */
  predicate Reachable(e: Elem, p: Path)
    decreases |p|
  {
    |p| == 0 || (p[0] < |e.children| && IsNode(e.children[p[0]]) && Reachable(e.children[p[0]], p[1..]))
  }

  function At(e: Elem, p: Path): Elem
    requires Reachable(e, p)
    decreases |p|
  {
    if |p| == 0 then e else At(e.children[p[0]], p[1..])
  }

  /** Each path of `ps`, taken below child `k`. */
  function Under(k: nat, ps: seq<Path>): (r: seq<Path>)
    ensures |r| == |ps| && forall i :: 0 <= i < |ps| ==> r[i] == [k] + ps[i]
  {
    seq(|ps|, i requires 0 <= i < |ps| => [k] + ps[i])
  }

  /** The paths of the hits, in the order `FindAllNodesAt` reports them. */
  function HitPaths(e: Elem, hit: Elem -> bool): seq<Path>
    decreases e, 1
  {
    ChildHitPaths(e, hit, |e.children|) + (if hit(e) then [[]] else [])
  }

  function ChildHitPaths(e: Elem, hit: Elem -> bool, n: nat): seq<Path>
    requires n <= |e.children|
    decreases e, 0, n
  {
    if n == 0 then []
    else
      var c := e.children[n - 1];
      (if IsNode(c) then Under(n - 1, HitPaths(c, hit)) else []) + ChildHitPaths(e, hit, n - 1)
  }

  /** The order of the report: `p` comes before `q` when `q` is a proper ancestor
      of `p` (post-order), or when at the first step where they part `p` goes to
      the later sibling (children are searched last to first). */
  predicate Precedes(p: Path, q: Path)
    decreases |p|
  {
    |p| > 0 && (|q| == 0 || p[0] > q[0] || (p[0] == q[0] && Precedes(p[1..], q[1..])))
  }

  // ---------------------------------------------------------------------------
  // What findAllNodesAt returns

  /** Exactly the reachable elements that are hit are reported. */
  lemma {:induction false} HitPathsExact(e: Elem, hit: Elem -> bool, p: Path)
    ensures p in HitPaths(e, hit) <==> Reachable(e, p) && hit(At(e, p))
    decreases e, 1
  {
    ChildHitPathsExact(e, hit, |e.children|, p);
  }

  lemma {:induction false} ChildHitPathsExact(e: Elem, hit: Elem -> bool, n: nat, p: Path)
    requires n <= |e.children|
    ensures p in ChildHitPaths(e, hit, n) <==> |p| > 0 && p[0] < n && Reachable(e, p) && hit(At(e, p))
    decreases e, 0, n
  {
    if n > 0 {
      var c := e.children[n - 1];
      ChildHitPathsExact(e, hit, n - 1, p);
      var block := if IsNode(c) then Under(n - 1, HitPaths(c, hit)) else [];
      var rest := ChildHitPaths(e, hit, n - 1);
      assert ChildHitPaths(e, hit, n) == block + rest;
      assert p in block <==> |p| > 0 && p[0] == n - 1 && Reachable(e, p) && hit(At(e, p)) by {
        BlockExact(e, hit, n, p);
      }
    }
  }

  /** The paths contributed by child `n - 1` are the hits reached through it. */
  lemma {:induction false} BlockExact(e: Elem, hit: Elem -> bool, n: nat, p: Path)
    requires 0 < n <= |e.children|
    ensures var c := e.children[n - 1];
      p in (if IsNode(c) then Under(n - 1, HitPaths(c, hit)) else [])
      <==> |p| > 0 && p[0] == n - 1 && Reachable(e, p) && hit(At(e, p))
    decreases e, 0, n, 0
  {
    var c := e.children[n - 1];
    if IsNode(c) {
      var ps := HitPaths(c, hit);
      var block := Under(n - 1, ps);
      if |p| > 0 && p[0] == n - 1 {
        HitPathsExact(c, hit, p[1..]);
        assert Reachable(e, p) <==> Reachable(c, p[1..]);
        assert Reachable(e, p) ==> At(e, p) == At(c, p[1..]);
        if p[1..] in ps {
          var i :| 0 <= i < |ps| && ps[i] == p[1..];
          assert block[i] == p;
        }
        if p in block {
          var i :| 0 <= i < |block| && block[i] == p;
          assert p[1..] == ps[i];
        }
      }
    }
  }

  /** The elements `findAllNodesAt` returns are the elements at the hit paths. */
  lemma {:induction false} FindAllAtPaths(e: Elem, hit: Elem -> bool)
    ensures |Collect(e, hit)| == |HitPaths(e, hit)|
    ensures forall i :: 0 <= i < |HitPaths(e, hit)| ==>
      Reachable(e, HitPaths(e, hit)[i]) && Collect(e, hit)[i] == At(e, HitPaths(e, hit)[i])
    decreases e, 1
  {
    ChildHitsAtPaths(e, hit, |e.children|);
  }

  lemma {:induction false} ChildHitsAtPaths(e: Elem, hit: Elem -> bool, n: nat)
    requires n <= |e.children|
    ensures |ChildCollect(e, hit, n)| == |ChildHitPaths(e, hit, n)|
    ensures forall i :: 0 <= i < |ChildHitPaths(e, hit, n)| ==>
      Reachable(e, ChildHitPaths(e, hit, n)[i]) && ChildCollect(e, hit, n)[i] == At(e, ChildHitPaths(e, hit, n)[i])
    decreases e, 0, n
  {
    if n > 0 {
      var c := e.children[n - 1];
      ChildHitsAtPaths(e, hit, n - 1);
      var hs, ps := ChildCollect(e, hit, n - 1), ChildHitPaths(e, hit, n - 1);
      if IsNode(c) {
        FindAllAtPaths(c, hit);
        var ch, cp := Collect(c, hit), Under(n - 1, HitPaths(c, hit));
        assert ChildCollect(e, hit, n) == ch + hs;
        assert ChildHitPaths(e, hit, n) == cp + ps;
        forall i | 0 <= i < |cp|
          ensures Reachable(e, cp[i]) && ch[i] == At(e, cp[i])
        {
          assert cp[i][1..] == HitPaths(c, hit)[i];
        }
      } else {
        assert ChildCollect(e, hit, n) == hs;
        assert ChildHitPaths(e, hit, n) == ps;
      }
    }
  }

  /** Every path below the first `n` children starts with an index below `n`. */
  lemma {:induction false} ChildHitPathsHeads(e: Elem, hit: Elem -> bool, n: nat)
    requires n <= |e.children|
    ensures forall i :: 0 <= i < |ChildHitPaths(e, hit, n)| ==>
      |ChildHitPaths(e, hit, n)[i]| > 0 && ChildHitPaths(e, hit, n)[i][0] < n
  {
    forall i | 0 <= i < |ChildHitPaths(e, hit, n)|
      ensures |ChildHitPaths(e, hit, n)[i]| > 0 && ChildHitPaths(e, hit, n)[i][0] < n
    {
      var p := ChildHitPaths(e, hit, n)[i];
      ChildHitPathsExact(e, hit, n, p);
    }
  }

  /** Taking two paths below the same child keeps their order. */
  lemma PrecedesUnder(k: nat, p: Path, q: Path)
    requires Precedes(p, q)
    ensures Precedes([k] + p, [k] + q)
  {
    assert ([k] + p)[1..] == p && ([k] + q)[1..] == q;
  }

  /** The report is in `Precedes` order: descendants before ancestors, later
      siblings' subtrees before earlier siblings'. */
  lemma {:induction false} HitPathsOrdered(e: Elem, hit: Elem -> bool)
    ensures forall i, j :: 0 <= i < j < |HitPaths(e, hit)| ==> Precedes(HitPaths(e, hit)[i], HitPaths(e, hit)[j])
    decreases e, 1
  {
    var n := |e.children|;
    ChildHitPathsOrdered(e, hit, n);
    ChildHitPathsHeads(e, hit, n);
    var cs := ChildHitPaths(e, hit, n);
    var hp := HitPaths(e, hit);
    assert hp == cs + (if hit(e) then [[]] else []);
    forall i, j | 0 <= i < j < |hp|
      ensures Precedes(hp[i], hp[j])
    {
      if j >= |cs| {
        assert hp[j] == [] && hp[i] == cs[i];
      }
    }
  }

  lemma {:induction false} ChildHitPathsOrdered(e: Elem, hit: Elem -> bool, n: nat)
    requires n <= |e.children|
    ensures forall i, j :: 0 <= i < j < |ChildHitPaths(e, hit, n)| ==>
      Precedes(ChildHitPaths(e, hit, n)[i], ChildHitPaths(e, hit, n)[j])
    decreases e, 0, n
  {
    if n > 0 {
      var c := e.children[n - 1];
      ChildHitPathsOrdered(e, hit, n - 1);
      ChildHitPathsHeads(e, hit, n - 1);
      var rest := ChildHitPaths(e, hit, n - 1);
      var block := if IsNode(c) then Under(n - 1, HitPaths(c, hit)) else [];
      var all := ChildHitPaths(e, hit, n);
      assert all == block + rest;
      if IsNode(c) {
        HitPathsOrdered(c, hit);
      }
      forall i, j | 0 <= i < j < |all|
        ensures Precedes(all[i], all[j])
      {
        if j < |block| {
          PrecedesUnder(n - 1, HitPaths(c, hit)[i], HitPaths(c, hit)[j]);
        } else if i < |block| {
          assert all[i] == block[i] && all[j] == rest[j - |block|];
          assert all[i][0] == n - 1 && all[j][0] < n - 1;
        } else {
          assert all[i] == rest[i - |block|] && all[j] == rest[j - |block|];
        }
      }
    }
  }

  /** No path precedes itself ... */
  lemma {:induction false} PrecedesIrreflexive(p: Path)
    ensures !Precedes(p, p)
    decreases |p|
  {
    if |p| > 0 {
      PrecedesIrreflexive(p[1..]);
    }
  }

  /** ... nor two paths each other. */
  lemma {:induction false} PrecedesAsymmetric(p: Path, q: Path)
    requires Precedes(p, q)
    ensures !Precedes(q, p)
    decreases |p|
  {
    if |q| > 0 && p[0] == q[0] {
      PrecedesAsymmetric(p[1..], q[1..]);
    }
  }

  /** A proper ancestor comes after its descendant. */
  lemma {:induction false} PrecedesAncestor(p: Path, q: Path)
    requires |q| < |p| && q == p[..|q|]
    ensures Precedes(p, q)
    decreases |q|
  {
    if |q| > 0 {
      assert p[1..][..|q[1..]|] == q[1..];
      PrecedesAncestor(p[1..], q[1..]);
    }
  }

  /** Below a common ancestor `r`, the subtree of the later child comes first. */
  lemma {:induction false} PrecedesSibling(r: Path, a: nat, b: nat, p: Path, q: Path)
    requires a > b
    ensures Precedes(r + [a] + p, r + [b] + q)
    decreases |r|
  {
    if |r| > 0 {
      assert (r + [a] + p)[1..] == r[1..] + [a] + p;
      assert (r + [b] + q)[1..] == r[1..] + [b] + q;
      PrecedesSibling(r[1..], a, b, p, q);
    }
  }

  /** Hence each hit is reported once ... */
  lemma HitPathsDistinct(e: Elem, hit: Elem -> bool, i: nat, j: nat)
    requires i < j < |HitPaths(e, hit)|
    ensures HitPaths(e, hit)[i] != HitPaths(e, hit)[j]
  {
    HitPathsOrdered(e, hit);
    PrecedesIrreflexive(HitPaths(e, hit)[i]);
  }

  /** ... after every hit below it ... */
  lemma DescendantHitsFirst(e: Elem, hit: Elem -> bool, i: nat, j: nat)
    requires i < |HitPaths(e, hit)| && j < |HitPaths(e, hit)|
    requires var p, q := HitPaths(e, hit)[i], HitPaths(e, hit)[j]; |q| < |p| && q == p[..|q|]
    ensures i < j
  {
    var p, q := HitPaths(e, hit)[i], HitPaths(e, hit)[j];
    HitPathsOrdered(e, hit);
    PrecedesAncestor(p, q);
    if j < i {
      PrecedesAsymmetric(p, q);
    }
    PrecedesIrreflexive(p);
  }

  /** ... and after every hit in the subtree of a later sibling of one of its ancestors. */
  lemma LaterSiblingHitsFirst(e: Elem, hit: Elem -> bool, i: nat, j: nat, r: Path, a: nat, b: nat, p: Path, q: Path)
    requires i < |HitPaths(e, hit)| && j < |HitPaths(e, hit)|
    requires HitPaths(e, hit)[i] == r + [a] + p && HitPaths(e, hit)[j] == r + [b] + q
    requires a > b
    ensures i < j
  {
    HitPathsOrdered(e, hit);
    PrecedesSibling(r, a, b, p, q);
    if j < i {
      PrecedesAsymmetric(r + [a] + p, r + [b] + q);
    }
    PrecedesIrreflexive(r + [a] + p);
  }

  // ---------------------------------------------------------------------------
  // findAllNodesAt, stated on its own

  /** `findAllNodesAt(e, x, y)` lists the elements at the paths `HitPaths(e, HitAt(x, y))`;
      these are exactly the paths along `node` children to a `node` whose bounds
      parse and contain the point, each once, in `Precedes` order. */
  lemma FindAllNodesAtSpec(e: Elem, x: real, y: real)
    ensures var ps := HitPaths(e, HitAt(x, y));
      && |FindAllNodesAt(e, x, y)| == |ps|
      && (forall i :: 0 <= i < |ps| ==> Reachable(e, ps[i]) && FindAllNodesAt(e, x, y)[i] == At(e, ps[i]))
      && (forall p :: p in ps <==> Reachable(e, p) && Hit(At(e, p), x, y))
      && (forall i, j :: 0 <= i < j < |ps| ==> Precedes(ps[i], ps[j]) && ps[i] != ps[j])
  {
    var ps := HitPaths(e, HitAt(x, y));
    FindAllAtPaths(e, HitAt(x, y));
    forall p
      ensures p in ps <==> Reachable(e, p) && Hit(At(e, p), x, y)
    {
      HitPathsExact(e, HitAt(x, y), p);
    }
    HitPathsOrdered(e, HitAt(x, y));
    forall i, j | 0 <= i < j < |ps|
      ensures ps[i] != ps[j]
    {
      PrecedesIrreflexive(ps[i]);
    }
  }

  /** The document element is reported only when it is itself a `node`, so the
      `hierarchy` root never is. */
  lemma RootNeverHit(e: Elem, x: real, y: real)
    requires !IsNode(e)
    ensures [] !in HitPaths(e, HitAt(x, y))
  {
    HitPathsExact(e, HitAt(x, y), []);
  }

  // ---------------------------------------------------------------------------
  // pickBestNode

  /** The sort key: the area of the parsed bounds, with unparsable bounds ranked as
      `Number.MAX_VALUE`, here `None`, above every area. */
  function AreaKey(e: Elem): Option<int> {
    match BoundsOf(e)
    case Some(r) => Some(r.Area())
    case None => None
  }

  /** `a` sorts no later than `b`: the comparator `areaA - areaB` is not positive. */
  predicate KeyLe(a: Option<int>, b: Option<int>) {
    b.None? || (a.Some? && a.value <= b.value)
  }

  predicate SortedBy<T>(s: seq<T>, key: T -> Option<int>) {
    forall i, j :: 0 <= i < j < |s| ==> KeyLe(key(s[i]), key(s[j]))
  }

  /** Insert `x` into the sorted `t` ahead of every element whose key is not
      smaller: an element coming from earlier in the input stays ahead of its ties. */
  function Insert<T(==)>(x: T, t: seq<T>, key: T -> Option<int>): (r: seq<T>)
    ensures |r| == |t| + 1
    ensures multiset(r) == multiset(t) + multiset{x}
    ensures SortedBy(t, key) ==> SortedBy(r, key)
  {
    if |t| == 0 || KeyLe(key(x), key(t[0])) then
      var r := [x] + t;
      assert SortedBy(t, key) ==> SortedBy(r, key) by {
        if SortedBy(t, key) && |t| > 0 {
          forall i, j | 0 <= i < j < |r|
            ensures KeyLe(key(r[i]), key(r[j]))
          {
            if i == 0 && j > 1 {
              assert KeyLe(key(t[0]), key(t[j - 1]));
            }
          }
        }
      }
      r
    else
      var rest := Insert(x, t[1..], key);
      var r := [t[0]] + rest;
      assert t == [t[0]] + t[1..];
      assert SortedBy(t, key) ==> SortedBy(r, key) by {
        if SortedBy(t, key) {
          forall k | 0 <= k < |rest|
            ensures KeyLe(key(t[0]), key(rest[k]))
          {
            assert rest[k] in multiset(rest);
            if rest[k] != x {
              assert rest[k] in multiset(t[1..]);
              var m :| 0 <= m < |t[1..]| && t[1..][m] == rest[k];
              assert KeyLe(key(t[0]), key(t[m + 1]));
            }
          }
        }
      }
      r
  }

  /** A stable sort by `key`, smallest first (insertion sort; `Array.prototype.sort`
      is stable). */
  function SortBy<T(==)>(s: seq<T>, key: T -> Option<int>): (t: seq<T>)
    ensures |t| == |s|
    ensures multiset(t) == multiset(s)
    ensures SortedBy(t, key)
  {
    if |s| == 0 then []
    else
      assert s == [s[0]] + s[1..];
      Insert(s[0], SortBy(s[1..], key), key)
  }

  /** app.js `pickBestNode`: null for an absent or empty list, otherwise the first
      element after sorting by area. */
  function PickBestNode(hits: Option<seq<Elem>>): (best: Option<Elem>)
    ensures best.Some? <==> hits.Some? && |hits.value| > 0
    ensures best.Some? ==> best.value in hits.value
  {
    if hits.None? || |hits.value| == 0 then None
    else
      var t := SortBy(hits.value, AreaKey);
      assert t[0] in multiset(t);
      Some(t[0])
  }

  /** The elements of `s` with key `k`, in order. */
  function WithKey<T>(s: seq<T>, key: T -> Option<int>, k: Option<int>): seq<T> {
    if |s| == 0 then []
    else (if key(s[0]) == k then [s[0]] else []) + WithKey(s[1..], key, k)
  }

  lemma {:induction false} InsertWithKey<T>(x: T, t: seq<T>, key: T -> Option<int>, k: Option<int>)
    requires SortedBy(t, key)
    ensures WithKey(Insert(x, t, key), key, k) == (if key(x) == k then [x] else []) + WithKey(t, key, k)
  {
    if |t| == 0 || KeyLe(key(x), key(t[0])) {
      assert Insert(x, t, key) == [x] + t;
      WithKeyCons(x, t, key, k);
    } else {
      var rest := Insert(x, t[1..], key);
      assert Insert(x, t, key) == [t[0]] + rest;
      assert SortedBy(t[1..], key);
      InsertWithKey(x, t[1..], key, k);
      WithKeyCons(t[0], rest, key, k);
      WithKeyCons(t[0], t[1..], key, k);
      assert [t[0]] + t[1..] == t;
      // x sorts strictly after t[0], so at most one of them has key k.
      assert key(x) != key(t[0]);
      var head := if key(t[0]) == k then [t[0]] else [];
      var mine := if key(x) == k then [x] else [];
      var tail := WithKey(t[1..], key, k);
      assert head == [] || mine == [];
      assert head + (mine + tail) == mine + (head + tail);
    }
  }

  lemma WithKeyCons<T>(y: T, s: seq<T>, key: T -> Option<int>, k: Option<int>)
    ensures WithKey([y] + s, key, k) == (if key(y) == k then [y] else []) + WithKey(s, key, k)
  {
    assert ([y] + s)[1..] == s;
  }

  /** The sort is stable: the elements sharing a key keep their input order. */
  lemma {:induction false} SortStable<T>(s: seq<T>, key: T -> Option<int>, k: Option<int>)
    ensures WithKey(SortBy(s, key), key, k) == WithKey(s, key, k)
  {
    if |s| > 0 {
      SortStable(s[1..], key, k);
      InsertWithKey(s[0], SortBy(s[1..], key), key, k);
    }
  }

  /** The head of the sort is the first element of the input whose key is
      minimal: every element's key is at least as large, and every earlier
      element's key strictly larger. */
  lemma SortHeadFirstMinimal<T>(s: seq<T>, key: T -> Option<int>)
    requires |s| > 0
    ensures exists i ::
      (0 <= i < |s| && SortBy(s, key)[0] == s[i]
       && (forall j :: 0 <= j < |s| ==> KeyLe(key(s[i]), key(s[j])))
       && (forall j :: 0 <= j < i ==> !KeyLe(key(s[j]), key(s[i]))))
  {
    var i := SortHeadIndex(s, key);
  }

  /** Where the head of the sort comes from in the input. */
  lemma {:induction false} SortHeadIndex<T>(s: seq<T>, key: T -> Option<int>) returns (i: nat)
    requires |s| > 0
    ensures i < |s| && SortBy(s, key)[0] == s[i]
    ensures forall j :: 0 <= j < |s| ==> KeyLe(key(s[i]), key(s[j]))
    ensures forall j :: 0 <= j < i ==> !KeyLe(key(s[j]), key(s[i]))
  {
    if |s| == 1 {
      assert SortBy(s, key)[0] == s[0];
      assert KeyLe(key(s[0]), key(s[0]));
      i := 0;
    } else {
      var i' := SortHeadIndex(s[1..], key);
      assert s[1..][i'] == s[i' + 1];
      forall j | 1 <= j < |s|
        ensures KeyLe(key(s[i' + 1]), key(s[j]))
      {
        assert s[j] == s[1..][j - 1];
      }
      forall j | 1 <= j < i' + 1
        ensures !KeyLe(key(s[j]), key(s[i' + 1]))
      {
        assert s[j] == s[1..][j - 1];
      }
      i := HeadStep(s, key, i');
    }
  }

  /** The inductive step: the head of the sort of `s[1..]` is `s[i' + 1]`. */
  lemma HeadStep<T>(s: seq<T>, key: T -> Option<int>, i': nat) returns (i: nat)
    requires 1 < |s| && i' < |s| - 1 && SortBy(s[1..], key)[0] == s[i' + 1]
    requires forall j :: 1 <= j < |s| ==> KeyLe(key(s[i' + 1]), key(s[j]))
    requires forall j :: 1 <= j < i' + 1 ==> !KeyLe(key(s[j]), key(s[i' + 1]))
    ensures i < |s| && SortBy(s, key)[0] == s[i]
    ensures forall j :: 0 <= j < |s| ==> KeyLe(key(s[i]), key(s[j]))
    ensures forall j :: 0 <= j < i ==> !KeyLe(key(s[j]), key(s[i]))
  {
    var t := SortBy(s[1..], key);
    assert SortBy(s, key) == Insert(s[0], t, key);
    if KeyLe(key(s[0]), key(t[0])) {
      i := 0;
    } else {
      i := i' + 1;
    }
  }

  /** pickBestNode returns the first hit of minimal area: no hit has a smaller
      area, and every earlier hit has a larger area or unparsable bounds. */
  lemma PickBestIsFirstMinimal(s: seq<Elem>)
    requires |s| > 0
    ensures exists i ::
      (0 <= i < |s| && PickBestNode(Some(s)) == Some(s[i])
       && (forall j :: 0 <= j < |s| ==> KeyLe(AreaKey(s[i]), AreaKey(s[j])))
       && (forall j :: 0 <= j < i ==> !KeyLe(AreaKey(s[j]), AreaKey(s[i]))))
  {
    SortHeadFirstMinimal(s, AreaKey);
  }
}

=== FILE: inspector_ui.dfy ===
/**
  The pure helpers around the hit-testing engine in server/static/app.js: the
  breadcrumb path of the selected node (`getNodePath`), the label of a tree row
  (`traverseAndBuildTree`), keyword matching (`textMatches` and the
  first-pattern-wins loop), the keyword list (`addPattern` / `removePattern`), the
  header status line (`renderStatus`), the display selection kept across a
  refresh (`refreshDisplayList`) and the data-source message of `refreshHierarchy`.
*/
module InspectorUi {
  import opened Wrappers
  import opened Text
  import opened HitTest
  import opened Seqs

  // ---------------------------------------------------------------------------
  // getNodePath

  /** Every index of `p` names an existing child (any tag). */
  predicate ValidPath(e: Elem, p: Path)
    decreases |p|
  {
    |p| == 0 || (p[0] < |e.children| && ValidPath(e.children[p[0]], p[1..]))
  }

  function Follow(e: Elem, p: Path): Elem
    requires ValidPath(e, p)
    decreases |p|
  {
    if |p| == 0 then e else Follow(e.children[p[0]], p[1..])
  }

  /** A prefix of a valid path is valid, and is followed by following the longer
      path's first steps. */
  lemma {:induction false} ValidPrefix(e: Elem, p: Path, k: nat)
    requires ValidPath(e, p) && k <= |p|
    ensures ValidPath(e, p[..k])
    decreases |p|
  {
    if k > 0 {
      assert p[..k][1..] == p[1..][..k - 1];
      ValidPrefix(e.children[p[0]], p[1..], k - 1);
    }
  }

  /** The breadcrumb name of a node: the last dotted segment of `class`, or
      `Node` when `class` is absent or empty. */
  function CrumbName(e: Elem): string {
    var cls := Attr(e, "class");
    LastSegment(if cls.Some? && cls.value != "" then cls.value else "Node", '.')
  }

  /** `names` are the crumbs of the consecutive `node` elements at the prefixes
      of `p` of lengths `from`, `from + 1`, ... */
  predicate Crumbs(root: Elem, p: Path, from: nat, names: seq<string>)
    decreases |names|
  {
    |names| == 0
    || (from <= |p| && ValidPath(root, p[..from]) && IsNode(Follow(root, p[..from]))
        && names[0] == CrumbName(Follow(root, p[..from]))
        && Crumbs(root, p, from + 1, names[1..]))
  }

  lemma {:induction false} CrumbsAt(root: Elem, p: Path, from: nat, names: seq<string>, i: nat)
    requires Crumbs(root, p, from, names) && i < |names|
    ensures from + i <= |p| && ValidPath(root, p[..from + i])
    ensures IsNode(Follow(root, p[..from + i])) && names[i] == CrumbName(Follow(root, p[..from + i]))
    decreases i
  {
    if i > 0 {
      CrumbsAt(root, p, from + 1, names[1..], i - 1);
    }
  }

  /** app.js `getNodePath` for the element at `p` below the document element
      `root`: the names of the element and of its consecutive `node` ancestors,
      root-most first. The walk stops at the first ancestor that is not a `node`
      (at the latest at the document element, whose parent is the document). */
  method NodePath(root: Elem, p: Path) returns (names: seq<string>)
    requires ValidPath(root, p)
    ensures |names| <= |p| + 1
    ensures Crumbs(root, p, |p| + 1 - |names|, names)
    ensures |names| <= |p| ==>
      (ValidPath(root, p[..|p| - |names|]) && !IsNode(Follow(root, p[..|p| - |names|])))
  {
    names := [];
    var k := |p|;
    ValidPrefix(root, p, k);
    while k >= 0 && IsNode(Follow(root, p[..k]))
      invariant -1 <= k <= |p|
      invariant |names| == |p| - k
      invariant k >= 0 ==> ValidPath(root, p[..k])
      invariant Crumbs(root, p, k + 1, names)
      decreases k + 1
    {
      names := [CrumbName(Follow(root, p[..k]))] + names;
      k := k - 1;
      if k >= 0 {
        ValidPrefix(root, p, k);
      }
    }
  }

  // ---------------------------------------------------------------------------
  // Tree labels

  /** A truthy attribute: present and not empty. */
  function Truthy(v: Option<string>): Option<string> {
    if v.Some? && v.value != "" then v else None
  }

  /** The quoted text of a label, cut to its first 20 characters plus `...`
      when longer. */
  function Snippet(txt: string): (r: string)
    ensures |txt| <= 20 ==> r == txt
    ensures |txt| > 20 ==> |r| == 23 && IsPrefix(r[..20], txt) && r[20..] == "..."
  {
    if |txt| > 20 then txt[..20] + "..." else txt
  }

  /** The label of a tree row in `traverseAndBuildTree`: the last dotted segment
      of `class` (or of the tag when `class` is empty), then ` #id` with the last
      `/` segment of a non-empty `resource-id`, then ` "text"` for a non-empty
      `text`. */
  function TreeLabel(e: Elem): (r: string)
    ensures var name := LastSegment(if Truthy(Attr(e, "class")).Some? then Attr(e, "class").value else e.tag, '.');
      IsPrefix(name, r) && '.' !in name
    ensures var name := LastSegment(if Truthy(Attr(e, "class")).Some? then Attr(e, "class").value else e.tag, '.');
      var rid := Truthy(Attr(e, "resource-id"));
      rid.Some? ==> OccursAt(r, " #" + LastSegment(rid.value, '/'), |name|)
    ensures var txt := Truthy(Attr(e, "text"));
      txt.Some? ==> IsSuffix(" \"" + Snippet(txt.value) + "\"", r)
    ensures var name := LastSegment(if Truthy(Attr(e, "class")).Some? then Attr(e, "class").value else e.tag, '.');
      var rid := Truthy(Attr(e, "resource-id"));
      var txt := Truthy(Attr(e, "text"));
      |r| == |name| + (if rid.Some? then 2 + |LastSegment(rid.value, '/')| else 0)
        + (if txt.Some? then 3 + |Snippet(txt.value)| else 0)
    ensures Truthy(Attr(e, "resource-id")).None? && Truthy(Attr(e, "text")).None? ==>
      '.' !in r
  {
    var cls := Truthy(Attr(e, "class"));
    var name := LastSegment(if cls.Some? then cls.value else e.tag, '.');
    var rid := Truthy(Attr(e, "resource-id"));
    var txt := Truthy(Attr(e, "text"));
    var withId := name + (if rid.Some? then " #" + LastSegment(rid.value, '/') else "");
    var quoted := if txt.Some? then " \"" + Snippet(txt.value) + "\"" else "";
    var r := withId + quoted;
    assert r[..|name|] == name;
    assert r[|r| - |quoted|..] == quoted;
    assert rid.Some? ==> r[|name|..|withId|] == " #" + LastSegment(rid.value, '/');
    r
  }

  // ---------------------------------------------------------------------------
  // Keyword matching

  /** app.js `textMatches`: false when either string is empty; otherwise a
      substring test, on lower-cased text when `ignoreCase` is set. */
  predicate TextMatches(text: string, pattern: string, ignoreCase: bool) {
    text != "" && pattern != ""
    && (if ignoreCase then Contains(Lower(text), Lower(pattern)) else Contains(text, pattern))
  }

  /** A keyword and its highlight colours. */
  datatype Pattern = Pattern(text: string, foreColor: string, backColor: string)

  /** The keyword applies to `label`: its text is not blank and matches. */
  predicate Applies(pat: Pattern, text: string, ignoreCase: bool) {
    Trim(pat.text) != "" && TextMatches(text, pat.text, ignoreCase)
  }

  /** The loop in `traverseAndBuildTree` that picks the keyword whose colours
      highlight a row: the position of the first keyword that applies, if any. */
  function FirstMatchingPattern(text: string, patterns: seq<Pattern>, ignoreCase: bool): (r: Option<nat>)
    ensures r.Some? ==> r.value < |patterns| && Applies(patterns[r.value], text, ignoreCase)
    ensures r.Some? ==> forall j :: 0 <= j < r.value ==> !Applies(patterns[j], text, ignoreCase)
    ensures r.None? ==> forall j :: 0 <= j < |patterns| ==> !Applies(patterns[j], text, ignoreCase)
  {
    FirstIndex(patterns, pat => Applies(pat, text, ignoreCase))
  }

  // ---------------------------------------------------------------------------
  // The keyword list

  /** The eight colour presets `addPattern` cycles through, as (fore, back). */
  const ColorPresets: seq<(string, string)> := [
    ("#60a5fa", "#1e3a5f"), ("#f59e0b", "#78350f"), ("#10b981", "#064e3b"), ("#ef4444", "#7f1d1d"),
    ("#a78bfa", "#4c1d95"), ("#ec4899", "#831843"), ("#14b8a6", "#134e4a"), ("#f97316", "#7c2d12")
  ]

  /** Why `addPattern` refused its input (it shows an alert and changes nothing). */
  datatype AddError = EmptyKeyword | DuplicateKeyword

  /** No two keywords have the same text. */
  predicate DistinctTexts(patterns: seq<Pattern>) {
    forall i, j :: 0 <= i < j < |patterns| ==> patterns[i].text != patterns[j].text
  }

  /** app.js `addPattern`: the trimmed input is rejected when empty or already a
      keyword; otherwise it is appended with the preset at the old length modulo 8. */
  function AddPattern(patterns: seq<Pattern>, input: string): (r: Result<seq<Pattern>, AddError>)
    ensures r == Err(EmptyKeyword) <==> Trim(input) == ""
    ensures r == Err(DuplicateKeyword) <==>
      Trim(input) != "" && exists i :: 0 <= i < |patterns| && patterns[i].text == Trim(input)
    ensures r.Ok? ==> |r.value| == |patterns| + 1 && r.value[..|patterns|] == patterns
    ensures r.Ok? ==> var c := ColorPresets[|patterns| % 8];
      r.value[|patterns|] == Pattern(Trim(input), c.0, c.1)
    ensures r.Ok? && DistinctTexts(patterns) ==> DistinctTexts(r.value)
  {
    var text := Trim(input);
    if text == "" then Err(EmptyKeyword)
    else if exists i :: 0 <= i < |patterns| && patterns[i].text == text then Err(DuplicateKeyword)
    else
      var c := ColorPresets[|patterns| % |ColorPresets|];
      var r := patterns + [Pattern(text, c.0, c.1)];
      assert r[..|patterns|] == patterns;
      Ok(r)
  }

  /** app.js `removePattern`: an index inside the list removes that keyword and
      the rest keep their order; any other index changes nothing. */
  function RemovePattern(patterns: seq<Pattern>, index: int): (r: seq<Pattern>)
    ensures !(0 <= index < |patterns|) ==> r == patterns
    ensures 0 <= index < |patterns| ==>
      (|r| == |patterns| - 1
       && (forall i :: 0 <= i < index ==> r[i] == patterns[i])
       && (forall i :: index <= i < |r| ==> r[i] == patterns[i + 1]))
    ensures DistinctTexts(patterns) ==> DistinctTexts(r)
  {
    if 0 <= index < |patterns| then patterns[..index] + patterns[index + 1..] else patterns
  }

  /** Adding a keyword and removing it again gives the list back. */
  lemma RemoveAdded(patterns: seq<Pattern>, input: string)
    requires AddPattern(patterns, input).Ok?
    ensures RemovePattern(AddPattern(patterns, input).value, |patterns|) == patterns
  {
    var r := AddPattern(patterns, input).value;
    assert r[..|patterns|] == patterns;
  }

  // ---------------------------------------------------------------------------
  // The header status line

  /** What one tag value shows: the value in brackets, or nothing when empty. */
  function Piece(t: string): seq<string> {
    if t != "" then ["[" + t + "]"] else []
  }

  /** The non-empty tag values, each in brackets, in order. */
  function Bracketed(tags: seq<string>): seq<string> {
    if |tags| == 0 then [] else Piece(tags[0]) + Bracketed(tags[1..])
  }

  /** app.js `renderStatus`: the base text, then the non-empty tag values, each in
      brackets, separated by single spaces. */
  function RenderStatus(base: string, tags: seq<string>): (r: string)
    ensures (forall i :: 0 <= i < |tags| ==> tags[i] == "") <==> r == base
    ensures IsPrefix(base, r)
    ensures (exists i :: 0 <= i < |tags| && tags[i] != "") ==> r == base + " " + Join(Bracketed(tags), " ")
  {
    var shown := Join(Bracketed(tags), " ");
    BracketedEmpty(tags);
    BracketedLong(tags);
    JoinEmpty(Bracketed(tags), " ");
    var r := if shown != "" then base + " " + shown else base;
    assert r[..|base|] == base;
    r
  }

  /** No tag is shown exactly when every tag value is empty. */
  lemma {:induction false} BracketedEmpty(tags: seq<string>)
    ensures |Bracketed(tags)| == 0 <==> forall i :: 0 <= i < |tags| ==> tags[i] == ""
  {
    if |tags| > 0 {
      BracketedEmpty(tags[1..]);
      if tags[0] == "" {
        forall i | 1 <= i < |tags|
          ensures tags[i] == tags[1..][i - 1]
        {
        }
      }
    }
  }

  /** Every shown piece holds its brackets around a non-empty value. */
  lemma {:induction false} BracketedLong(tags: seq<string>)
    ensures forall i :: 0 <= i < |Bracketed(tags)| ==> |Bracketed(tags)[i]| > 2
  {
    if |tags| > 0 {
      BracketedLong(tags[1..]);
      var head := Piece(tags[0]);
      assert forall i :: 0 <= i < |head| ==> |head[i]| > 2;
    }
  }

  /** A join of non-empty parts is empty only when there are no parts. */
  lemma JoinEmpty(parts: seq<string>, sep: string)
    requires forall i :: 0 <= i < |parts| ==> |parts[i]| > 0
    ensures Join(parts, sep) == "" <==> |parts| == 0
  {
    if |parts| > 0 {
      assert |Join(parts, sep)| >= |parts[0]|;
    }
  }

  /** The shown pieces of consecutive runs of tags follow each other: no tag's
      piece is moved, dropped or repeated. */
  lemma {:induction false} BracketedConcat(a: seq<string>, b: seq<string>)
    ensures Bracketed(a + b) == Bracketed(a) + Bracketed(b)
    decreases |a|
  {
    if |a| > 0 {
      BracketedConcat(a[1..], b);
      assert (a + b)[1..] == a[1..] + b;
    } else {
      assert a + b == b;
    }
  }

  /** The pieces of the tags before, at and after position `i`. */
  lemma {:induction false} BracketedAround(tags: seq<string>, i: nat)
    requires i < |tags|
    ensures Bracketed(tags) == Bracketed(tags[..i]) + Piece(tags[i]) + Bracketed(tags[i + 1..])
  {
    if i == 0 {
      assert tags[..0] == [];
    } else {
      var rest := tags[1..];
      BracketedAround(rest, i - 1);
      assert rest[i - 1] == tags[i] && rest[i..] == tags[i + 1..];
      assert tags[..i][1..] == rest[..i - 1];
    }
  }

  /** Every non-empty tag is shown in brackets, after the pieces of the tags
      before it and before those of the tags after it. */
  lemma StatusShowsTags(tags: seq<string>, i: nat)
    requires i < |tags| && tags[i] != ""
    ensures Bracketed(tags) == Bracketed(tags[..i]) + ["[" + tags[i] + "]"] + Bracketed(tags[i + 1..])
    ensures "[" + tags[i] + "]" in Bracketed(tags)
  {
    BracketedAround(tags, i);
    assert Bracketed(tags)[|Bracketed(tags[..i])|] == "[" + tags[i] + "]";
  }

  /** An empty tag shows nothing: the pieces around it meet. */
  lemma EmptyTagHidden(tags: seq<string>, i: nat)
    requires i < |tags| && tags[i] == ""
    ensures Bracketed(tags) == Bracketed(tags[..i]) + Bracketed(tags[i + 1..])
  {
    BracketedAround(tags, i);
    var front := Bracketed(tags[..i]);
    assert Piece(tags[i]) == [];
    assert front + Piece(tags[i]) == front;
  }

  // ---------------------------------------------------------------------------
  // refreshDisplayList

  /** One entry of `/api/displays`. */
  datatype DisplayEntry = DisplayEntry(id: string, description: string)

  /** The client's display state: the selected display id, the selector button
      text and the known list. */
  datatype DisplayState = DisplayState(current: string, button: string, list: seq<DisplayEntry>)

  /** What `fetch('/api/displays')` produced. */
  datatype DisplayFetch = Fetched(entries: seq<DisplayEntry>) | FetchFailed

  const FetchingText := "正在获取屏幕..."
  const DefaultScreen := "默认屏幕 (0)"

  /** app.js `refreshDisplayList(keep)`. Without a device nothing but the button
      text changes. A non-empty list keeps the previous selection when asked to and
      it is still listed (the first entry with that id, as `find` does), and
      otherwise selects the first entry; an empty list
      selects nothing. A failed fetch installs the single default screen but
      leaves the selection alone. */
  function RefreshDisplayList(st: DisplayState, hasDevice: bool, fetch: DisplayFetch, keep: bool): (r: DisplayState)
    ensures !hasDevice ==> r == st.(button := FetchingText)
    ensures hasDevice && fetch.FetchFailed? ==>
      r == DisplayState(st.current, DefaultScreen, [DisplayEntry("0", DefaultScreen)])
    ensures hasDevice && fetch.Fetched? ==> r.list == fetch.entries
    ensures hasDevice && fetch.Fetched? && |fetch.entries| == 0 ==> r.current == st.current && r.button == FetchingText
    ensures hasDevice && fetch.Fetched? && |fetch.entries| > 0 ==>
      exists i :: 0 <= i < |r.list| && r.current == r.list[i].id && r.button == r.list[i].description
    ensures (hasDevice && fetch.Fetched? && |fetch.entries| > 0 && keep && st.current != ""
             && exists i :: 0 <= i < |fetch.entries| && fetch.entries[i].id == st.current) ==>
      r.current == st.current
    ensures hasDevice && fetch.Fetched? && |fetch.entries| > 0 && r.current != fetch.entries[0].id ==>
      keep && r.current == st.current
    ensures (hasDevice && fetch.Fetched? && |fetch.entries| > 0 && keep && st.current != ""
             && exists i :: 0 <= i < |fetch.entries| && fetch.entries[i].id == st.current) ==>
      exists i :: 0 <= i < |fetch.entries| && fetch.entries[i].id == st.current
        && (forall j :: 0 <= j < i ==> fetch.entries[j].id != st.current)
        && r.button == fetch.entries[i].description
    ensures (hasDevice && fetch.Fetched? && |fetch.entries| > 0
             && !(keep && st.current != "" && exists i :: 0 <= i < |fetch.entries| && fetch.entries[i].id == st.current)) ==>
      r.current == fetch.entries[0].id && r.button == fetch.entries[0].description
  {
    if !hasDevice then st.(button := FetchingText)
    else match fetch
      case FetchFailed => DisplayState(st.current, DefaultScreen, [DisplayEntry("0", DefaultScreen)])
      case Fetched(list) =>
        if |list| == 0 then DisplayState(st.current, FetchingText, list)
        else
          var kept := if keep && st.current != "" then FirstIndex(list, (d: DisplayEntry) => d.id == st.current) else None;
          match kept
          case Some(i) => DisplayState(list[i].id, list[i].description, list)
          case None => DisplayState(list[0].id, list[0].description, list)
  }

  // ---------------------------------------------------------------------------
  // The data-source message of refreshHierarchy

  /** The status tag and log line for the `source` and `reason` fields of the
      hierarchy response; nothing when `source` is absent or empty. */
  function SourceMessage(source: Option<string>, reason: Option<string>): (r: Option<(string, string)>)
    ensures r.Some? <==> Truthy(source).Some?
    ensures r.Some? ==> r.value.0 == (if source == Some("accessibility") then "辅助服务" else "UIAutomator")
    ensures r.Some? ==> IsPrefix("📊 数据源: " + r.value.0, r.value.1)
    ensures r.Some? && reason == Some("uiautomator_incomplete") ==>
      r.value.1 == "📊 数据源: " + r.value.0 + " (UIAutomator数据不完整，自动切换)"
    ensures r.Some? && reason == Some("uiautomator_failed") ==>
      r.value.1 == "📊 数据源: " + r.value.0 + " (UIAutomator失败，使用辅助服务)"
    ensures r.Some? && reason != Some("uiautomator_incomplete") && reason != Some("uiautomator_failed") ==>
      r.value.1 == "📊 数据源: " + r.value.0
  {
    if Truthy(source).None? then None
    else
      var tag := if source.value == "accessibility" then "辅助服务" else "UIAutomator";
      var why := reason.GetOr("");
      var suffix :=
        if why == "uiautomator_incomplete" then " (UIAutomator数据不完整，自动切换)"
        else if why == "uiautomator_failed" then " (UIAutomator失败，使用辅助服务)"
        else "";
      var msg := "📊 数据源: " + tag + suffix;
      assert msg[..|"📊 数据源: " + tag|] == "📊 数据源: " + tag;
      Some((tag, msg))
  }
}

=== FILE: seqs.dfy ===
/**
  Generic sequence helpers: the first position satisfying a test, as
  `Array.prototype.find`, Kotlin `firstOrNull` and the early-exit `for` loops of
  the modelled code compute it, and the last such position, which a loop that
  keeps overwriting a variable leaves behind.
*/
module Seqs {
  import opened Wrappers

  /** The first position of `s` whose element passes `p`, if any. */
  function FirstIndex<T>(s: seq<T>, p: T -> bool): (r: Option<nat>)
    ensures r.Some? ==> r.value < |s| && p(s[r.value])
    ensures r.Some? ==> forall j :: 0 <= j < r.value ==> !p(s[j])
    ensures r.None? ==> forall j :: 0 <= j < |s| ==> !p(s[j])
  {
    if |s| == 0 then None
    else if p(s[0]) then Some(0)
    else
      match FirstIndex(s[1..], p)
      case None => None
      case Some(i) => Some(i + 1)
  }

  /** The last position of `s` whose element passes `p`, if any. */
  function LastIndex<T>(s: seq<T>, p: T -> bool): (r: Option<nat>)
    ensures r.Some? ==> r.value < |s| && p(s[r.value])
    ensures r.Some? ==> forall j :: r.value < j < |s| ==> !p(s[j])
    ensures r.None? ==> forall j :: 0 <= j < |s| ==> !p(s[j])
    decreases |s|
  {
    if |s| == 0 then None
    else if p(s[|s| - 1]) then Some(|s| - 1)
    else LastIndex(s[..|s| - 1], p)
  }

  /** Dropping a first element that fails the test shifts the last index by one;
      dropping one that passes it leaves index 0 when nothing later passes. */
  lemma LastIndexTail<T>(s: seq<T>, p: T -> bool)
    requires |s| > 0
    ensures LastIndex(s, p) == match LastIndex(s[1..], p)
      case Some(j) => Some(j + 1)
      case None => if p(s[0]) then Some(0) else None
  {
    var t := s[1..];
    assert forall j :: 1 <= j < |s| ==> s[j] == t[j - 1];
    match LastIndex(t, p)
    case Some(j) =>
      LastIndexUnique(s, p, j + 1);
    case None =>
      if p(s[0]) {
        LastIndexUnique(s, p, 0);
      }
  }

  /** A passing position with no passing position after it is the last index. */
  lemma LastIndexUnique<T>(s: seq<T>, p: T -> bool, i: nat)
    requires i < |s| && p(s[i])
    requires forall j :: i < j < |s| ==> !p(s[j])
    ensures LastIndex(s, p) == Some(i)
  {
  }
}

=== FILE: server_monitor.dfy ===
/**
  The IDE plugin's side of the Python server, src/main/kotlin/com/carui/inspector/
  PythonServerManager.kt: one tick of the monitor loop (failure counting and the
  restart decision), the port and URL the plugin talks to, and the result of the
  dependency check with its install hint.
*/
module ServerMonitor {
  import opened Wrappers
  import opened Text

  // ---------------------------------------------------------------------------
  // The monitor loop

  /** What one tick observes: whether the process is alive, the HTTP status the
      server answered with (`None` when the request failed), and whether the
      restart flag file exists with some content. */
  datatype Probe = Probe(alive: bool, status: Option<int>, flag: bool)

  /** `maxConsecutiveFailures`. */
  const MaxFailures: nat := 3

  /** `isServerRunning`: the server answers 200. */
  predicate Responding(p: Probe) {
    p.status == Some(200)
  }

  /** The tick takes the recovery branch. */
  predicate Unhealthy(p: Probe) {
    !p.alive || !Responding(p) || p.flag
  }

  /** What a tick leaves behind: the failure counter, whether a restart was
      attempted, and whether the flag file is deleted. */
  datatype Step = Step(failures: nat, attempted: bool, clearsFlag: bool)

  /** One iteration of the monitor loop. A flagged tick does not count as a
      failure; any other unhealthy tick does. A restart is attempted on a flag
      or once the counter reaches the threshold, and only when the plugin path
      is known (`pluginPathCache`); a successful restart resets the counter. A
      healthy tick resets the counter. Its deletion of a stale flag can never
      happen: a present flag already makes the tick unhealthy. */
  function Tick(failures: nat, p: Probe, pathKnown: bool, restartOk: bool): (r: Step)
    ensures !Unhealthy(p) ==> r == Step(0, false, p.flag)
    ensures !Unhealthy(p) ==> !r.clearsFlag
    ensures Unhealthy(p) ==>
      var counted := if p.flag then failures else failures + 1;
      (r.attempted <==> pathKnown && (p.flag || counted >= MaxFailures))
      && r.failures == (if r.attempted && restartOk then 0 else counted)
      && (r.clearsFlag <==> r.attempted && p.flag)
  {
    if Unhealthy(p) then
      var counted := if p.flag then failures else failures + 1;
      if (p.flag || counted >= MaxFailures) && pathKnown then
        Step(if restartOk then 0 else counted, true, p.flag)
      else Step(counted, false, false)
    else Step(0, false, p.flag)
  }

  /** Runs the loop over a sequence of ticks with a fixed plugin path and
      restart outcome, recording for each tick whether it attempted a restart. */
  function Run(failures: nat, ps: seq<Probe>, pathKnown: bool, restartOk: bool): (attempts: seq<bool>)
    ensures |attempts| == |ps|
    decreases |ps|
  {
    if |ps| == 0 then []
    else
      var s := Tick(failures, ps[0], pathKnown, restartOk);
      [s.attempted] + Run(s.failures, ps[1..], pathKnown, restartOk)
  }

  /** A crash without a flag is restarted on the third consecutive failing
      tick, not before, starting from a clean counter. */
  lemma ThirdFailureRestarts(a: Probe, b: Probe, c: Probe, restartOk: bool)
    requires Unhealthy(a) && Unhealthy(b) && Unhealthy(c)
    requires !a.flag && !b.flag && !c.flag
    ensures Run(0, [a, b, c], true, restartOk) == [false, false, true]
  {
    assert Tick(0, a, true, restartOk) == Step(1, false, false);
    assert Tick(1, b, true, restartOk) == Step(2, false, false);
    assert Tick(2, c, true, restartOk).attempted;
    assert [a, b, c][1..] == [b, c];
    assert [b, c][1..] == [c];
    assert Run(2, [c], true, restartOk) == [true];
    assert Run(1, [b, c], true, restartOk) == [false, true];
  }

  /** A flag restarts at once, whatever the counter. */
  lemma FlagRestartsAtOnce(failures: nat, p: Probe, restartOk: bool)
    requires p.flag
    ensures Tick(failures, p, true, restartOk).attempted
    ensures Tick(failures, p, true, restartOk).failures == (if restartOk then 0 else failures)
  {
  }

  /** Once a restart has failed at the threshold, every further failing tick
      retries, and the counter never drops below the threshold until a restart
      succeeds or the server comes back. */
  lemma {:induction false} FailedRestartsKeepRetrying(failures: nat, ps: seq<Probe>)
    requires failures >= MaxFailures
    requires forall i :: 0 <= i < |ps| ==> Unhealthy(ps[i])
    ensures Run(failures, ps, true, false) == seq(|ps|, i => true)
    decreases |ps|
  {
    if |ps| > 0 {
      var s := Tick(failures, ps[0], true, false);
      assert s.attempted && s.failures >= MaxFailures;
      FailedRestartsKeepRetrying(s.failures, ps[1..]);
    }
  }

  /** A healthy tick clears any earlier failures: the next crash starts counting
      from one again. */
  lemma HealthyResets(failures: nat, ok: Probe, bad: Probe, pathKnown: bool, restartOk: bool)
    requires !Unhealthy(ok) && Unhealthy(bad) && !bad.flag
    ensures var s := Tick(failures, ok, pathKnown, restartOk);
      s.failures == 0 && Tick(s.failures, bad, pathKnown, restartOk) == Step(1, false, false)
  {
  }

  // ---------------------------------------------------------------------------
  // Port and URL

  /** `DEFAULT_PORT`. */
  const DefaultPort: int := 18888

  /** `getServerPort`: the trimmed contents of `server_port.txt` read as an
      `Int` when the file exists (`portFile`) and parses, otherwise the default
      port. */
  function ServerPort(portFile: Option<string>): (port: int)
    ensures InInt32(port)
    ensures portFile.None? ==> port == DefaultPort
    ensures portFile.Some? && ParseInt(Trim(portFile.value)).Some? ==>
      port == ParseInt(Trim(portFile.value)).value
    ensures portFile.Some? && ParseInt(Trim(portFile.value)).None? ==> port == DefaultPort
  {
    if portFile.Some? && ParseInt(Trim(portFile.value)).Some? then
      ParseInt(Trim(portFile.value)).value
    else DefaultPort
  }

  /** A port file written as a plain decimal number is read back as that
      number. */
  lemma PortFileRoundTrip(port: int)
    requires InInt32(port)
    ensures ServerPort(Some(IntToString(port))) == port
  {
    var s := IntToString(port);
    assert !IsSpace(s[0]) && !IsSpace(s[|s| - 1]) by {
      if port >= 0 {
        assert IsDigit(s[0]);
      }
    }
    ParseIntOfIntToString(port);
  }

  /** A port file whose trimmed text starts with neither a digit nor a sign
      falls back to the default. */
  lemma PortFileNotANumber(text: string)
    requires |Trim(text)| > 0
    requires var c := Trim(text)[0]; !IsDigit(c) && c != '-' && c != '+'
    ensures ServerPort(Some(text)) == DefaultPort
  {
  }

  /** `getServerURL`. */
  function ServerUrl(portFile: Option<string>): (url: string)
    ensures IsPrefix("http://127.0.0.1:", url)
    ensures url[|"http://127.0.0.1:"|..] == IntToString(ServerPort(portFile))
  {
    var url := "http://127.0.0.1:" + IntToString(ServerPort(portFile));
    assert url[..|"http://127.0.0.1:"|] == "http://127.0.0.1:";
    url
  }

  /** The port can be read back from the URL. */
  lemma UrlNamesPort(portFile: Option<string>)
    ensures ParseInt(ServerUrl(portFile)[|"http://127.0.0.1:"|..]) == Some(ServerPort(portFile))
  {
    ParseIntOfIntToString(ServerPort(portFile));
  }

  // ---------------------------------------------------------------------------
  // checkDependencies

  /** The report of check_dependencies.py after decoding: only the fields the
      plugin reads. */
  datatype Report = Report(
    allOk: bool,
    pythonOk: bool,
    pythonVersion: Option<string>,
    osType: Option<string>,
    osName: Option<string>,
    pipCmd: Option<string>,
    missing: seq<string>)

  /** How running the script went: no script in the plugin, no Python
      interpreter, the output could not be read or decoded (with the
      exception's message as Kotlin renders it), or a report. */
  datatype Launch =
    | NoScript
    | NoPython
    | ReadFailed(detail: string)
    | DecodeFailed(detail: string)
    | Reported(report: Report)

  /** The plugin's summary of a dependency check. */
  datatype CheckResult = CheckResult(
    success: bool,
    pythonOk: bool,
    missing: seq<string>,
    errorMessage: Option<string>,
    pipCmd: Option<string>)

  /** `pipCommand`: the pip the script found, otherwise `pip` on Windows and
      `pip3` elsewhere. */
  function PipCommand(pipCmd: Option<string>, osType: Option<string>): (c: string)
    ensures pipCmd.Some? ==> c == pipCmd.value
    ensures pipCmd.None? ==> (c == "pip" <==> osType == Some("Windows"))
    ensures pipCmd.None? && osType != Some("Windows") ==> c == "pip3"
  {
    if pipCmd.Some? then pipCmd.value
    else if osType == Some("Windows") then "pip"
    else "pip3"
  }

  /** The line reporting an old Python; an unparsed version reads `unknown`. */
  function VersionLine(version: Option<string>): string {
    "Python版本过低（需要3.7+，当前：" + version.GetOr("unknown") + "）\n"
  }

  /** The command line installing every missing package in one go. */
  function InstallLine(pip: string, missing: seq<string>): string {
    pip + " install " + Join(missing, " ")
  }

  /** The Linux distribution is Ubuntu or Debian, judged from the lower-cased
      platform name. */
  predicate DebianLike(osName: Option<string>) {
    var distro := Lower(osName.GetOr(""));
    Contains(distro, "ubuntu") || Contains(distro, "debian")
  }

  // The headings printed before the install line and the advice after it.
  const WindowsHeading := "Windows安装命令：\n"
  const WindowsAdvice := "\n\n如果pip不可用，请先安装Python 3.7+：\nhttps://www.python.org/downloads/"
  const MacHeading := "macOS安装命令：\n"
  const MacAdvice := "\n\n如果未安装Python，推荐使用Homebrew安装：\nbrew install python3"
  const DebianHeading := "Ubuntu/Debian安装命令：\nsudo apt update && sudo apt install python3 python3-pip\n"
  const LinuxHeading := "Linux安装命令：\n"
  const LinuxAdvice := "\n\n如果pip3不可用，请使用包管理器安装：\nsudo yum install python3-pip  # CentOS/RHEL\nsudo apt install python3-pip   # Ubuntu/Debian"
  const OtherHeading := "安装命令：\n"

  /** The operating-system specific text placed before and after the install
      line. */
  function Guidance(osType: Option<string>, osName: Option<string>): (string, string) {
    if osType == Some("Windows") then (WindowsHeading, WindowsAdvice)
    else if osType == Some("Darwin") then (MacHeading, MacAdvice)
    else if osType == Some("Linux") && DebianLike(osName) then (DebianHeading, "")
    else if osType == Some("Linux") then (LinuxHeading, LinuxAdvice)
    else (OtherHeading, "")
  }

  /** `before + middle + after`, which contains `middle`. */
  function Embed(before: string, middle: string, after: string): (s: string)
    ensures |s| == |before| + |middle| + |after|
    ensures OccursAt(s, middle, |before|) && Contains(s, middle)
    ensures IsPrefix(before + middle, s) && IsSuffix(after, s)
  {
    var s := before + middle + after;
    assert s[|before|..|before| + |middle|] == middle;
    assert s[..|before + middle|] == before + middle;
    assert s[|s| - |after|..] == after;
    OccursAtContains(s, middle, |before|);
    s
  }

  /** The install guidance for the operating system: its heading, then the
      install line, then the system's advice; Ubuntu/Debian and unknown systems
      give no advice after the line. */
  function InstallHint(pip: string, missing: seq<string>, osType: Option<string>, osName: Option<string>): (h: string)
    ensures Contains(h, InstallLine(pip, missing))
    ensures osType == Some("Windows") ==>
      IsPrefix(WindowsHeading + InstallLine(pip, missing), h) && IsSuffix(WindowsAdvice, h)
    ensures osType == Some("Darwin") ==>
      IsPrefix(MacHeading + InstallLine(pip, missing), h) && IsSuffix(MacAdvice, h)
    ensures osType == Some("Linux") && DebianLike(osName) ==> h == DebianHeading + InstallLine(pip, missing)
    ensures osType == Some("Linux") && !DebianLike(osName) ==>
      IsPrefix(LinuxHeading + InstallLine(pip, missing), h) && IsSuffix(LinuxAdvice, h)
    ensures osType != Some("Windows") && osType != Some("Darwin") && osType != Some("Linux") ==>
      h == OtherHeading + InstallLine(pip, missing)
  {
    var g := Guidance(osType, osName);
    Embed(g.0, InstallLine(pip, missing), g.1)
  }

  /** Text contained in the tail of a string is contained in the string. */
  lemma ContainsInTail(head: string, tail: string, x: string)
    requires Contains(tail, x)
    ensures Contains(head + tail, x)
  {
    var i :| 0 <= i <= |tail| && OccursAt(tail, x, i);
    assert (head + tail)[|head| + i..|head| + i + |x|] == tail[i..i + |x|];
    OccursAtContains(head + tail, x, |head| + i);
  }

  /** The line listing the missing packages. */
  function MissingLine(missing: seq<string>): string {
    "缺少依赖包：" + Join(missing, ", ")
  }

  /** `errorMsg`: nothing when all is well; otherwise the version line when
      Python is too old, followed by the list of missing packages and the
      install guidance when some are missing. */
  function ErrorMessage(r: Report): (m: Option<string>)
    ensures m.None? <==> r.allOk
    ensures m.Some? ==> (IsPrefix(VersionLine(r.pythonVersion), m.value) <==> !r.pythonOk)
    ensures m.Some? && r.pythonOk && |r.missing| > 0 ==> IsPrefix(MissingLine(r.missing), m.value)
    ensures m.Some? && |r.missing| == 0 ==> m.value == (if r.pythonOk then "" else VersionLine(r.pythonVersion))
    ensures m.Some? && |r.missing| > 0 ==>
      Contains(m.value, MissingLine(r.missing))
      && Contains(m.value, InstallLine(PipCommand(r.pipCmd, r.osType), r.missing))
  {
    if r.allOk then None
    else
      var version := if r.pythonOk then "" else VersionLine(r.pythonVersion);
      if |r.missing| == 0 then
        assert version[..|version|] == version;
        Some(version)
      else
        var hint := InstallHint(PipCommand(r.pipCmd, r.osType), r.missing, r.osType, r.osName);
        var rest := Embed("", MissingLine(r.missing), "\n\n" + hint);
        ContainsInTail("\n\n", hint, InstallLine(PipCommand(r.pipCmd, r.osType), r.missing));
        ContainsInTail(MissingLine(r.missing), "\n\n" + hint, InstallLine(PipCommand(r.pipCmd, r.osType), r.missing));
        assert rest == MissingLine(r.missing) + ("\n\n" + hint);
        ContainsInTail(version, rest, MissingLine(r.missing));
        ContainsInTail(version, rest, InstallLine(PipCommand(r.pipCmd, r.osType), r.missing));
        var m := version + rest;
        assert m[..|version|] == version;
        assert r.pythonOk ==> m[..|MissingLine(r.missing)|] == MissingLine(r.missing);
        assert r.pythonOk ==> m[0] == MissingLine(r.missing)[0] != VersionLine(r.pythonVersion)[0];
        Some(m)
  }

  /** `checkDependencies`: a plugin without the script passes, a machine without
      Python fails with a fixed message, and a report is passed on with its
      error message. */
  function CheckDependencies(launch: Launch): (c: CheckResult)
    ensures launch.NoScript? ==> c.success && c.pythonOk && c.errorMessage.None? && c.missing == []
    ensures launch.NoPython? ==> (!c.success && !c.pythonOk
      && c.errorMessage == Some("未找到Python命令。请确保已安装Python 3.7+并添加到系统PATH。"))
    ensures launch.ReadFailed? ==> (!c.success && !c.pythonOk && c.missing == []
      && c.errorMessage == Some("依赖检查异常：" + launch.detail))
    ensures launch.DecodeFailed? ==> (!c.success && !c.pythonOk && c.missing == []
      && c.errorMessage == Some("依赖检查失败：" + launch.detail))
    ensures launch.Reported? ==> (c.success == launch.report.allOk
      && c.pythonOk == launch.report.pythonOk && c.missing == launch.report.missing
      && c.pipCmd == launch.report.pipCmd && c.errorMessage == ErrorMessage(launch.report))
    ensures c.success <==> c.errorMessage.None?
  {
    match launch
    case NoScript => CheckResult(true, true, [], None, None)
    case NoPython =>
      CheckResult(false, false, [], Some("未找到Python命令。请确保已安装Python 3.7+并添加到系统PATH。"), None)
    case ReadFailed(detail) => CheckResult(false, false, [], Some("依赖检查异常：" + detail), None)
    case DecodeFailed(detail) => CheckResult(false, false, [], Some("依赖检查失败：" + detail), None)
    case Reported(r) =>
      CheckResult(r.allOk, r.pythonOk, r.missing, ErrorMessage(r), r.pipCmd)
  }
}

=== FILE: text.dfy ===
/**
  String helpers shared by the model: decimal digits and their values, the
  decimal rendering of integers and its inverse (Kotlin `String.toIntOrNull`),
  splitting on a separator and joining back, whitespace trimming, ASCII case
  folding and substring search. Strings are `seq<char>`; only ASCII digits,
  ASCII letters and ASCII whitespace are treated specially.
*/
module Text {
  import opened Wrappers

  // ---------------------------------------------------------------------------
  // Decimal digits

  predicate IsDigit(c: char) {
    '0' <= c <= '9'
  }

  predicate AllDigits(s: string) {
    forall i :: 0 <= i < |s| ==> IsDigit(s[i])
  }

  function DigitValue(c: char): nat
    requires IsDigit(c)
  {
    c as int - '0' as int
  }

  function DigitChar(d: nat): (c: char)
    requires d < 10
    ensures IsDigit(c) && DigitValue(c) == d
  {
    ('0' as int + d) as char
  }

  /** The value of a digit string read most-significant digit first. */
  function DecimalValue(s: string): nat
    requires AllDigits(s)
    decreases |s|
  {
    if |s| == 0 then 0 else 10 * DecimalValue(s[..|s| - 1]) + DigitValue(s[|s| - 1])
  }

  /** The shortest decimal rendering of `n`; reading it back gives `n`. */
  function NatToString(n: nat): (s: string)
    ensures |s| > 0 && AllDigits(s)
    ensures DecimalValue(s) == n
    ensures |s| > 1 ==> s[0] != '0'
  {
    if n < 10 then [DigitChar(n)]
    else
      var front := NatToString(n / 10);
      var s := front + [DigitChar(n % 10)];
      assert s[..|s| - 1] == front;
      s
  }

  /** Decimal rendering with a leading minus sign for negative values
      (Python `str(int)`, Kotlin string templates, JavaScript `String(n)` on integers). */
  function IntToString(i: int): (s: string)
    ensures |s| > 0
    ensures i >= 0 ==> s == NatToString(i)
    ensures i < 0 ==> s == "-" + NatToString(-i)
  {
    if i < 0 then "-" + NatToString(-i) else NatToString(i)
  }

  // ---------------------------------------------------------------------------
  // 32-bit integers

  const IntMin: int := -0x8000_0000
  const IntMax: int := 0x7FFF_FFFF

  predicate InInt32(v: int) {
    IntMin <= v <= IntMax
  }

  /** Kotlin `String.toIntOrNull()` in radix 10: an optional `+` or `-` followed
      by at least one digit, whose value fits a 32-bit `Int`. */
  function ParseInt(s: string): (r: Option<int>)
    ensures r.Some? ==> InInt32(r.value)
    ensures r.Some? ==> |s| > 0
    ensures r.Some? && (s[0] == '-' || s[0] == '+') ==> |s| > 1 && AllDigits(s[1..])
    ensures r.Some? && s[0] != '-' && s[0] != '+' ==> AllDigits(s) && r.value == DecimalValue(s)
    ensures r.Some? && s[0] == '-' ==> r.value == -(DecimalValue(s[1..]) as int)
    ensures r.Some? && s[0] == '+' ==> r.value == DecimalValue(s[1..])
    ensures |s| > 0 && AllDigits(s) && InInt32(DecimalValue(s)) ==> r.Some?
    ensures (|s| > 1 && (s[0] == '-' || s[0] == '+') && AllDigits(s[1..])
             && InInt32(if s[0] == '-' then -(DecimalValue(s[1..]) as int) else DecimalValue(s[1..]))) ==> r.Some?
  {
    if |s| == 0 then None
    else if s[0] == '-' || s[0] == '+' then
      if |s| == 1 || !AllDigits(s[1..]) then None
      else
        var mag: int := DecimalValue(s[1..]);
        var v := if s[0] == '-' then -mag else mag;
        if InInt32(v) then Some(v) else None
    else if AllDigits(s) && InInt32(DecimalValue(s)) then Some(DecimalValue(s))
    else None
  }

  /** Rendering a 32-bit integer and parsing it back recovers it. */
  lemma ParseIntOfIntToString(i: int)
    requires InInt32(i)
    ensures ParseInt(IntToString(i)) == Some(i)
  {
    var s := IntToString(i);
    if i < 0 {
      assert s[1..] == NatToString(-i);
    } else {
      assert IsDigit(s[0]);
    }
  }

  // ---------------------------------------------------------------------------
  // Splitting and joining

  /** `s.split(sep)` as in Python, Kotlin and JavaScript for a one-character
      separator: every part, empty ones included, in order. */
  function Split(s: string, sep: char): (parts: seq<string>)
    ensures |parts| >= 1
    ensures forall k :: 0 <= k < |parts| ==> sep !in parts[k]
    decreases |s|
  {
    if |s| == 0 then [""]
    else
      var rest := Split(s[1..], sep);
      if s[0] == sep then [""] + rest
      else [[s[0]] + rest[0]] + rest[1..]
  }

  /** `sep.join(parts)`. */
  function Join(parts: seq<string>, sep: string): string
    decreases |parts|
  {
    if |parts| == 0 then ""
    else if |parts| == 1 then parts[0]
    else parts[0] + sep + Join(parts[1..], sep)
  }

  /** Joining the parts of a split gives back the original string. */
  lemma {:induction false} JoinSplit(s: string, sep: char)
    ensures Join(Split(s, sep), [sep]) == s
    decreases |s|
  {
    if |s| > 0 {
      JoinSplit(s[1..], sep);
      var rest := Split(s[1..], sep);
      if s[0] == sep {
        assert s == [sep] + s[1..];
      } else if |rest| == 1 {
        assert s == [s[0]] + s[1..];
      } else {
        assert Join(rest, [sep]) == rest[0] + [sep] + Join(rest[1..], [sep]);
        assert [[s[0]] + rest[0]] + rest[1..] == [[s[0]] + rest[0]] + rest[1..];
        assert s == [s[0]] + s[1..];
      }
    }
  }

  /** A string without the separator splits into itself alone. */
  lemma {:induction false} SplitNoSep(s: string, sep: char)
    requires sep !in s
    ensures Split(s, sep) == [s]
    decreases |s|
  {
    if |s| > 0 {
      assert sep !in s[1..];
      SplitNoSep(s[1..], sep);
      assert s == [s[0]] + s[1..];
    }
  }

  /** Splitting `a + sep + rest` with `sep` not in `a` yields `a` then the parts of `rest`. */
  lemma {:induction false} SplitCons(a: string, sep: char, rest: string)
    requires sep !in a
    ensures Split(a + [sep] + rest, sep) == [a] + Split(rest, sep)
    decreases |a|
  {
    var s := a + [sep] + rest;
    if |a| == 0 {
      assert s[1..] == rest;
    } else {
      assert s[1..] == a[1..] + [sep] + rest;
      assert sep !in a[1..];
      SplitCons(a[1..], sep, rest);
      assert [a[0]] + a[1..] == a;
    }
  }

  /** Splitting a join of separator-free parts gives the parts back. */
  lemma {:induction false} SplitJoin(parts: seq<string>, sep: char)
    requires |parts| >= 1
    requires forall k :: 0 <= k < |parts| ==> sep !in parts[k]
    ensures Split(Join(parts, [sep]), sep) == parts
    decreases |parts|
  {
    if |parts| == 1 {
      SplitNoSep(parts[0], sep);
    } else {
      SplitJoin(parts[1..], sep);
      SplitCons(parts[0], sep, Join(parts[1..], [sep]));
      assert [parts[0]] + parts[1..] == parts;
    }
  }

  /** The part after the last occurrence of `sep` (`s.split(sep).pop()`). */
  function LastSegment(s: string, sep: char): (r: string)
    ensures sep !in r
    ensures sep !in s ==> r == s
  {
    var parts := Split(s, sep);
    if sep !in s then SplitNoSep(s, sep); parts[|parts| - 1]
    else parts[|parts| - 1]
  }

  // ---------------------------------------------------------------------------
  // Whitespace

  predicate IsSpace(c: char) {
    c == ' ' || c == '\t' || c == '\n' || c == '\r' || c == '\U{000B}' || c == '\U{000C}'
  }

  function TrimStart(s: string): (r: string)
    ensures |r| <= |s| && r == s[|s| - |r|..]
    ensures |r| > 0 ==> !IsSpace(r[0])
    ensures forall i :: 0 <= i < |s| - |r| ==> IsSpace(s[i])
    decreases |s|
  {
    if |s| > 0 && IsSpace(s[0]) then
      var t := TrimStart(s[1..]);
      assert s[1..][|s| - 1 - |t|..] == s[|s| - |t|..];
      assert forall i :: 1 <= i < |s| - |t| ==> s[i] == s[1..][i - 1];
      t
    else s
  }

  function TrimEnd(s: string): (r: string)
    ensures |r| <= |s| && r == s[..|r|]
    ensures |r| > 0 ==> !IsSpace(r[|r| - 1])
    ensures forall i :: |r| <= i < |s| ==> IsSpace(s[i])
    decreases |s|
  {
    if |s| > 0 && IsSpace(s[|s| - 1]) then TrimEnd(s[..|s| - 1]) else s
  }

  /** `s.trim()` / `s.strip()` for ASCII whitespace: the slice of `s` left after
      removing leading and trailing whitespace. */
  function Trim(s: string): (r: string)
    ensures |r| > 0 ==> !IsSpace(r[0]) && !IsSpace(r[|r| - 1])
    ensures |r| <= |s|
    ensures (|s| == 0 || (!IsSpace(s[0]) && !IsSpace(s[|s| - 1]))) ==> r == s
  {
    var t := TrimStart(s);
    var r := TrimEnd(t);
    if |r| > 0 then
      assert r[0] == t[0];
      r
    else r
  }

  /** Trimming removes whitespace only: the result is the slice of `s` that
      starts after its leading whitespace (at the index returned), and
      everything after the slice is whitespace too. */
  lemma TrimSlice(s: string) returns (i: nat)
    ensures i + |Trim(s)| <= |s| && Trim(s) == s[i..i + |Trim(s)|]
    ensures forall j :: 0 <= j < i ==> IsSpace(s[j])
    ensures forall j :: i + |Trim(s)| <= j < |s| ==> IsSpace(s[j])
  {
    TrimIsBothEnds(s);
    i := SliceOfBothEnds(s, TrimStart(s), Trim(s));
  }

  /** The general shape: `r` is a prefix of the suffix `t` of `s`, with
      whitespace before `t` and after `r`. */
  lemma SliceOfBothEnds(s: string, t: string, r: string) returns (i: nat)
    requires |t| <= |s| && t == s[|s| - |t|..]
    requires forall j :: 0 <= j < |s| - |t| ==> IsSpace(s[j])
    requires |r| <= |t| && r == t[..|r|]
    requires forall j :: |r| <= j < |t| ==> IsSpace(t[j])
    ensures i + |r| <= |s| && r == s[i..i + |r|]
    ensures forall j :: 0 <= j < i ==> IsSpace(s[j])
    ensures forall j :: i + |r| <= j < |s| ==> IsSpace(s[j])
  {
    i := |s| - |t|;
    EndSlice(s, t, r);
  }

  /** `Trim` trims the start, then the end. */
  lemma TrimIsBothEnds(s: string)
    ensures Trim(s) == TrimEnd(TrimStart(s))
  {
  }

  /** A prefix of a suffix of `s` is a slice of `s`, and what follows the
      prefix in the suffix follows the slice in `s`. */
  lemma EndSlice(s: string, t: string, r: string)
    requires |t| <= |s| && t == s[|s| - |t|..]
    requires |r| <= |t| && r == t[..|r|]
    requires forall j :: |r| <= j < |t| ==> IsSpace(t[j])
    ensures var i := |s| - |t|;
      r == s[i..i + |r|] && forall j :: i + |r| <= j < |s| ==> IsSpace(s[j])
  {
    var i := |s| - |t|;
    forall j | i + |r| <= j < |s|
      ensures IsSpace(s[j])
    {
      assert s[j] == t[j - i];
    }
  }

  // ---------------------------------------------------------------------------
  // ASCII case folding

  function LowerChar(c: char): char {
    if 'A' <= c <= 'Z' then (c as int + 32) as char else c
  }

  function UpperChar(c: char): char {
    if 'a' <= c <= 'z' then (c as int - 32) as char else c
  }

  function Lower(s: string): (r: string)
    ensures |r| == |s| && forall i :: 0 <= i < |s| ==> r[i] == LowerChar(s[i])
  {
    seq(|s|, i requires 0 <= i < |s| => LowerChar(s[i]))
  }

  function Upper(s: string): (r: string)
    ensures |r| == |s| && forall i :: 0 <= i < |s| ==> r[i] == UpperChar(s[i])
  {
    seq(|s|, i requires 0 <= i < |s| => UpperChar(s[i]))
  }

  /** Kotlin `String.equals(other, ignoreCase = true)` on ASCII text. */
  predicate EqualsIgnoreCase(a: string, b: string) {
    Lower(a) == Lower(b)
  }

  // ---------------------------------------------------------------------------
  // Substrings

  predicate IsPrefix(p: string, s: string) {
    |p| <= |s| && s[..|p|] == p
  }

  predicate IsSuffix(p: string, s: string) {
    |p| <= |s| && s[|s| - |p|..] == p
  }

  predicate OccursAt<T(==)>(s: seq<T>, p: seq<T>, i: int) {
    0 <= i && i + |p| <= |s| && s[i..i + |p|] == p
  }

  /** An occurrence of `x + y` is an occurrence of `x` followed by one of `y`. */
  lemma OccursAtConcat<T>(s: seq<T>, x: seq<T>, y: seq<T>, i: int)
    ensures OccursAt(s, x + y, i) <==> OccursAt(s, x, i) && OccursAt(s, y, i + |x|)
  {
    if OccursAt(s, x, i) && OccursAt(s, y, i + |x|) {
      assert s[i..i + |x + y|] == s[i..i + |x|] + s[i + |x|..i + |x| + |y|];
    }
    if OccursAt(s, x + y, i) {
      assert s[i..i + |x|] == (x + y)[..|x|];
      assert s[i + |x|..i + |x| + |y|] == (x + y)[|x|..];
    }
  }

  /** A one-character occurrence is that character at that index. */
  lemma OccursAtChar<T>(s: seq<T>, c: T, i: int)
    ensures OccursAt(s, [c], i) <==> 0 <= i < |s| && s[i] == c
  {
    if 0 <= i < |s| && s[i] == c {
      assert s[i..i + 1] == [c];
    }
  }

  /** `p in s` (Python), `s.includes(p)` (JavaScript), `s.contains(p)` (Kotlin). */
  predicate Contains(s: string, p: string) {
    exists i | 0 <= i <= |s| :: OccursAt(s, p, i)
  }

  /** Kotlin `s.contains(p, ignoreCase = true)` on ASCII text. */
  predicate ContainsIgnoreCase(s: string, p: string) {
    Contains(Lower(s), Lower(p))
  }

  lemma OccursAtContains(s: string, p: string, i: int)
    requires OccursAt(s, p, i)
    ensures Contains(s, p)
  {
  }

  /** Index of the first occurrence of `p` in `s` at or after `from`
      (Python `str.find` / `bytes.find`, JavaScript `indexOf`). */
  function FindFrom<T(==)>(s: seq<T>, p: seq<T>, from: nat): (r: Option<nat>)
    ensures r.Some? ==> from <= r.value && OccursAt(s, p, r.value)
    ensures r.Some? ==> forall j :: from <= j < r.value ==> !OccursAt(s, p, j)
    ensures r.None? ==> forall j :: from <= j ==> !OccursAt(s, p, j)
    decreases |s| - from
  {
    if from + |p| > |s| then None
    else if s[from..from + |p|] == p then Some(from)
    else FindFrom(s, p, from + 1)
  }

  function Find<T(==)>(s: seq<T>, p: seq<T>): (r: Option<nat>)
    ensures r.Some? ==> OccursAt(s, p, r.value)
    ensures r.Some? ==> forall j :: 0 <= j < r.value ==> !OccursAt(s, p, j)
    ensures r.None? ==> forall j :: !OccursAt(s, p, j)
  {
    FindFrom(s, p, 0)
  }

  /** Index of the last occurrence of character `c` (Python `str.rfind` of one character). */
  function RFindChar(s: string, c: char): (r: Option<nat>)
    ensures r.Some? ==> r.value < |s| && s[r.value] == c
    ensures r.Some? ==> forall j :: r.value < j < |s| ==> s[j] != c
    ensures r.None? ==> c !in s
    decreases |s|
  {
    if |s| == 0 then None
    else if s[|s| - 1] == c then Some(|s| - 1)
    else RFindChar(s[..|s| - 1], c)
  }
}

=== FILE: version.dfy ===
/**
  The plugin's build number, build.gradle.kts: `incrementVersion` bumps a
  `major.minor.patch` version with a decimal carry from patch into minor and
  from minor into major, and the build starts from `version.txt` or `1.0.0`.
*/
module Version {
  import opened Wrappers
  import opened Text

  /** A parsed version; each part is a Kotlin `Int`. */
  datatype Triple = Triple(major: int, minor: int, patch: int)

  predicate InRange(t: Triple) {
    InInt32(t.major) && InInt32(t.minor) && InInt32(t.patch)
  }

  /** `v++` on a Kotlin `Int`: the largest value wraps to the smallest. */
  function Inc32(v: int): (r: int)
    requires InInt32(v)
    ensures InInt32(r)
    ensures v < IntMax ==> r == v + 1
    ensures v == IntMax ==> r == IntMin
  {
    if v == IntMax then IntMin else v + 1
  }

  /** The increment with carry: patch goes up; reaching 10 it becomes 0 and
      minor goes up; minor reaching 10 becomes 0 and major goes up. */
  function Bump(t: Triple): (r: Triple)
    requires InRange(t)
    ensures InRange(r)
    ensures Inc32(t.patch) < 10 ==> r == Triple(t.major, t.minor, Inc32(t.patch))
    ensures Inc32(t.patch) >= 10 && Inc32(t.minor) < 10 ==> r == Triple(t.major, Inc32(t.minor), 0)
    ensures Inc32(t.patch) >= 10 && Inc32(t.minor) >= 10 ==> r == Triple(Inc32(t.major), 0, 0)
  {
    var patch := Inc32(t.patch);
    if patch >= 10 then
      var minor := Inc32(t.minor);
      if minor >= 10 then Triple(Inc32(t.major), 0, 0) else Triple(t.major, minor, 0)
    else Triple(t.major, t.minor, patch)
  }

  /** The version read as one decimal number. */
  function Value(t: Triple): int {
    100 * t.major + 10 * t.minor + t.patch
  }

  /** For a minor and patch that are single digits (and a major below the
      largest `Int`), both stay single digits and the version grows by exactly
      one: the carry is a decimal increment. */
  lemma BumpIsDecimalIncrement(t: Triple)
    requires InRange(t) && t.major < IntMax
    requires 0 <= t.minor <= 9 && 0 <= t.patch <= 9
    ensures 0 <= Bump(t).minor <= 9 && 0 <= Bump(t).patch <= 9
    ensures Value(Bump(t)) == Value(t) + 1
  {
  }

  /** The major part never wraps back to a smaller value in a decimal carry. */
  lemma MajorNeverWraps(t: Triple)
    requires InRange(t) && t.major < IntMax
    ensures Bump(t).major >= t.major
  {
  }

  /** `"$major.$minor.$patch"`. */
  function Render(t: Triple): (s: string)
    ensures Split(s, '.') == [IntToString(t.major), IntToString(t.minor), IntToString(t.patch)]
  {
    var parts := [IntToString(t.major), IntToString(t.minor), IntToString(t.patch)];
    NoDot(t.major);
    NoDot(t.minor);
    NoDot(t.patch);
    SplitJoin(parts, '.');
    Join(parts, ".")
  }

  /** A rendered integer has no dot. */
  lemma NoDot(i: int)
    ensures '.' !in IntToString(i)
  {
    var s := IntToString(i);
    if i >= 0 {
      assert AllDigits(s);
    } else {
      assert AllDigits(s[1..]);
      assert forall k :: 1 <= k < |s| ==> s[k] == s[1..][k - 1];
    }
  }

  /** `incrementVersion`: anything that does not split into exactly three
      dot-separated parts gives `1.0.0`; a part that is not an `Int` makes
      `toInt` throw (`Err`); otherwise the bumped version. */
  function IncrementVersion(version: string): (r: Result<string, string>)
    ensures |Split(version, '.')| != 3 ==> r == Ok("1.0.0")
    ensures |Split(version, '.')| == 3 ==>
      var parts := Split(version, '.');
      var (major, minor, patch) := (ParseInt(parts[0]), ParseInt(parts[1]), ParseInt(parts[2]));
      (r.Err? <==> major.None? || minor.None? || patch.None?)
      && (r.Ok? ==> r.value == Render(Bump(Triple(major.value, minor.value, patch.value))))
  {
    var parts := Split(version, '.');
    if |parts| != 3 then Ok("1.0.0")
    else
      var major := ParseInt(parts[0]);
      var minor := ParseInt(parts[1]);
      var patch := ParseInt(parts[2]);
      if major.None? || minor.None? || patch.None? then Err("NumberFormatException")
      else Ok(Render(Bump(Triple(major.value, minor.value, patch.value))))
  }

  /** Incrementing a rendered version renders the bumped version. */
  lemma IncrementRendered(t: Triple)
    requires InRange(t)
    ensures IncrementVersion(Render(t)) == Ok(Render(Bump(t)))
  {
    var parts := Split(Render(t), '.');
    assert parts[0] == IntToString(t.major) && parts[1] == IntToString(t.minor) && parts[2] == IntToString(t.patch);
    ParseIntOfIntToString(t.major);
    ParseIntOfIntToString(t.minor);
    ParseIntOfIntToString(t.patch);
    assert Triple(t.major, t.minor, t.patch) == t;
  }

  /** The version the build starts from: the trimmed contents of `version.txt`,
      or `1.0.0` without the file. */
  function CurrentVersion(versionFile: Option<string>): (v: string)
    ensures versionFile.None? ==> v == "1.0.0"
    ensures versionFile.Some? ==> v == Trim(versionFile.value)
  {
    if versionFile.Some? then Trim(versionFile.value) else "1.0.0"
  }

  /** The rendering of 1.0.0. */
  lemma RenderOneZeroZero()
    ensures Render(Triple(1, 0, 0)) == "1.0.0"
    ensures Render(Triple(1, 0, 1)) == "1.0.1"
  {
    assert IntToString(1) == "1" && IntToString(0) == "0";
    assert Join(["1", "0", "0"], ".") == "1.0.0";
    assert Join(["1", "0", "1"], ".") == "1.0.1";
  }

  /** A build without `version.txt` produces version 1.0.1. */
  lemma FirstBuild()
    ensures IncrementVersion(CurrentVersion(None)) == Ok("1.0.1")
  {
    RenderOneZeroZero();
    IncrementRendered(Triple(1, 0, 0));
  }

  /** Nine builds from 1.0.1 give 1.1.0 (the patch carries into the minor). */
  lemma CarryExample()
    ensures Bump(Triple(1, 0, 9)) == Triple(1, 1, 0)
    ensures Bump(Triple(1, 9, 9)) == Triple(2, 0, 0)
  {
  }
}

=== FILE: window_coords.dfy ===
/**
  The window-coordinate heuristic worked out in the repository's root-level test
  scripts: whether a window's hierarchy bounds are already absolute screen
  coordinates or relative to the window, the affine rescale applied to relative
  bounds, the inclusive hit test on the result, and the SS-device detection of
  test_fixes.py.
*/
module WindowCoords {
  import opened Wrappers
  import opened Text
  import opened Seqs

  /** A rectangle `[x1,y1][x2,y2]` in integer pixels. */
  datatype Box = Box(x1: int, y1: int, x2: int, y2: int)

  /** A rectangle after scaling, in real pixels (rounding is not modelled). */
  datatype RBox = RBox(x1: real, y1: real, x2: real, y2: real)

  /** Per-axis scale and offset: `x * scaleX + offsetX`. */
  datatype Affine = Affine(scaleX: real, scaleY: real, offsetX: real, offsetY: real)

  const Identity: Affine := Affine(1.0, 1.0, 0.0, 0.0)

  /** How far outside the window the hierarchy root may start and still count
      as absolute. */
  const Margin: int := 100

  /** Python `max(1, v)`. */
  function AtLeastOne(v: int): (r: int)
    ensures r >= 1 && r >= v
    ensures v >= 1 ==> r == v
  {
    if v < 1 then 1 else v
  }

  /** The margin rule: the hierarchy is absolute when the root's top-left corner
      lies inside the window grown by the margin on every side, edges included. */
  predicate LooksAbsolute(window: Box, root: Box) {
    window.x1 - Margin <= root.x1 <= window.x2 + Margin
    && window.y1 - Margin <= root.y1 <= window.y2 + Margin
  }

  /** The transform of `test_transform`: identity for absolute bounds;
      otherwise scale the root's size onto the window's, sizes floored at 1,
      and shift so that the root's start lands on the window's start. */
  function Transform(window: Box, root: Box): (a: Affine)
    ensures LooksAbsolute(window, root) ==> a == Identity
    ensures !LooksAbsolute(window, root) ==>
      a.scaleX * AtLeastOne(root.x2 - root.x1) as real == AtLeastOne(window.x2 - window.x1) as real
      && a.scaleY * AtLeastOne(root.y2 - root.y1) as real == AtLeastOne(window.y2 - window.y1) as real
      && root.x1 as real * a.scaleX + a.offsetX == window.x1 as real
      && root.y1 as real * a.scaleY + a.offsetY == window.y1 as real
  {
    if LooksAbsolute(window, root) then Identity
    else
      var wx, rx := AtLeastOne(window.x2 - window.x1) as real, AtLeastOne(root.x2 - root.x1) as real;
      var wy, ry := AtLeastOne(window.y2 - window.y1) as real, AtLeastOne(root.y2 - root.y1) as real;
      var sx, sy := wx / rx, wy / ry;
      QuotientTimesDivisor(wx, rx);
      QuotientTimesDivisor(wy, ry);
      Affine(sx, sy, window.x1 as real - root.x1 as real * sx, window.y1 as real - root.y1 as real * sy)
  }

  lemma QuotientTimesDivisor(a: real, b: real)
    requires b != 0.0
    ensures a / b * b == a
  {
  }

  /** Applies a transform to a rectangle. */
  function Apply(a: Affine, b: Box): (r: RBox) {
    RBox(b.x1 as real * a.scaleX + a.offsetX, b.y1 as real * a.scaleY + a.offsetY,
         b.x2 as real * a.scaleX + a.offsetX, b.y2 as real * a.scaleY + a.offsetY)
  }

  /** The inclusive hit test on transformed bounds. */
  predicate Hits(r: RBox, x: int, y: int) {
    r.x1 <= x as real <= r.x2 && r.y1 <= y as real <= r.y2
  }

  /** Absolute bounds are left as they are. */
  lemma AbsoluteUnchanged(window: Box, root: Box, b: Box)
    requires LooksAbsolute(window, root)
    ensures Apply(Transform(window, root), b) == RBox(b.x1 as real, b.y1 as real, b.x2 as real, b.y2 as real)
  {
  }

  /** For relative bounds whose root and window both have a size of at least
      one pixel on each axis, the root is mapped exactly onto the window. */
  lemma RelativeRootOntoWindow(window: Box, root: Box)
    requires !LooksAbsolute(window, root)
    requires root.x2 - root.x1 >= 1 && root.y2 - root.y1 >= 1
    requires window.x2 - window.x1 >= 1 && window.y2 - window.y1 >= 1
    ensures Apply(Transform(window, root), root)
         == RBox(window.x1 as real, window.y1 as real, window.x2 as real, window.y2 as real)
  {
    var a := Transform(window, root);
    calc {
      root.x2 as real * a.scaleX + a.offsetX;
      (root.x2 - root.x1) as real * a.scaleX + (root.x1 as real * a.scaleX + a.offsetX);
      (window.x2 - window.x1) as real + window.x1 as real;
    }
    calc {
      root.y2 as real * a.scaleY + a.offsetY;
      (root.y2 - root.y1) as real * a.scaleY + (root.y1 as real * a.scaleY + a.offsetY);
      (window.y2 - window.y1) as real + window.y1 as real;
    }
  }

  // ---------------------------------------------------------------------------
  // The split-screen scenarios

  const RightWindow: Box := Box(1906, 80, 2860, 1440)
  const TextViewRelative: Box := Box(20, 294, 932, 1428)
  const TextViewAbsolute: Box := Box(1926, 374, 2838, 1508)

  /** Scenario 1: a hierarchy starting at (0, 0) is relative; the TextView maps
      to [1926,374][2838,1508] and the click at (2393, 376) hits it. */
  lemma ScenarioRelativeFromOrigin()
    ensures var a := Transform(RightWindow, Box(0, 0, 954, 1360));
      Apply(a, TextViewRelative) == RBox(1926.0, 374.0, 2838.0, 1508.0)
      && Hits(Apply(a, TextViewRelative), 2393, 376)
  {
    var root := Box(0, 0, 954, 1360);
    assert !LooksAbsolute(RightWindow, root);
    var a := Transform(RightWindow, root);
    assert a.scaleX * 954.0 == 954.0 && a.scaleY * 1360.0 == 1360.0;
    assert a == Affine(1.0, 1.0, 1906.0, 80.0);
  }

  /** Scenario 3: bounds that are already absolute, under a root starting at
      (1, 0), are classified as relative and shifted again: the left edge lands
      at 3831 and the click misses. */
  lemma ScenarioAbsoluteShiftedTwice()
    ensures var a := Transform(RightWindow, Box(1, 0, 955, 1360));
      Apply(a, TextViewAbsolute).x1 == 3831.0
      && !Hits(Apply(a, TextViewAbsolute), 2393, 376)
  {
    var root := Box(1, 0, 955, 1360);
    assert !LooksAbsolute(RightWindow, root);
    var a := Transform(RightWindow, root);
    assert a.scaleX * 954.0 == 954.0 && a.scaleY * 1360.0 == 1360.0;
    assert a == Affine(1.0, 1.0, 1905.0, 80.0);
  }

  // ---------------------------------------------------------------------------
  // The heads-up window

  const HeadsUpWindow: Box := Box(21, 100, 954, 463)
  const HeadsUpRoot: Box := Box(1, 0, 999, 903)
  const CloseTextView: Box := Box(51, 302, 924, 412)

  /** The transform used before the margin rule: always rescale, without the
      floor at one. A zero-sized root has none (Python divides by zero). */
  function OldTransform(window: Box, root: Box): (a: Option<Affine>)
    ensures a.None? <==> root.x2 == root.x1 || root.y2 == root.y1
    ensures a.Some? ==>
      root.x1 as real * a.value.scaleX + a.value.offsetX == window.x1 as real
      && root.y1 as real * a.value.scaleY + a.value.offsetY == window.y1 as real
    ensures a.Some? ==>
      a.value.scaleX * (root.x2 - root.x1) as real == (window.x2 - window.x1) as real
      && a.value.scaleY * (root.y2 - root.y1) as real == (window.y2 - window.y1) as real
  {
    if root.x2 == root.x1 || root.y2 == root.y1 then None
    else
      var sx := (window.x2 - window.x1) as real / (root.x2 - root.x1) as real;
      var sy := (window.y2 - window.y1) as real / (root.y2 - root.y1) as real;
      Some(Affine(sx, sy, window.x1 as real - root.x1 as real * sx, window.y1 as real - root.y1 as real * sy))
  }

  /** The heads-up root at (1, 0) lies within the margin of its window, so the
      margin rule keeps the bounds and the click at (488, 360) hits the close
      button; the old transform squeezes the button's vertical range to below
      y = 266 and the same click misses. */
  lemma HeadsUpFixed()
    ensures LooksAbsolute(HeadsUpWindow, HeadsUpRoot)
    ensures Hits(Apply(Transform(HeadsUpWindow, HeadsUpRoot), CloseTextView), 488, 360)
    ensures var before := OldTransform(HeadsUpWindow, HeadsUpRoot);
      before.Some? && Apply(before.value, CloseTextView).y2 < 266.0
      && !Hits(Apply(before.value, CloseTextView), 488, 360)
  {
    AbsoluteUnchanged(HeadsUpWindow, HeadsUpRoot, CloseTextView);
    var a := OldTransform(HeadsUpWindow, HeadsUpRoot).value;
    assert a.scaleY * 903.0 == 363.0;
    assert a.offsetY == 100.0;
    assert 412.0 * a.scaleY * 903.0 == 412.0 * 363.0;
  }

  // ---------------------------------------------------------------------------
  // test_split_screen_fixed.py

  /** The rule of test_split_screen_fixed.py: an element starting beyond 500 on
      either axis is taken as absolute. */
  predicate LooksAbsoluteFixed(element: Box) {
    element.x1 > 500 || element.y1 > 500
  }

  /** The transform of test_split_screen_fixed.py: identity for an element that
      looks absolute, otherwise the unfloored rescale, which fails on a
      zero-sized root. */
  function TransformFixed(window: Box, root: Box, element: Box): (a: Option<Affine>)
    ensures LooksAbsoluteFixed(element) ==> a == Some(Identity)
    ensures !LooksAbsoluteFixed(element) ==> a == OldTransform(window, root)
    ensures a.None? <==> !LooksAbsoluteFixed(element) && (root.x2 == root.x1 || root.y2 == root.y1)
  {
    if LooksAbsoluteFixed(element) then Some(Identity) else OldTransform(window, root)
  }

  /** The decision looks at the element alone: the margin test on the root
      plays no part, so the same root can be taken either way. */
  lemma FixedIgnoresMargin(window: Box, root: Box)
    requires !LooksAbsolute(window, root)
    requires root.x2 != root.x1 && root.y2 != root.y1
    ensures TransformFixed(window, root, Box(501, 0, 600, 10)) == Some(Identity)
    ensures TransformFixed(window, root, Box(0, 0, 10, 10)) == OldTransform(window, root)
  {
  }

  /** The vector of the script: the absolute TextView is kept and the click
      hits it. */
  lemma SplitScreenFixedHits()
    ensures TransformFixed(RightWindow, Box(1, 0, 955, 1360), TextViewAbsolute) == Some(Identity)
    ensures Hits(Apply(Identity, TextViewAbsolute), 2393, 376)
  {
  }

  // ---------------------------------------------------------------------------
  // SS-device detection

  /** The markers in the order they are tested. */
  const Markers: seq<string> := ["SS4", "SS3", "SS2", "SS5"]

  /** `test_detect_ss_device`: the first marker, in the order SS4, SS3, SS2,
      SS5, that occurs in the upper-cased text. */
  function DetectSs(text: string): (r: Option<string>)
    ensures r.Some? ==> r.value in Markers && Contains(Upper(text), r.value)
    ensures r.Some? ==> forall j :: 0 <= j < |Markers| && Markers[j] == r.value ==>
      forall i :: 0 <= i < j ==> !Contains(Upper(text), Markers[i])
    ensures r.None? <==> forall j :: 0 <= j < |Markers| ==> !Contains(Upper(text), Markers[j])
  {
    var upper := Upper(text);
    match FirstIndex(Markers, m => Contains(upper, m))
    case None => None
    case Some(k) =>
      forall j | 0 <= j < |Markers| && Markers[j] == Markers[k]
        ensures j == k
      {
      }
      Some(Markers[k])
  }

  /** SS4 wins whenever it occurs, whatever else occurs too. */
  lemma Ss4Wins(text: string)
    requires Contains(Upper(text), "SS4")
    ensures DetectSs(text) == Some("SS4")
  {
  }

  /** A text lacking one of the characters of `p` does not contain `p`. */
  lemma MissingCharNotContained(s: string, p: string, k: nat)
    requires k < |p|
    requires forall i :: 0 <= i < |s| ==> s[i] != p[k]
    ensures !Contains(s, p)
  {
    forall i | 0 <= i <= |s|
      ensures !OccursAt(s, p, i)
    {
      if i + |p| <= |s| {
        assert s[i..i + |p|][k] == s[i + k];
      }
    }
  }

  /** Text without any `S` (in either case) has no marker. */
  lemma NoMarkerWithoutS(text: string)
    requires forall i :: 0 <= i < |text| ==> UpperChar(text[i]) != 'S'
    ensures DetectSs(text) == None
  {
    var upper := Upper(text);
    forall j | 0 <= j < |Markers|
      ensures !Contains(upper, Markers[j])
    {
      assert Markers[j][0] == 'S';
      MissingCharNotContained(upper, Markers[j], 0);
    }
  }

  /** The cases of the script: a lower-case marker is found, a build string
      with SS3 gives SS3, a plain device name gives nothing. */
  lemma DetectExamples()
    ensures DetectSs("ss4_lowercase") == Some("SS4")
    ensures DetectSs("HU_SS3-userdebug-xxx") == Some("SS3")
    ensures DetectSs("Normal_Device-xxx") == None
  {
    var a := Upper("ss4_lowercase");
    assert a[0..3] == "SS4";
    assert OccursAt(a, "SS4", 0);
    var b := Upper("HU_SS3-userdebug-xxx");
    assert b[3..6] == "SS3";
    assert OccursAt(b, "SS3", 3);
    MissingCharNotContained(b, "SS4", 2);
    NoMarkerWithoutS("Normal_Device-xxx");
  }
}

=== FILE: wrappers.dfy ===
/** Failure-carrying datatypes shared by every module of the model. */
module Wrappers {

  /** A possibly absent value: JavaScript `null`/`undefined`, Python `None`, Kotlin `null`. */
  datatype Option<+T> = None | Some(value: T) {

    /** The wrapped value, or `default` when absent (Kotlin `?:`, Python `dict.get(k, d)`). */
    function GetOr(default: T): T {
      match this
      case Some(v) => v
      case None => default
    }
  }

  /** Either a value or an error, for operations whose source raises or returns an error code. */
  datatype Result<+R, +E> = Ok(value: R) | Err(error: E)
}
